=== FILE: README.md ===
# nldates (Portuguese edition): date phrases and date suggestions in Dafny

This project models the pure core of a note-taking plugin that turns natural
language date phrases, in Portuguese and in English, into calendar dates. It
covers three parts.

* **The date-resolution cascade of `getParsedDate`.** Ten phrase rules are
  tried in order, and the first rule that answers decides. The rules are:
  1. numeric `D/M[/Y]` dates;
  2. `dia N`;
  3. the first or last weekday of a month;
  4. `esta semana`;
  5. `próxima …`;
  6. `X passada` / `pas X`;
  7. `última X`;
  8. `último dia de X`;
  9. `meados de X`;
  10. a bare weekday name.

  When every rule passes, the grammar engine's reading is used, and the year
  is pinned when the phrase did not state one. The cascade is supported by:
  * the parser's word tables and `normalizeTimeUnit`;
  * the three extractors the plugin registers on the engine: Christmas,
    relative offsets such as `em 3 dias` and `2 semanas atrás`, and shorthand
    arithmetic such as `7d -3w +1m`.
* **The shared suggestion generator `getDateSuggestions` and its preview.**
  It maps a typed query to an ordered list of completions. The branches
  have a fixed precedence: blank, time, Portuguese qualifier, English
  qualifier, Portuguese weekday, English weekday, shorthand, Portuguese
  relative, English relative, defaults, and finally the query echoed back.
* **The editor autosuggest.** This covers:
  * its own variant of the generator, which has no blank branch, has longer
    relative lists, and filters by the query as typed, except in the
    Portuguese qualifier branch, which filters by the lowered query with `sem`
    expanded;
  * the never-empty `getSuggestions`;
  * what accepting a completion inserts;
  * the `onTrigger` test that opens a suggestion session.

Dates are `Date(year, month, day)` values with an exact day number
(`Calendar.ToDays`), so weekday arithmetic (0 = Sunday … 6 = Saturday) and ±N
days are exact. Regular expressions are hand-written scanners over the
lower-cased text. JavaScript's `\w`, `\d` and `\s` classes are modelled as they
are, so `\w` is ASCII only. The ambient clock (`window.moment()`, `new Date()`)
is an explicit `now`. The grammar engine is an uninterpreted parameter
(`DateParser.Grammar`), and so is the plugin's date resolution
(`Suggestions.Resolver`).

Modules:
* `Text`: characters, lower-casing, scanning, trimming, digits.
* `Calendar`: dates, day numbers, weekdays, date-library arithmetic.
* `Locale`: week-start setting, weekday and month tables, `normalizeTimeUnit`.
* `Patterns`: the parser's regular expressions.
* `DateParser`: the rules and the cascade.
* `Extractors`: the three engine extractors.
* `Suggestions` and `SuggestionProperties`: the shared generator and the
  lemmas about it.
* `EditorSuggest`: the editor autosuggest.

## Model

| member | source | states |
|---|---|---|
| Text.LowerStr | src/suggest/suggestions.ts:44 | `toLowerCase` keeps the length, lowers every character by itself, leaves no upper-case character, and leaves already lower-case text unchanged |
| Text.LowerStrLetters | src/suggest/suggestions.ts:44 | a lowered text has no A-Z; each capital A-Z becomes the letter 32 code points up; digits and white space stay |
| Text.LowerStrIsLower | src/suggest/suggestions.ts:44 | a lowered text is already lower-case, so lowering it again changes nothing |
| Text.Lower | src/suggest/suggestions.ts:44 | A-Z become a-z (32 code points up); a-z, digits, white space and `_` stay; every character keeps its digit, space and ASCII-word class; no A-Z is left |
| Text.LowerIdempotent | src/suggest/suggestions.ts:44 | lowering twice is lowering once |
| Text.Trim | src/parser.ts:224-226 | `trim` removes exactly the leading and trailing white space: the result is a slice `s[a..b]` with only white space before `a` and after `b`, empty exactly when the text is all white space, and otherwise starting and ending with non-space |
| Calendar.DaysInMonth | src/parser.ts:244 | months have 28 to 31 days, and 29 exactly for February of a leap year |
| Calendar.AddDays | src/parser.ts:292 | adding n days moves the day number by exactly n and gives a real date |
| Calendar.AddDaysWeekday | src/parser.ts:290-292 | moving by n days moves the weekday by n modulo 7 |
| Calendar.ShiftToWeekday | src/parser.ts:376 | `day(k)` gives weekday k in the same Sunday-start week, k − wd(d) days from d |
| Calendar.StartOfWeek | src/parser.ts:196-198 | the start of the week is the latest day on or before d with the week-start weekday |
| Calendar.AddMonths | src/parser.ts:308 | adding months moves the month count by n and clamps a day past the new month's end |
| Calendar.AddYears | src/parser.ts:140 | adding years keeps month and day, except 29 February into a common year becomes the 28th |
| Calendar.MonthStart | src/parser.ts:350 | the start of the month n months on is day 1 of that month |
| Calendar.SetYearClamped | src/parser.ts:233-235 | setting the year keeps month and day when that date exists, else clamps to the month's last day |
| Calendar.SetFullYear | src/parser.ts:460-462 | setting the full year keeps month and day when that date exists, else overflows 29 February to 1 March |
| Calendar.AddMinutes | src/parser.ts:92-97 | adding minutes moves the instant by exactly n minutes, carrying whole days |
| Locale.WeekStartIndex | src/parser.ts:174-181 | the locale default gives the locale's first weekday, and each named day its index, Sunday 0 to Saturday 6 |
| Locale.LookupWeekdayForms | src/parser.ts:200-222 | a word names weekday k exactly when it is one of k's spellings: the name, its first three letters, the `-feira` form of Monday to Friday, and `sabado`/`sab` for Saturday |
| Locale.LookupMonth | src/parser.ts:260-274 | a month word is found exactly when it is in the table, and it maps to a month 1..12 |
| Locale.NormalizeTimeUnit | src/parser.ts:318-328 | semana/sem give week, mês/mes month, ano year, dia day; week, month and year stay; a Portuguese weekday gives its English name; any other word stays |
| Locale.UnitWordsAreNotWeekdays | src/parser.ts:21-43 | no unit word is a key of the weekday table |
| Patterns.FirstMatch | src/parser.ts:184-194 | an unanchored match is the match at the leftmost index that has one, and none when no index matches |
| Patterns.FirstMatchLeftmost | src/parser.ts:184-194 | when j is the first index with a match, the unanchored match is the one at j |
| Patterns.KeywordWord | src/parser.ts:184-187 | the word after a keyword and white space is a non-empty run of `[\wêç-]` |
| Patterns.PassadoWord | src/parser.ts:189 | the word before passado/passada/pas is a non-empty run of `[\wêç-]` |
| Patterns.LastDayOf | src/parser.ts:191-193 | the capture after `último dia de` and its variants is a span of the text |
| Patterns.MidOf | src/parser.ts:194 | the capture after `meados de` / `mid` is a non-empty span of the text |
| Patterns.NumericDateParts | src/parser.ts:224-226 | a match gives 1–2 digit day and month groups, an optional 2–4 digit year, and separators from `/ . -` |
| Patterns.NumericDatePartsOfText | src/parser.ts:224-226 | the groups of a date written with separators are read back exactly |
| Patterns.NumericDatePartsOfShortText | src/parser.ts:224-226 | the groups of a day and month written with one separator are read back exactly |
| Patterns.DayOfMonthDigits | src/parser.ts:240 | the capture of `dia N` is one or two digits |
| Patterns.DayOfMonthDigitsOfText | src/parser.ts:240 | `dia` followed by one or two digits captures exactly those digits |
| Patterns.NthWeekdayParts | src/parser.ts:249-253 | the weekday word, and the month word when present, are non-empty runs of `[\wêç-]` |
| Patterns.KeywordPhraseWord | src/parser.ts:184-190 | in a separated keyword list, keyword k, a space and a word up to a non-word character capture exactly that word |
| Patterns.ThisKeywordsSeparated | src/parser.ts:184 | no alternative of `this|est[ea]` followed by a space is a prefix of another, so the alternation picks the written keyword |
| Patterns.NextKeywordsSeparated | src/parser.ts:185 | the same for `next|pr[óo]xim[oa]|pr[óo]x` |
| Patterns.LastKeywordsSeparated | src/parser.ts:187 | the same for `last|[úu]ltim[oa]|ult` |
| Patterns.LastDayKeywordsSeparated | src/parser.ts:191-193 | the same for the spellings of `last day of`, `end of`, `último dia de` and `fim de` |
| Patterns.OccurrenceKeywordsSeparated | src/parser.ts:252 | the same for `primeir[ao]|[úu]ltim[ao]` |
| Patterns.PassadoPhraseWord | src/parser.ts:189 | a word followed by a space and passado, passada or pas, then a non-word character or the end, is captured exactly |
| Patterns.LastDayOfPhrase | src/parser.ts:191-193 | after any `último dia de`-style keyword and a space, the capture is the whole rest of the line |
| Patterns.MidOfPhrase | src/parser.ts:194 | after `mid` or `meados de` and a space, the capture is exactly the following word |
| Patterns.NthWeekdayPhraseOfMonth | src/parser.ts:249-253 | `<primeir…/últim…> <weekday> de <month>` is read back: first or last from the keyword, and both words exactly |
| Patterns.NthWeekdayPhraseThisMonth | src/parser.ts:249-253 | `<primeir…/últim…> <weekday> do mês` is read back with the weekday word and no month |
| DateParser.ParseDate | src/parser.ts:454-456 | the engine gives a date exactly when it has an interpretation |
| DateParser.ReferenceDate | src/parser.ts:196-198 | when the engine does not read a weekday the reference day is today; when it does, it is the day with the locale's week-start weekday at most 6 days back, the start of the week |
| DateParser.FirstWeekdayOfMonth | src/parser.ts:285-293 | the first occurrence has the target weekday and a day in 1..7 of the target month |
| DateParser.LastWeekdayOfMonth | src/parser.ts:295-301 | the last occurrence has the target weekday and lies in the month's last seven days |
| DateParser.FirstWeekdayIsEarliest | src/parser.ts:285-293 | no earlier day of the month has the target weekday |
| DateParser.LastWeekdayIsLatest | src/parser.ts:295-301 | no later day of the month has the target weekday |
| DateParser.WeekdayOccurrence | src/parser.ts:285-302 | `primeir…` picks the first occurrence and `últim…` the last, each in the given month |
| DateParser.NthWeekdayDate | src/parser.ts:275-311 | the result has the weekday, in the first or last seven days of its month; a known month is used, next year when earlier than the reference month; an unknown month word keeps the reference month; with no month, the reference month's occurrence unless it is already past, then the next month's, so never before the reference day |
| DateParser.NextMonthIsLater | src/parser.ts:304-311 | any day of the following month lies after the reference day |
| DateParser.PreviousWeekWeekday | src/parser.ts:372-378 | `X passada` has weekday X, lies in the Sunday-start week before today's, and is 1 to 13 days back |
| DateParser.EarlierThisWeek | src/parser.ts:398-400 | an earlier weekday of this week lies that many days back |
| DateParser.InLastWeek | src/parser.ts:401-404 | weekday k of last week is 7 days back, shifted to k |
| DateParser.InNextWeek | src/parser.ts:447-448 | weekday k of next week is 7 days on, shifted to k |
| DateParser.LaterThisWeek | src/parser.ts:450-451 | a later weekday of this week lies that many days on |
| DateParser.MostRecentWeekday | src/parser.ts:391-405 | `última X` has weekday X, strictly before today and at most 7 days back |
| DateParser.MostRecentIsClosest | src/parser.ts:391-405 | no day between it and today has weekday X |
| DateParser.LastSabadoPassesOn | src/parser.ts:387-392 | in `última sábado` the word pattern stops before the accented `á`, so the captured word is `s`, which names no weekday, and the rule passes the phrase on |
| DateParser.UpcomingWeekday | src/parser.ts:441-452 | a bare weekday X has weekday X, strictly after today and at most 7 days on |
| DateParser.UpcomingIsClosest | src/parser.ts:441-452 | no day between today and it has weekday X |
| DateParser.TwoDigitYear | src/parser.ts:230-231 | a two-digit year reads as 1969..2068 with the same last two digits |
| DateParser.YearOfGroup | src/parser.ts:228-231 | a year group is accepted exactly when it has four or two digits |
| DateParser.StrictNumericDate | src/parser.ts:228-236 | strict parsing gives the stated day and month, the year from the group or the current year, and a date exactly when the fields form a real date |
| DateParser.NumericRule | src/parser.ts:224-238 | rule 1 passes exactly when the trimmed text does not match or the strict date fails; an answer has the typed month and the typed day, or that month's last day when the day does not exist in the answer's year; with a year it is the strict date, without one it is in the reference year |
| DateParser.DayOfMonthRule | src/parser.ts:240-247 | rule 2 answers exactly for `dia N`, with day N of the reference month |
| DateParser.DayPhraseResolves | src/parser.ts:240-247 | `dia N` gives day N of the reference month when 1 ≤ N ≤ days in month, and otherwise passes the phrase on |
| DateParser.NthWeekdayRule | src/parser.ts:249-315 | rule 3 answers exactly when the phrase matches and the weekday word is known |
| DateParser.ThisRule | src/parser.ts:331-336 | rule 4 answers exactly for this/esta/este plus a word, with the engine's reading of `this <week-start day>`, and only for week words |
| DateParser.NextStep | src/parser.ts:339-365 | week gives `next <week start>`, month and year give the next month's or year's first day, a weekday gives `next <day>`; other words pass the phrase on |
| DateParser.PastStep | src/parser.ts:368-384 | a weekday gives that weekday of last week; semana/sem give last week's start; other words pass the phrase on |
| DateParser.WeekStartWeekAgo | src/parser.ts:381-382 | last week's start has the week-start weekday and lies 7 to 13 days back |
| DateParser.MostRecentStep | src/parser.ts:387-417 | a weekday gives its most recent occurrence; semana, mês and ano give the start of last week, month or year; other words pass the phrase on |
| DateParser.LastDayOfRule | src/parser.ts:420-431 | the rule answers exactly when the phrase has a `último dia de`-style keyword and the engine reads its capture; the answer is the forward reading of `year-month-lastDay` for the year and month read from the capture |
| DateParser.LastDayPhraseResolves | src/parser.ts:420-431 | for `keyword + " " + rest` the engine is handed exactly the original-case rest; if it reads nothing the phrase passes on, otherwise the answer is that month's last day |
| DateParser.MidOfRule | src/parser.ts:434-438 | rule 9 answers exactly for `meados de X`, with the engine's forward reading of `X 15` |
| DateParser.BareWeekdayRule | src/parser.ts:441-452 | rule 10 answers exactly for a whole weekday word, with its upcoming occurrence; UpcomingWeekday and UpcomingIsClosest say that occurrence is the nearest later day with that weekday |
| DateParser.Fallback | src/parser.ts:454-464 | the fallback gives a date exactly when the engine reads the phrase; a certain year keeps the engine's date, an uncertain one moves it to the reference year, and a 29 February that does not exist there becomes 1 March |
| DateParser.RunRules | src/parser.ts:224-464 | the first rule's answer is the result, and when every rule passes the engine decides |
| DateParser.FirstAnswerWins | src/parser.ts:224-464 | the first rule that answers decides, whatever the later rules would say |
| DateParser.SkipsContinue | src/parser.ts:224-464 | a rule that passes hands the phrase to the rest of the cascade |
| Extractors.ChristmasDay | src/parser.ts:50-61 | `natal` gives 25 December and `véspera de natal` gives the 24th, and only a match gives a date |
| Extractors.ChristmasExample | src/parser.ts:50-61 | `Natal` gives 25 December |
| Extractors.ChristmasEveExample | src/parser.ts:50-61 | `Véspera de Natal` gives 24 December |
| Extractors.SignedAmount | src/parser.ts:80-87 | the amount is negated exactly when the matched text contains `atrás`; OffsetPhraseRoundTrip reads a built phrase back with its sign |
| Extractors.OffsetPhraseAgo | src/parser.ts:82 | an offset phrase contains `atrás` exactly when it was built with it |
| Extractors.OffsetPhraseRoundTrip | src/parser.ts:77-87 | an `N unit [atrás]` phrase is read back with its amount, its unit and the right sign |
| Extractors.ApplyOffset | src/parser.ts:88-121 | each canonical unit moves the reference by that unit, and any other unit name gives no result |
| Extractors.DayUnitSpelling | src/parser.ts:91-100 | the day case is spelled `d`, so a dictionary that says `day` gives no result |
| Extractors.RelativeOffset | src/parser.ts:75-122 | with no match there is no result; with a match, the result is the reference moved by the signed amount in the looked-up unit when the dictionary names the unit, and none otherwise |
| Extractors.TermsEnd | src/parser.ts:127 | the repeated part ends where it started exactly when it takes no term, and no further term can be read after its end |
| Extractors.ShorthandAt | src/parser.ts:127 | a shorthand match has at least one term, each with a unit in d, w, m, y |
| Extractors.TermAtText | src/parser.ts:127 | a term written as an optional minus, its digits and its unit letter is read back whole, whatever follows it |
| Extractors.TermsAfterText | src/parser.ts:127 | terms written one space apart are read back in order, and the repeated part runs to the end of the text |
| Extractors.ShorthandAtText | src/parser.ts:127 | written shorthand is matched as exactly its terms |
| Extractors.ShorthandRoundTrip | src/parser.ts:125-151 | written shorthand is read back as its terms and moves the reference by them from left to right |
| Extractors.ShorthandExample | src/parser.ts:127 | `7d -3w` reads as +7 days and −3 weeks |
| Extractors.ApplyTerm | src/parser.ts:137-140 | d moves by days, w by seven days, m by months, y by years |
| Extractors.Shorthand | src/parser.ts:125-151 | the result is the reference moved by every term from left to right, with the time of day kept; ApplyTerm, ApplyTermsConcat, DaysAndWeeksAddUp and ShorthandRoundTrip state what the terms do and that written shorthand is read back |
| Extractors.DaysAndWeeksAddUp | src/parser.ts:134-141 | day and week terms move the reference by their signed total, in any order |
| Extractors.ApplyTermsConcat | src/parser.ts:134-141 | applying terms left to right composes over concatenation |
| Suggestions.YearText | src/suggest/suggestions.ts:248 | `YYYY` is four digits reading back the year for years 0..9999 |
| Suggestions.FormatDMYRoundTrip | src/suggest/suggestions.ts:248 | a `DD/MM/YYYY` preview is read back by the numeric rule as the same date |
| Suggestions.StripTimePrefix | src/suggest/suggestions.ts:240-243 | exactly the leading `time:` or `hora:` is removed |
| Suggestions.Preview | src/suggest/suggestions.ts:236-249 | the preview is missing exactly when the stripped value does not resolve, and is otherwise that date as DD/MM/YYYY |
| Suggestions.PreviewOfTimeLabel | src/suggest/suggestions.ts:240-244 | `hora:` and `time:` labels preview alike, as the bare time phrase |
| Suggestions.PtAbbreviationsExpand | src/suggest/suggestions.ts:28-37 | every Portuguese abbreviation stands for one of the seven weekday names |
| Suggestions.KeepPrefixed | src/suggest/suggestions.ts:218 | the filter keeps exactly the labels whose lower-case form starts with the key, in their order |
| Suggestions.Qualifier | src/suggest/suggestions.ts:68-72 | the captured qualifier is a prefix of the query whose lower case is a qualifier word, and the first such word in the pattern's order (`próxima` before `próx`); there is none exactly when no word prefixes the query |
| Suggestions.ExpandSem | src/suggest/suggestions.ts:79 | only the first whole word `sem` is replaced by `semana`; with none the query is unchanged |
| Suggestions.PtWeekdayMatches | src/suggest/suggestions.ts:104-107 | an abbreviation gives its one day; otherwise exactly the names the query prefixes, in order |
| Suggestions.EnWeekdayMatches | src/suggest/suggestions.ts:133-135 | exactly the English names whose lower case the query prefixes, in order |
| Suggestions.PtRelativeDelta | src/suggest/suggestions.ts:166-170 | the captured delta is a signed whole number |
| Suggestions.EnRelativeDelta | src/suggest/suggestions.ts:189-191 | the captured delta is a signed whole number |
| SuggestionProperties.PtDeltaAfterEm | src/suggest/suggestions.ts:166 | `em N`, N a signed number followed by a non-digit or the end, captures exactly N |
| SuggestionProperties.PtDeltaAfterDaquiA | src/suggest/suggestions.ts:166 | `daqui a N` captures exactly N |
| SuggestionProperties.PtDeltaBeforeUnit | src/suggest/suggestions.ts:167-169 | `N <unit>`, for every Portuguese unit word, captures exactly N |
| SuggestionProperties.EnDeltaAfterIn | src/suggest/suggestions.ts:190 | `in N` captures exactly N |
| SuggestionProperties.EnDeltaBeforeUnit | src/suggest/suggestions.ts:191 | `N <unit>`, for every English unit word, captures exactly N |
| Suggestions.Classify | src/suggest/suggestions.ts:60-207 | the branch taken is the first whose pattern recognises the query, in source order; it carries exactly what that pattern captured (the qualifier, the weekday matches, the delta) |
| Suggestions.ClassifyFirstRecognised | src/suggest/suggestions.ts:60-207 | branch k is taken if and only if pattern k recognises the query and no earlier pattern does |
| Suggestions.DefaultWhenNothingRecognised | src/suggest/suggestions.ts:60-207 | the default list is reached if and only if none of the eight patterns recognises the query |
| Suggestions.QualifierUnits | src/suggest/suggestions.ts:73-76 | `pas` combines with neither mês nor ano; other qualifiers combine with both; all combine with semana and every weekday |
| Suggestions.SharedLabels | src/suggest/suggestions.ts:209-233 | when the default branch keeps nothing the query itself is the one label; otherwise the branch's labels, which may be empty (a time or qualifier query whose branch keeps nothing gets none); the per-branch output lemmas (TimeOutput, QualifierOutput, PtWeekdayOutput, EnWeekdayOutput, ShorthandEchoed, RelativeOutput) say what those labels are |
| Suggestions.GetDateSuggestions | src/suggest/suggestions.ts:40-234 | a blank query gets the five starters; otherwise `SharedLabels(q)`; time labels unpreviewed, every other label previewed |
| SuggestionProperties.TimeLabelsStartWithHora | src/suggest/suggestions.ts:61-63 | every time label, lowered, starts with `hora:` |
| SuggestionProperties.TimeOutput | src/suggest/suggestions.ts:60-65 | the time branch offers exactly the `hora:` labels the lowered query prefixes, in order |
| SuggestionProperties.TimeQueryOffersNothing | src/suggest/suggestions.ts:60-65 | a query starting `time` gets an empty list |
| SuggestionProperties.HoraQueryOffersAllTimes | src/suggest/suggestions.ts:60-65 | `hora` in any case gets all five time labels, unpreviewed |
| SuggestionProperties.QualifierLabels | src/suggest/suggestions.ts:79-83 | qualifier phrases are filtered by the lowered query with `sem` expanded |
| SuggestionProperties.QualifierOutput | src/suggest/suggestions.ts:67-88 | qualifier labels are an order-preserving subsequence of `reference unit` phrases, each starting with the expanded query |
| SuggestionProperties.PasPhrasesOmit | src/suggest/suggestions.ts:73-82 | the phrases of `pas` include neither `pas mês` nor `pas ano` |
| SuggestionProperties.PasOmitsMonthAndYear | src/suggest/suggestions.ts:73-83 | after `pas` neither generator offers the month or the year |
| SuggestionProperties.QualifierBeforeWeekdays | src/suggest/suggestions.ts:67-101 | a query with a Portuguese qualifier, not a time query, takes the qualifier branch and never a weekday branch |
| SuggestionProperties.ProximaCapturedWhole | src/suggest/suggestions.ts:68-71 | in `próxima semana` the capture is the whole `próxima`, not `próx` |
| SuggestionProperties.PtWeekdaysBeforeEnglish | src/suggest/suggestions.ts:101-135 | for `t` both weekday patterns match, yet the Portuguese branch is taken, with terça as its only day |
| SuggestionProperties.ExpandSemExample | src/suggest/suggestions.ts:79 | `prox sem` is compared as `prox semana` |
| SuggestionProperties.AbbreviationOffersVariations | src/suggest/suggestions.ts:102-124 | an exact abbreviation in any case wins over prefix matching and gets the five variations of its day |
| SuggestionProperties.PtWeekdayOutput | src/suggest/suggestions.ts:109-130 | one Portuguese weekday match gives its five variations; several give the plain names |
| SuggestionProperties.EnWeekdayOutput | src/suggest/suggestions.ts:136-153 | one English weekday match gives the day, `next` and `last`; several give the plain names |
| SuggestionProperties.ShorthandQueryExample | src/suggest/suggestions.ts:156 | `7d -3w` matches the shorthand pattern |
| SuggestionProperties.ShorthandEchoed | src/suggest/suggestions.ts:155-163 | a shorthand query gets exactly one completion: itself with its preview |
| SuggestionProperties.EmFiveClassified | src/suggest/suggestions.ts:165-172 | `em 5` reaches the Portuguese relative branch with delta 5 |
| SuggestionProperties.EmFiveFilter | src/suggest/suggestions.ts:173-181 | `em 5` keeps the forward phrases (and, in the editor, minutes and hours) and none of the `atrás` phrases |
| SuggestionProperties.RelativeOutput | src/suggest/suggestions.ts:171-186 | a relative query offers the relative labels its lower case prefixes |
| SuggestionProperties.SharedEmFive | src/suggest/suggestions.ts:171-186 | `em 5` offers `em 5 dias`, `em 5 semanas`, `em 5 meses` |
| SuggestionProperties.SharedOffersSomething | src/suggest/suggestions.ts:209-233 | a blank query, and any query past the filtering branches, gets a non-empty list |
| SuggestionProperties.PreviewReadsBack | src/suggest/suggestions.ts:244-248 | the numeric rule reads a DD/MM/YYYY preview back as the same date |
| EditorSuggest.EditorDateSuggestions | src/suggest/date-suggest.ts:49-218 | the editor's list has the branch's labels, filtered by the query as typed except in the Portuguese qualifier branch (lowered, `sem` expanded); only a shorthand is previewed |
| EditorSuggest.GetSuggestions | src/suggest/date-suggest.ts:39-47 | the list is never empty; with no date suggestion it is the query itself |
| EditorSuggest.CapitalTimeQueryFallsBack | src/suggest/date-suggest.ts:83-93 | a time query with a capital first letter keeps no time label and falls back to the query itself |
| EditorSuggest.EditorAbbreviationOffersVariations | src/suggest/date-suggest.ts:123-141 | an abbreviation gets the five variations of its day in the editor too |
| EditorSuggest.EditorPtWeekdayOutput | src/suggest/date-suggest.ts:123-145 | one Portuguese weekday match gives five variations; several give the plain names; none previewed |
| EditorSuggest.EditorRelativeOutput | src/suggest/date-suggest.ts:171-187 | a relative query offers the eight-label list filtered by the raw query |
| EditorSuggest.EditorEmFive | src/suggest/date-suggest.ts:171-187 | `em 5` offers minutes, hours, days, weeks, months, in that order |
| EditorSuggest.EditorDefaultOutput | src/suggest/date-suggest.ts:206-217 | a default-branch query offers the everyday words its raw text prefixes |
| EditorSuggest.EditorEmptyQuery | src/suggest/date-suggest.ts:206-217 | an empty query offers all seven everyday words |
| EditorSuggest.SelectSuggestion | src/suggest/date-suggest.ts:244-271 | a time label inserts the formatted time of its rest, never linked; otherwise the date, linked iff the setting is on, aliased iff Shift |
| EditorSuggest.TimeLabelIgnoresSettings | src/suggest/date-suggest.ts:251-258 | neither Shift nor the link setting changes what a time label inserts |
| EditorSuggest.ShiftMattersOnlyForLinks | src/suggest/date-suggest.ts:262-268 | Shift changes the insertion exactly when a date label is linked |
| EditorSuggest.Range | src/suggest/date-suggest.ts:304-310 | a range is the clamped slice of the line, empty when reversed |
| EditorSuggest.OnTrigger | src/suggest/date-suggest.ts:285-323 | no session when disabled, when the range lacks the trigger, or when a character of `` [`a-zA-ZÀ-ÿ0-9] `` precedes it; otherwise the query follows the trigger |
| EditorSuggest.TriggerAfterSpace | src/suggest/date-suggest.ts:312-322 | `@` after a space opens a session with an empty query |
| EditorSuggest.TriggerInsideWord | src/suggest/date-suggest.ts:312-316 | `@` inside an e-mail address opens no session |
| EditorSuggest.SessionQueryGrows | src/suggest/date-suggest.ts:295-298 | an open session keeps its start, so the query grows with what is typed |

## Left out

- The grammar engine (chrono-node) is an uninterpreted parameter. This covers the rules that delegate to it: `esta semana`, `próxima semana` and `próxima X`, the month of `último dia de`, `meados de`, and the fallback. Its own locale parsers, the ordinal parser and the English fallback parsers are not modelled.
- The helpers of `src/utils` are not part of this model. `getLastDayOfMonth` is taken to be the month length. The time-unit dictionary is a parameter of `Extractors.RelativeOffset`. `getLocaleWeekStart` is the context's locale week start, and `getWeekNumber` is `Locale.WeekStartIndex`.
- Ambient time is the explicit `now` of the context. Time zones, daylight saving and the time of day of the resolved dates are not modelled. The cascade works on days; only the relative-offset extractor carries minutes.
- Date formatting is modelled only for the `DD/MM/YYYY` preview. The plugin's `parseDate`/`parseTime` and their formatted strings are function parameters of `EditorSuggest.SelectSuggestion`. `generateMarkdownLink` becomes the `DateLink` insertion.
- `renderSuggestion`, `replaceRange`, the suggestion-popup wiring, the date picker modal and the settings tab are user interface and are not modelled.
- Object lookups in the word tables do not see JavaScript prototype keys such as `constructor`. The source's lookups would find those too.
- Dates are unbounded. JavaScript dates stop at ±8.64e15 ms from 1970, and the date library's arithmetic past that range gives an invalid date, which the model does not have.
- Numbers read with `parseInt` are exact integers here. The source reads them as doubles, which lose precision past 2^53; such amounts are not distinguished.
- Extractors.TermsEnd: does not state that the repeated part ends on a unit letter; `Extractors.TermsAfterText` states the end for written shorthand.
- Text.Lower: models `toLowerCase` on the Latin-1 range only. Letters beyond U+00FF are kept as they are.
- EditorSuggest.Range: models a single editor line. A position before the line start is clamped to the line start rather than reaching the previous line.
- Suggestions.YearText: stated as four digits only for years 0..9999, the range the preview's read-back is proved for.
- Suggestions.FormatDMYRoundTrip: proved for years 0..9999 only. Other years print a sign or more digits, and the numeric rule does not read those back.
- SuggestionProperties.PreviewReadsBack: proved for years 0..9999 only, for the same reason.
- SuggestionProperties.EmFiveFilter: the filter's contents are worked out for the delta `5` only. For any delta, `SuggestionProperties.RelativeOutput` and `EditorSuggest.EditorRelativeOutput` state which labels are offered.

=== FILE: calendar.dfy ===
/** Proleptic Gregorian calendar arithmetic at day granularity: the part of the
    date library the resolver relies on (month lengths, day offsets, weekday
    accessors, week starts, month and year addition), written out exactly. */
module Calendar {

  /** Weekday index, 0 = Sunday .. 6 = Saturday, whatever the display language. */
  type Weekday = k: int | 0 <= k < 7

  datatype Date = Date(year: int, month: int, day: int)

  predicate IsLeapYear(y: int)
  {
    (y % 4 == 0 && y % 100 != 0) || y % 400 == 0
  }

  function DaysInYear(y: int): int
  {
    if IsLeapYear(y) then 366 else 365
  }

  function DaysInMonth(y: int, m: int): (n: int)
    requires 1 <= m <= 12
    ensures 28 <= n <= 31
    ensures n == 29 <==> m == 2 && IsLeapYear(y)
  {
    if m == 2 then (if IsLeapYear(y) then 29 else 28)
    else if m == 4 || m == 6 || m == 9 || m == 11 then 30
    else 31
  }

  /** A calendar date that exists: month 1..12, day inside that month. */
  predicate ValidDate(d: Date)
  {
    1 <= d.month <= 12 && 1 <= d.day <= DaysInMonth(d.year, d.month)
  }

  /** The dates that exist. */
  type CalendarDate = d: Date | ValidDate(d) witness Date(2000, 1, 1)

  /** Days from 0001-01-01 to the first of January of year `y` in the proleptic
      Gregorian calendar (negative for earlier years). */
  function DaysBeforeYear(y: int): int
  {
    var p := y - 1;
    365 * p + p / 4 - p / 100 + p / 400
  }

  /** Days from the first of January to the first of month `m` of year `y`. */
  function DaysBeforeMonth(y: int, m: int): (n: int)
    requires 1 <= m <= 12
    ensures 0 <= n
  {
    var leap := if IsLeapYear(y) then 1 else 0;
    if m == 1 then 0
    else if m == 2 then 31
    else if m == 3 then 59 + leap
    else if m == 4 then 90 + leap
    else if m == 5 then 120 + leap
    else if m == 6 then 151 + leap
    else if m == 7 then 181 + leap
    else if m == 8 then 212 + leap
    else if m == 9 then 243 + leap
    else if m == 10 then 273 + leap
    else if m == 11 then 304 + leap
    else 334 + leap
  }

  /** Day number of a date: 0001-01-01 is day 0. */
  function ToDays(d: Date): int
    requires ValidDate(d)
  {
    DaysBeforeYear(d.year) + DaysBeforeMonth(d.year, d.month) + d.day - 1
  }

  /** `moment.day()`: 0001-01-01 was a Monday. */
  function WeekdayOf(d: Date): Weekday
    requires ValidDate(d)
  {
    (ToDays(d) + 1) % 7
  }

  /** Number of the Sunday-start week a date lies in; consecutive weeks have
      consecutive numbers. */
  function SundayWeek(d: Date): int
    requires ValidDate(d)
  {
    (ToDays(d) + 1) / 7
  }

  lemma DaysBeforeMonthStep(y: int, m: int)
    requires 1 <= m < 12
    ensures DaysBeforeMonth(y, m + 1) == DaysBeforeMonth(y, m) + DaysInMonth(y, m)
  {
  }

  lemma DaysBeforeDecember(y: int)
    ensures DaysBeforeMonth(y, 12) + DaysInMonth(y, 12) == DaysInYear(y)
  {
  }

  /** A year has as many days as the gap between its first day and the next year's. */
  lemma DaysBeforeNextYear(y: int)
    ensures DaysBeforeYear(y + 1) == DaysBeforeYear(y) + DaysInYear(y)
  {
    DivStep(y, 4);
    DivStep(y, 100);
    DivStep(y, 400);
    CenturyDivisors(y);
  }

  /** A multiple of 400 is a multiple of 100, and a multiple of 100 one of 4. */
  lemma CenturyDivisors(y: int)
    ensures y % 400 == 0 ==> y % 100 == 0
    ensures y % 100 == 0 ==> y % 4 == 0
  {
    if y % 400 == 0 {
      var q := y / 400;
      assert y == (4 * q) * 100 + 0;
      DivUnique(y, 100, 4 * q, 0);
    }
    if y % 100 == 0 {
      var q := y / 100;
      assert y == (25 * q) * 4 + 0;
      DivUnique(y, 4, 25 * q, 0);
    }
  }

  /** Stepping from `y - 1` to `y` raises `y / n` by one exactly when `n` divides `y`. */
  lemma DivStep(y: int, n: int)
    requires n > 0
    ensures y / n - (y - 1) / n == (if y % n == 0 then 1 else 0)
  {
    var q := (y - 1) / n;
    var r := (y - 1) % n;
    assert y - 1 == q * n + r && 0 <= r < n;
    if r == n - 1 {
      assert y == (q + 1) * n + 0;
      DivUnique(y, n, q + 1, 0);
    } else {
      assert y == q * n + (r + 1);
      DivUnique(y, n, q, r + 1);
    }
  }

  /** Euclidean division is unique. */
  lemma DivUnique(y: int, n: int, q: int, r: int)
    requires n > 0 && 0 <= r < n && y == q * n + r
    ensures y / n == q && y % n == r
  {
    var q0 := y / n;
    var r0 := y % n;
    assert y == q0 * n + r0 && 0 <= r0 < n;
    assert (q0 - q) * n == r - r0;
    if q0 > q {
      MulAtLeast(q0 - q, n);
    } else if q0 < q {
      MulAtLeast(q - q0, n);
    }
  }

  lemma {:induction false} MulAtLeast(a: int, n: int)
    requires a >= 1 && n > 0
    ensures a * n >= n
    decreases a
  {
    if a > 1 {
      MulAtLeast(a - 1, n);
      assert a * n == (a - 1) * n + n;
    }
  }


  lemma {:induction false} DaysBeforeYearMonotone(y1: int, y2: int)
    requires y1 < y2
    ensures DaysBeforeYear(y1) + DaysInYear(y1) <= DaysBeforeYear(y2)
    decreases y2 - y1
  {
    DaysBeforeNextYear(y1);
    if y1 + 1 < y2 {
      DaysBeforeYearMonotone(y1 + 1, y2);
    }
  }

  /** Lexicographic order on (year, month, day). */
  predicate Precedes(a: Date, b: Date)
  {
    a.year < b.year
    || (a.year == b.year && a.month < b.month)
    || (a.year == b.year && a.month == b.month && a.day < b.day)
  }

  /** The day number respects calendar order. */
  lemma ToDaysMonotone(a: Date, b: Date)
    requires ValidDate(a) && ValidDate(b)
    requires Precedes(a, b)
    ensures ToDays(a) < ToDays(b)
  {
    if a.year < b.year {
      DaysBeforeDecember(a.year);
      assert DaysBeforeMonth(a.year, a.month) + a.day <= DaysInYear(a.year);
      DaysBeforeYearMonotone(a.year, b.year);
    } else if a.month < b.month {
      assert DaysBeforeMonth(a.year, a.month) + DaysInMonth(a.year, a.month) <= DaysBeforeMonth(a.year, b.month);
    }
  }

  /** Two valid dates with the same day number are the same date. */
  lemma ToDaysInjective(a: Date, b: Date)
    requires ValidDate(a) && ValidDate(b)
    requires ToDays(a) == ToDays(b)
    ensures a == b
  {
    if Precedes(a, b) {
      ToDaysMonotone(a, b);
    } else if Precedes(b, a) {
      ToDaysMonotone(b, a);
    }
  }

  /** The day after `d`, rolling over month and year ends. */
  function NextDay(d: Date): (r: Date)
    requires ValidDate(d)
    ensures ValidDate(r)
    ensures ToDays(r) == ToDays(d) + 1
  {
    if d.day < DaysInMonth(d.year, d.month) then Date(d.year, d.month, d.day + 1)
    else if d.month < 12 then
      DaysBeforeMonthStep(d.year, d.month);
      Date(d.year, d.month + 1, 1)
    else
      DaysBeforeDecember(d.year);
      DaysBeforeNextYear(d.year);
      Date(d.year + 1, 1, 1)
  }

  /** The day before `d`, rolling back over month and year starts. */
  function PrevDay(d: Date): (r: Date)
    requires ValidDate(d)
    ensures ValidDate(r)
    ensures ToDays(r) == ToDays(d) - 1
  {
    if d.day > 1 then Date(d.year, d.month, d.day - 1)
    else if d.month > 1 then
      DaysBeforeMonthStep(d.year, d.month - 1);
      Date(d.year, d.month - 1, DaysInMonth(d.year, d.month - 1))
    else
      DaysBeforeDecember(d.year - 1);
      DaysBeforeNextYear(d.year - 1);
      Date(d.year - 1, 12, 31)
  }

  /** `add(n, "days")`: the date `n` days after `d` (before it when `n` < 0). */
  function AddDays(d: Date, n: int): (r: Date)
    requires ValidDate(d)
    ensures ValidDate(r)
    ensures ToDays(r) == ToDays(d) + n
    decreases if n < 0 then -n else n
  {
    if n == 0 then d
    else if n > 0 then AddDays(NextDay(d), n - 1)
    else AddDays(PrevDay(d), n + 1)
  }

  lemma ModShift(x: int, n: int)
    ensures (x + n + 1) % 7 == ((x + 1) % 7 + n) % 7
  {
    var q := (x + 1) / 7;
    assert x + n + 1 == 7 * q + ((x + 1) % 7 + n);
  }

  /** Shifting a day number to residue `k` inside its block of seven stays in the block. */
  lemma WeekShift(x: int, k: Weekday)
    ensures (x + 1 + k - (x + 1) % 7) / 7 == (x + 1) / 7
    ensures (x + 1 + k - (x + 1) % 7) % 7 == k
  {
    var q := (x + 1) / 7;
    assert x + 1 + k - (x + 1) % 7 == 7 * q + k;
  }

  /** Moving by `n` days moves the weekday by `n` modulo 7. */
  lemma AddDaysWeekday(d: Date, n: int)
    requires ValidDate(d)
    ensures WeekdayOf(AddDays(d, n)) == (WeekdayOf(d) + n) % 7
  {
    var x := ToDays(d);
    var y := ToDays(AddDays(d, n));
    assert y == x + n;
    ModShift(x, n);
    assert WeekdayOf(AddDays(d, n)) == (y + 1) % 7;
    assert WeekdayOf(d) == (x + 1) % 7;
  }

  /** Whole weeks later or earlier the weekday is the same. */
  lemma WeekLaterWeekday(d: Date, n: int)
    requires ValidDate(d)
    requires n == 7 || n == -7
    ensures WeekdayOf(AddDays(d, n)) == WeekdayOf(d)
  {
    var x := ToDays(d) + 1;
    var y := ToDays(AddDays(d, n)) + 1;
    WholeWeeks(x);
    assert y == x + n;
    assert y % 7 == x % 7;
  }

  lemma WholeWeeks(x: int)
    ensures (x + 7) % 7 == x % 7 && (x - 7) % 7 == x % 7
  {
  }

  lemma ResiduesDiffer(x: int, y: int)
    requires 0 < y - x < 7
    ensures x % 7 != y % 7
  {
    var q := x / 7;
    assert x == 7 * q + x % 7;
  }

  /** Two different days less than a week apart fall on different weekdays. */
  lemma WeekdaysDiffer(a: Date, b: Date)
    requires ValidDate(a) && ValidDate(b)
    requires 0 < ToDays(b) - ToDays(a) < 7
    ensures WeekdayOf(a) != WeekdayOf(b)
  {
    ResiduesDiffer(ToDays(a) + 1, ToDays(b) + 1);
  }

  /** `moment.day(k)`: the day with weekday `k` inside the same Sunday-start week. */
  function ShiftToWeekday(d: Date, k: Weekday): (r: Date)
    requires ValidDate(d)
    ensures ValidDate(r)
    ensures WeekdayOf(r) == k
    ensures SundayWeek(r) == SundayWeek(d)
    ensures ToDays(r) == ToDays(d) + (k - WeekdayOf(d))
  {
    var r := AddDays(d, k - WeekdayOf(d));
    WeekShift(ToDays(d), k);
    r
  }

  /** Stepping forward to weekday `k` lands on `k`. */
  lemma ForwardResidue(w: Weekday, k: Weekday)
    ensures (w + (k - w + 7) % 7) % 7 == k
  {
  }

  /** Stepping back to weekday `k` lands on `k`. */
  lemma BackwardResidue(w: Weekday, k: Weekday)
    ensures (w - (w - k + 7) % 7) % 7 == k
  {
  }

  /** Going back by the distance to residue `dow` lands on residue `dow`. */
  lemma WeekBack(x: int, dow: Weekday)
    ensures (x - (x % 7 - dow + 7) % 7) % 7 == dow
  {
    var q := x / 7;
    var w := x % 7;
    if w >= dow {
      assert (w - dow + 7) % 7 == w - dow;
      assert x - (w - dow) == 7 * q + dow;
    } else {
      assert (w - dow + 7) % 7 == w - dow + 7;
      assert x - (w - dow + 7) == 7 * (q - 1) + dow;
    }
  }

  /** Going back by the distance to weekday `dow` lands on `dow`. */
  lemma StepBackToWeekday(d: Date, dow: Weekday)
    requires ValidDate(d)
    ensures WeekdayOf(AddDays(d, -((WeekdayOf(d) - dow + 7) % 7))) == dow
  {
    var x := ToDays(d) + 1;
    assert WeekdayOf(d) == x % 7;
    var back := (x % 7 - dow + 7) % 7;
    var r := AddDays(d, -back);
    var y := ToDays(r) + 1;
    assert y == x - back;
    WeekBack(x, dow);
    assert y % 7 == dow;
    assert WeekdayOf(r) == dow;
    assert -((WeekdayOf(d) - dow + 7) % 7) == -back;
  }

  /** `startOf("week")` for a locale whose weeks begin on weekday `dow`: the latest
      day on or before `d` whose weekday is `dow`. */
  function StartOfWeek(d: Date, dow: Weekday): (r: Date)
    requires ValidDate(d)
    ensures ValidDate(r)
    ensures WeekdayOf(r) == dow
    ensures ToDays(r) == ToDays(d) - (WeekdayOf(d) - dow + 7) % 7
  {
    StepBackToWeekday(d, dow);
    AddDays(d, -((WeekdayOf(d) - dow + 7) % 7))
  }

  /** `add(n, "months")`: the month moves by `n`; a day past the new month's end is
      clamped to its last day, as the date library documents. */
  function AddMonths(d: Date, n: int): (r: Date)
    requires ValidDate(d)
    ensures ValidDate(r)
    ensures r.year * 12 + r.month == d.year * 12 + d.month + n
    ensures r.day == if d.day <= DaysInMonth(r.year, r.month) then d.day else DaysInMonth(r.year, r.month)
  {
    var total := d.year * 12 + (d.month - 1) + n;
    var y := total / 12;
    var m := total % 12 + 1;
    var last := DaysInMonth(y, m);
    Date(y, m, if d.day <= last then d.day else last)
  }

  /** `add(n, "years")`: the library adds twelve months per year. */
  function AddYears(d: Date, n: int): (r: Date)
    requires ValidDate(d)
    ensures ValidDate(r)
    ensures r.year == d.year + n && r.month == d.month
    ensures r.day == d.day || (d.month == 2 && d.day == 29 && !IsLeapYear(r.year) && r.day == 28)
  {
    AddMonths(d, 12 * n)
  }

  /** `startOf("month")` of `add(n, "months")`: the first day of the month `n` months on. */
  function MonthStart(d: Date, n: int): (r: Date)
    requires ValidDate(d)
    ensures ValidDate(r) && r.day == 1
    ensures r.year * 12 + r.month == d.year * 12 + d.month + n
  {
    var shifted := AddMonths(d, n);
    Date(shifted.year, shifted.month, 1)
  }

  /** `year(y)` on a date: keeps month and day, except that 29 February moved into
      a common year becomes 28 February. */
  function SetYearClamped(d: Date, y: int): (r: Date)
    requires ValidDate(d)
    ensures ValidDate(r)
    ensures r.year == y && r.month == d.month
    ensures ValidDate(Date(y, d.month, d.day)) ==> r == Date(y, d.month, d.day)
    ensures !ValidDate(Date(y, d.month, d.day)) ==> r.day == DaysInMonth(y, d.month)
  {
    var last := DaysInMonth(y, d.month);
    Date(y, d.month, if d.day <= last then d.day else last)
  }

  /** `Date.setFullYear(y)`: keeps month and day, and a day that does not exist in
      that year (29 February) overflows into the next month. */
  function SetFullYear(d: Date, y: int): (r: Date)
    requires ValidDate(d)
    ensures ValidDate(r)
    ensures ValidDate(Date(y, d.month, d.day)) ==> r == Date(y, d.month, d.day)
    ensures !ValidDate(Date(y, d.month, d.day)) ==> r == Date(y, 3, 1)
  {
    var first := Date(y, d.month, 1);
    var r := AddDays(first, d.day - 1);
    if ValidDate(Date(y, d.month, d.day)) then
      ToDaysInjective(r, Date(y, d.month, d.day));
      r
    else
      assert d.month == 2 && d.day == 29;
      DaysBeforeMonthStep(y, 2);
      ToDaysInjective(r, Date(y, 3, 1));
      r
  }

  /** A date with a time of day, kept as minutes since midnight. */
  datatype DateTime = DateTime(date: Date, minute: int)

  predicate ValidDateTime(t: DateTime)
  {
    ValidDate(t.date) && 0 <= t.minute < 1440
  }

  /** Minutes since 0001-01-01 00:00. */
  function Instant(t: DateTime): int
    requires ValidDateTime(t)
  {
    ToDays(t.date) * 1440 + t.minute
  }

  /** `add(n, "minutes")`, carrying whole days into the date. */
  function AddMinutes(t: DateTime, n: int): (r: DateTime)
    requires ValidDateTime(t)
    ensures ValidDateTime(r)
    ensures Instant(r) == Instant(t) + n
  {
    var total := t.minute + n;
    var r := DateTime(AddDays(t.date, total / 1440), total % 1440);
    assert Instant(r) == (ToDays(t.date) + total / 1440) * 1440 + total % 1440;
    r
  }
}

=== FILE: editorsuggest.dfy ===
/** The editor autosuggest: when the trigger phrase opens a suggestion session,
    which completions the typed query gets, and what accepting one inserts.
    Editor positions are modelled on a single line of text. */
module EditorSuggest {
  import opened Optional
  import opened Text
  import opened Suggestions
  import opened SuggestionProperties

  // ---------------------------------------------------------------------------
  // Completions
  // ---------------------------------------------------------------------------

  /** The editor's own `getDateSuggestions`: the same branches as the shared
      generator but no starters for an empty query, filtering by the query as
      typed (except the Portuguese qualifier branch, which compares with the
      lowered query with `sem` expanded), longer relative lists, and a preview
      only on a shorthand. */
  function EditorDateSuggestions(q: string, resolve: Resolver): (r: seq<Completion>)
    ensures HasLabels(r, BranchLabels(Classify(q), q, true))
    ensures Classify(q).ArithmeticBranch? ==> |r| == 1 && r[0] == Completion(q, Preview(q, resolve))
    ensures !Classify(q).ArithmeticBranch? ==> forall c :: c in r ==> c.preview.None?
  {
    var labels := BranchLabels(Classify(q), q, true);
    if Classify(q).ArithmeticBranch? then Previewed(labels, resolve) else Plain(labels)
  }

  /** `getSuggestions`: never an empty list; when nothing fits, the query itself. */
  function GetSuggestions(q: string, resolve: Resolver): (r: seq<Completion>)
    ensures |r| > 0
    ensures |EditorDateSuggestions(q, resolve)| > 0 ==> r == EditorDateSuggestions(q, resolve)
    ensures |EditorDateSuggestions(q, resolve)| == 0 ==> HasLabels(r, [q])
  {
    var found := EditorDateSuggestions(q, resolve);
    if |found| > 0 then found else [Completion(q, None)]
  }

  /** The editor compares the lowered time labels with the query as typed, so a
      time query whose first letter is a capital keeps none of them and the
      session falls back to the query itself. */
  lemma CapitalTimeQueryFallsBack(q: string, resolve: Resolver)
    requires IsTimeQuery(LowerStr(q)) && q[0] != Lower(q[0])
    ensures EditorDateSuggestions(q, resolve) == []
    ensures GetSuggestions(q, resolve) == [Completion(q, None)]
  {
    assert Classify(q).TimeBranch?;
    TimeLabelsStartWithHora();
    assert q[0] != 'h';
    KeepPrefixedNone(TimeLabels, q);
  }

  /** An abbreviated weekday offers its five variations in the editor too, with
      no previews. */
  lemma EditorAbbreviationOffersVariations(q: string, resolve: Resolver)
    requires LowerStr(q) in PtAbbreviations
    ensures HasLabels(EditorDateSuggestions(q, resolve), PtVariations(PtAbbreviations[LowerStr(q)]))
    ensures forall c :: c in EditorDateSuggestions(q, resolve) ==> c.preview.None?
  {
    AbbreviationOffersVariations(q, (s: string) => None);
  }

  /** A Portuguese weekday query in the editor: one match gives the five
      variations, several give the names, none previewed. */
  lemma EditorPtWeekdayOutput(q: string, resolve: Resolver)
    requires Classify(q).PtWeekdayBranch?
    ensures var days := Classify(q).days;
            HasLabels(EditorDateSuggestions(q, resolve), if |days| == 1 then PtVariations(days[0]) else days)
    ensures forall c :: c in EditorDateSuggestions(q, resolve) ==> c.preview.None?
  {
  }

  /** A relative query in the editor offers the relative labels, minutes and
      hours included, that the query as typed prefixes. */
  lemma EditorRelativeOutput(q: string, delta: string, resolve: Resolver, expected: seq<string>)
    requires Classify(q) == PtRelativeBranch(delta)
    requires KeepPrefixed(PtRelativeLabels(delta, true), q) == expected
    ensures HasLabels(EditorDateSuggestions(q, resolve), expected)
    ensures forall c :: c in EditorDateSuggestions(q, resolve) ==> c.preview.None?
  {
  }

  /** `em 5` offers minutes and hours before the three forward phrases. */
  lemma EditorEmFive(q: string, resolve: Resolver)
    requires q == "em 5"
    ensures HasLabels(EditorDateSuggestions(q, resolve),
                      ["em 5 minutos", "em 5 horas", "em 5 dias", "em 5 semanas", "em 5 meses"])
  {
    var expected := ["em 5 minutos", "em 5 horas", "em 5 dias", "em 5 semanas", "em 5 meses"];
    EmFiveClassified(q);
    EditorEmFiveFilter(expected);
    EditorRelativeOutput(q, "5", resolve, expected);
  }

  lemma EditorEmFiveFilter(expected: seq<string>)
    requires expected == ["em 5 minutos", "em 5 horas", "em 5 dias", "em 5 semanas", "em 5 meses"]
    ensures KeepPrefixed(PtRelativeLabels("5", true), "em 5") == expected
  {
    EmFiveFilter(true);
    JoinTwoThree("em 5 minutos", "em 5 horas", "em 5 dias", "em 5 semanas", "em 5 meses");
  }

  /** Two labels followed by three are the five in order. */
  lemma JoinTwoThree(a: string, b: string, c: string, d: string, e: string)
    ensures [a, b] + [c, d, e] == [a, b, c, d, e]
  {
  }

  /** A session opened with nothing typed yet offers the seven everyday words. */
  lemma EditorEmptyQuery(q: string, resolve: Resolver)
    requires q == []
    ensures HasLabels(EditorDateSuggestions(q, resolve), DefaultLabels)
  {
    EmptyQueryUnclassified(q);
    EditorDefaultOutput(q, resolve);
    KeepPrefixedEmpty(DefaultLabels, q);
  }

  /** The empty text prefixes every label. */
  lemma KeepPrefixedEmpty(labels: seq<string>, q: string)
    requires q == []
    ensures KeepPrefixed(labels, q) == labels
  {
    KeepPrefixedAll(labels, q);
  }

  /** A query of the default branch offers the everyday words it prefixes. */
  lemma EditorDefaultOutput(q: string, resolve: Resolver)
    requires Classify(q) == DefaultBranch
    ensures HasLabels(EditorDateSuggestions(q, resolve), KeepPrefixed(DefaultLabels, q))
  {
  }

  /** The empty query falls through every branch to the default one. */
  lemma EmptyQueryUnclassified(q: string)
    requires q == []
    ensures Classify(q) == DefaultBranch
  {
    assert LowerStr(q) == [];
    NothingPrefixesEmpty(PtQualifierWords);
    NothingPrefixesEmpty(EnQualifierWords);
    EmptyHasNoNumber(q);
    ClassifiedAsDefault(q);
  }

  /** Neither shorthand nor a relative phrase can be read from nothing. */
  lemma EmptyHasNoNumber(q: string)
    requires q == []
    ensures !IsShorthandQuery(LowerStr(q)) && PtRelativeDelta(q).None? && EnRelativeDelta(q).None?
  {
    assert LowerStr(q) == [];
  }

  /** Every recogniser before the default branch fails on an empty query. */
  lemma ClassifiedAsDefault(q: string)
    requires LowerStr(q) == []
    requires Qualifier(q, PtQualifierWords).None? && Qualifier(q, EnQualifierWords).None?
    requires !IsShorthandQuery(LowerStr(q)) && PtRelativeDelta(q).None? && EnRelativeDelta(q).None?
    ensures Classify(q) == DefaultBranch
  {
  }

  /** No qualifier word is a prefix of the empty text. */
  lemma NothingPrefixesEmpty(words: seq<string>)
    requires words == PtQualifierWords || words == EnQualifierWords
    ensures forall k :: 0 <= k < |words| ==> !StartsWith([], words[k])
  {
    forall k | 0 <= k < |words|
      ensures |words[k]| > 0
    {
    }
  }

  // ---------------------------------------------------------------------------
  // Accepting a completion
  // ---------------------------------------------------------------------------

  /** What accepting a completion writes over the trigger and query: the
      formatted text, or a link to it with an optional alias. The link's markdown
      spelling is left to the caller. */
  datatype Insertion = PlainText(text: string) | DateLink(target: string, alias: Option<string>)

  predicate IsTimeLabel(chosen: string)
  {
    StartsWith(chosen, "time:") || StartsWith(chosen, "hora:")
  }

  /** `selectSuggestion`. A time label is formatted as a time of its last part and
      never linked; any other chosen is formatted as a date and linked when the
      link setting is on, with the label as alias when Shift was held.
      `formatDate` and `formatTime` stand for the plugin's parsers. */
  function SelectSuggestion(chosen: string, shift: bool, linkSetting: bool,
                            formatDate: string -> string, formatTime: string -> string): (r: Insertion)
    ensures IsTimeLabel(chosen) ==> r == PlainText(formatTime(chosen[5..]))
    ensures !IsTimeLabel(chosen) ==> (r.DateLink? <==> linkSetting)
    ensures !IsTimeLabel(chosen) && r.PlainText? ==> r.text == formatDate(chosen)
    ensures r.DateLink? ==> r.target == formatDate(chosen) && (r.alias.Some? <==> shift)
    ensures r.DateLink? && r.alias.Some? ==> r.alias.value == chosen
  {
    if IsTimeLabel(chosen) then PlainText(formatTime(chosen[5..]))
    else if linkSetting then DateLink(formatDate(chosen), if shift then Some(chosen) else None)
    else PlainText(formatDate(chosen))
  }

  /** Neither Shift nor the link setting changes what a time label inserts. */
  lemma TimeLabelIgnoresSettings(chosen: string, shift1: bool, link1: bool, shift2: bool, link2: bool,
                                 formatDate: string -> string, formatTime: string -> string)
    requires IsTimeLabel(chosen)
    ensures SelectSuggestion(chosen, shift1, link1, formatDate, formatTime)
         == SelectSuggestion(chosen, shift2, link2, formatDate, formatTime)
    ensures SelectSuggestion(chosen, shift1, link1, formatDate, formatTime).PlainText?
  {
  }

  /** With links off, Shift changes nothing. */
  lemma ShiftMattersOnlyForLinks(chosen: string, linkSetting: bool,
                                 formatDate: string -> string, formatTime: string -> string)
    ensures SelectSuggestion(chosen, true, linkSetting, formatDate, formatTime)
         != SelectSuggestion(chosen, false, linkSetting, formatDate, formatTime)
        <==> linkSetting && !IsTimeLabel(chosen)
  {
  }

  // ---------------------------------------------------------------------------
  // Opening a session
  // ---------------------------------------------------------------------------

  /** `editor.getRange` on one line: both ends clamped into the line, nothing for a
      reversed range. */
  function Range(line: string, from: int, to: int): (r: string)
    ensures 0 <= from <= to <= |line| ==> r == line[from..to]
    ensures to <= from ==> r == []
    ensures |r| <= |line|
  {
    var a := if from < 0 then 0 else if from > |line| then |line| else from;
    var b := if to < 0 then 0 else if to > |line| then |line| else to;
    if a <= b then line[a..b] else []
  }

  /** The class `` [`a-zA-ZÀ-ÿ0-9] ``: a character that makes the trigger part of
      a word (an e-mail address, a code span). */
  predicate GluesTrigger(c: char)
  {
    c == '`' || ('a' <= c <= 'z') || ('A' <= c <= 'Z') || ('\U{C0}' <= c <= '\U{FF}') || IsDigit(c)
  }

  /** What opens a session: where it starts and ends and the query in between. */
  datatype TriggerInfo = TriggerInfo(start: int, end: nat, query: string)

  /** Where a session starts: where the open session started, otherwise the
      trigger's length before the cursor. */
  function SessionStart(trigger: string, openStart: Option<int>, cursor: nat): int
  {
    if openStart.Some? then openStart.value else cursor - |trigger|
  }

  /** The character just before the start is one that glues the trigger to a word (`GluesTrigger`). */
  predicate Glued(line: string, start: int)
  {
    var before := Range(line, start - 1, start);
    |before| > 0 && GluesTrigger(before[0])
  }

  /** `onTrigger`: no session when autosuggest is off, when the text from the
      start to the cursor does not begin with the trigger, or when a character
      of `` [`a-zA-ZÀ-ÿ0-9] `` sits right before the start; otherwise the
      session's query is what follows the trigger. */
  function OnTrigger(enabled: bool, trigger: string, openStart: Option<int>, cursor: nat, line: string): (r: Option<TriggerInfo>)
    ensures r.None? <==>
              !enabled
              || !StartsWith(Range(line, SessionStart(trigger, openStart, cursor), cursor), trigger)
              || Glued(line, SessionStart(trigger, openStart, cursor))
    ensures r.Some? ==> r.value.start == SessionStart(trigger, openStart, cursor) && r.value.end == cursor
    ensures r.Some? ==> trigger + r.value.query == Range(line, r.value.start, cursor)
  {
    if !enabled then None
    else
      var start := SessionStart(trigger, openStart, cursor);
      var range := Range(line, start, cursor);
      if !StartsWith(range, trigger) then None
      else if Glued(line, start) then None
      else
        StartsWithSplit(range, trigger);
        Some(TriggerInfo(start, cursor, range[|trigger|..]))
  }

  /** Typing `@` after a space opens a session with an empty query. */
  lemma TriggerAfterSpace()
    ensures OnTrigger(true, "@", None, 9, "Reunião @") == Some(TriggerInfo(8, 9, ""))
  {
    var line := "Reunião @";
    assert Range(line, 8, 9) == "@";
    assert Range(line, 7, 8) == " ";
  }

  /** An `@` inside an e-mail address opens no session. */
  lemma TriggerInsideWord()
    ensures OnTrigger(true, "@", None, 4, "ana@") == None
  {
    var line := "ana@";
    assert Range(line, 3, 4) == "@";
    assert Range(line, 2, 3) == "a";
  }

  /** An open session keeps its start: the query grows with what is typed. */
  lemma SessionQueryGrows()
    ensures OnTrigger(true, "@", Some(0), 5, "@hoje") == Some(TriggerInfo(0, 5, "hoje"))
  {
    var line := "@hoje";
    assert Range(line, 0, 5) == line;
    assert Range(line, -1, 0) == [];
  }
}

=== FILE: extractors.dfy ===
/** The three extraction rules the date parser adds to the grammar engine:
    Christmas, signed relative offsets ("em 3 dias", "2 semanas atrás") and the
    arithmetic shorthand ("7d -3w +1m +2y"). Each is a pure function of the
    phrase and of the engine's reference instant; which rule the engine tries
    first, and how it merges their output, belongs to the engine. */
module Extractors {
  import opened Optional
  import opened Text
  import opened Calendar
  import opened Patterns

  /** `s.includes(p)`. */
  predicate Contains(s: string, p: string)
  {
    exists k :: 0 <= k <= |s| && At(s, k, p)
  }

  /** A text without the character `c` contains no pattern that has `c` in it. */
  lemma MissingCharNotContained(s: string, p: string, c: char, at: nat)
    requires at < |p| && p[at] == c
    requires forall k :: 0 <= k < |s| ==> s[k] != c
    ensures !Contains(s, p)
  {
    forall k | 0 <= k <= |s|
      ensures !At(s, k, p)
    {
      if k + |p| <= |s| {
        assert s[k..][at] == s[k + at] != c;
      }
    }
  }

  // ---------------------------------------------------------------------------
  // "natal" / "véspera de natal"
  // ---------------------------------------------------------------------------

  /** A day of a month, with the year left to the engine. */
  datatype MonthDay = MonthDay(month: int, day: int)

  const Christmas: string := "natal"
  const ChristmasEve: string := "véspera de natal"

  /** `\b(?:natal|véspera de natal)\b` tried at index `i`, the shorter alternative
      first. */
  function ChristmasAt(s: string, i: nat): (r: Option<Span>)
    ensures r.Some? ==> r.value.start == i && i < r.value.end <= |s|
    ensures r.Some? ==> s[i..r.value.end] == Christmas || s[i..r.value.end] == ChristmasEve
  {
    if i <= |s| && WordBoundary(s, i) && At(s, i, Christmas) && WordBoundary(s, i + |Christmas|) then
      Some(Span(i, i + |Christmas|))
    else if i <= |s| && WordBoundary(s, i) && At(s, i, ChristmasEve) && WordBoundary(s, i + |ChristmasEve|) then
      Some(Span(i, i + |ChristmasEve|))
    else None
  }

  lemma ChristmasWordsDiffer()
    ensures !Contains(Christmas, "véspera")
    ensures Contains(ChristmasEve, "véspera")
  {
    assert At(ChristmasEve, 0, "véspera");
  }

  /** The Christmas rule: the 25th of December, or the 24th when the matched words
      contain "véspera". */
  function ChristmasDay(text: string): (r: Option<MonthDay>)
    ensures r.Some? <==> FirstMatch(LowerStr(text), 0, ChristmasAt).Some?
    ensures r.Some? ==> r.value.month == 12
    ensures r.Some? ==>
              var sp := FirstMatch(LowerStr(text), 0, ChristmasAt).value;
              && sp.end <= |text|
              && (r.value.day == 24 <==> LowerStr(text)[sp.start..sp.end] == ChristmasEve)
              && (r.value.day == 25 <==> LowerStr(text)[sp.start..sp.end] == Christmas)
  {
    var lower := LowerStr(text);
    match FirstMatch(lower, 0, ChristmasAt)
    case None => None
    case Some(sp) =>
      ChristmasWordsDiffer();
      Some(MonthDay(12, if Contains(lower[sp.start..sp.end], "véspera") then 24 else 25))
  }

  lemma ChristmasEveExample()
    ensures ChristmasDay("Véspera de Natal") == Some(MonthDay(12, 24))
  {
    var lower := LowerStr("Véspera de Natal");
    assert lower == ChristmasEve;
    assert ChristmasAt(lower, 0) == Some(Span(0, 16));
  }

  lemma ChristmasExample()
    ensures ChristmasDay("Natal") == Some(MonthDay(12, 25))
  {
    var lower := LowerStr("Natal");
    assert lower == Christmas;
    assert ChristmasAt(lower, 0) == Some(Span(0, 5));
  }

  // ---------------------------------------------------------------------------
  // Relative offsets: "[daqui a|em] N <unit> [atrás]"
  // ---------------------------------------------------------------------------

  /** What the relative-offset pattern captured: the amount, the unit word and
      the whole matched text. */
  datatype OffsetMatch = OffsetMatch(amount: nat, unit: string, text: string)

  /** An optional plural "s" after a unit word ending at `j`. */
  function OptionalS(s: string, j: nat): (k: nat)
    requires j <= |s|
    ensures k == j || (k == j + 1 && k <= |s| && s[j] == 's')
  {
    if j < |s| && s[j] == 's' then j + 1 else j
  }

  /** `minutos?|horas?|dias?|semanas?|mês|meses|anos?` at index `e`, tried in
      that order: the end of the unit word. */
  function UnitWordEnd(s: string, e: nat): (r: Option<nat>)
    requires e <= |s|
    ensures r.Some? ==> e < r.value <= |s|
  {
    if At(s, e, "minuto") then Some(OptionalS(s, e + 6))
    else if At(s, e, "hora") then Some(OptionalS(s, e + 4))
    else if At(s, e, "dia") then Some(OptionalS(s, e + 3))
    else if At(s, e, "semana") then Some(OptionalS(s, e + 6))
    else if At(s, e, "mês") then Some(e + 3)
    else if At(s, e, "meses") then Some(e + 5)
    else if At(s, e, "ano") then Some(OptionalS(s, e + 3))
    else None
  }

  /** `(\d+)\s+(<unit>)\s*(?:atrás)?` at index `j`; the match ends at `end`. */
  function OffsetBodyAt(s: string, j: nat): (r: Option<(OffsetMatch, nat)>)
    requires j <= |s|
    ensures r.Some? ==> j < r.value.1 <= |s|
  {
    var d := DigitEnd(s, j);
    var e := SpaceEnd(s, d);
    if d == j || e == d then None
    else
      match UnitWordEnd(s, e)
      case None => None
      case Some(u) =>
        var f := SpaceEnd(s, u);
        var end := if At(s, f, "atrás") then f + 5 else f;
        Some((OffsetMatch(DigitsValue(s[j..d]), s[e..u], []), end))
  }

  /** `daqui\s+a\s+|em\s+` at index `i`: where the number may start. */
  function OffsetPrefixEnd(s: string, i: nat): (r: Option<nat>)
    requires i <= |s|
    ensures r.Some? ==> i < r.value <= |s|
  {
    if At(s, i, "daqui") && SpaceEnd(s, i + 5) > i + 5 && At(s, SpaceEnd(s, i + 5), "a")
       && SpaceEnd(s, SpaceEnd(s, i + 5) + 1) > SpaceEnd(s, i + 5) + 1 then
      Some(SpaceEnd(s, SpaceEnd(s, i + 5) + 1))
    else if At(s, i, "em") && SpaceEnd(s, i + 2) > i + 2 then Some(SpaceEnd(s, i + 2))
    else None
  }

  /** The whole pattern at index `i`: with the optional prefix when the rest
      matches after it, otherwise without it. */
  function OffsetAt(s: string, i: nat): (r: Option<OffsetMatch>)
    ensures r.Some? ==> i <= |s|
  {
    if i > |s| then None
    else
      var withPrefix := match OffsetPrefixEnd(s, i)
                        case None => None
                        case Some(p) => OffsetBodyAt(s, p);
      var body := if withPrefix.Some? then withPrefix else OffsetBodyAt(s, i);
      match body
      case None => None
      case Some(m) => Some(m.0.(text := s[i..m.1]))
  }

  /** The sign of the offset: negative exactly when the matched text contains
      "atrás". */
  function SignedAmount(m: OffsetMatch): (v: int)
    ensures Contains(m.text, "atrás") ==> v == -(m.amount as int)
    ensures !Contains(m.text, "atrás") ==> v == m.amount
  {
    if Contains(m.text, "atrás") then -(m.amount as int) else m.amount
  }

  /** Adds a signed amount of one canonical unit to the reference instant; any
      other unit name gives no result. The day unit is spelled "d", as the
      extractor's switch spells it. */
  function ApplyOffset(ref: DateTime, modifier: int, unit: string): (r: Option<DateTime>)
    requires ValidDateTime(ref)
    ensures r.Some? ==> ValidDateTime(r.value)
    ensures r.Some? <==> unit in {"minute", "hour", "d", "week", "month", "year"}
    ensures unit == "minute" ==> r.Some? && Instant(r.value) == Instant(ref) + modifier
    ensures unit == "hour" ==> r.Some? && Instant(r.value) == Instant(ref) + 60 * modifier
    ensures unit == "d" ==> r.Some? && Instant(r.value) == Instant(ref) + 1440 * modifier
    ensures unit == "week" ==> r.Some? && Instant(r.value) == Instant(ref) + 7 * 1440 * modifier
    ensures unit == "month" ==>
              r.Some? && r.value.minute == ref.minute
              && r.value.date.year * 12 + r.value.date.month == ref.date.year * 12 + ref.date.month + modifier
    ensures unit == "year" ==>
              r.Some? && r.value.minute == ref.minute
              && r.value.date.year == ref.date.year + modifier && r.value.date.month == ref.date.month
  {
    if unit == "minute" then Some(AddMinutes(ref, modifier))
    else if unit == "hour" then Some(AddMinutes(ref, 60 * modifier))
    else if unit == "d" then Some(ShiftDays(ref, modifier))
    else if unit == "week" then Some(ShiftDays(ref, 7 * modifier))
    else if unit == "month" then Some(DateTime(AddMonths(ref.date, modifier), ref.minute))
    else if unit == "year" then Some(DateTime(AddYears(ref.date, modifier), ref.minute))
    else None
  }

  /** `add(n, "days")`: the date moves by whole days and the time of day stays. */
  function ShiftDays(ref: DateTime, n: int): (r: DateTime)
    requires ValidDateTime(ref)
    ensures ValidDateTime(r) && r.minute == ref.minute
    ensures Instant(r) == Instant(ref) + 1440 * n
  {
    ShiftDaysInstant(ref, n);
    DateTime(AddDays(ref.date, n), ref.minute)
  }

  /** Moving the date by whole days moves the instant by as many days of minutes. */
  lemma ShiftDaysInstant(ref: DateTime, n: int)
    requires ValidDateTime(ref)
    ensures ValidDateTime(DateTime(AddDays(ref.date, n), ref.minute))
    ensures Instant(DateTime(AddDays(ref.date, n), ref.minute)) == Instant(ref) + 1440 * n
  {
  }

  /** The relative-offset rule. `units` is the unit dictionary the extractor looks
      the captured word up in (word to canonical unit name); a word it lacks, or
      maps to the empty name, gives no result. */
  function RelativeOffset(text: string, units: map<string, string>, ref: DateTime): (r: Option<DateTime>)
    requires ValidDateTime(ref)
    ensures r.Some? ==> ValidDateTime(r.value)
    ensures r.Some? ==> FirstMatch(LowerStr(text), 0, OffsetAt).Some?
    ensures r.Some? ==>
              var m := FirstMatch(LowerStr(text), 0, OffsetAt).value;
              m.unit in units && r == ApplyOffset(ref, SignedAmount(m), units[m.unit])
    ensures FirstMatch(LowerStr(text), 0, OffsetAt).None? ==> r.None?
    ensures FirstMatch(LowerStr(text), 0, OffsetAt).Some? ==>
              var m := FirstMatch(LowerStr(text), 0, OffsetAt).value;
              && (m.unit in units && units[m.unit] != "" ==> r == ApplyOffset(ref, SignedAmount(m), units[m.unit]))
              && (m.unit !in units || units[m.unit] == "" ==> r.None?)
  {
    match FirstMatch(LowerStr(text), 0, OffsetAt)
    case None => None
    case Some(m) =>
      if m.unit !in units || units[m.unit] == "" then None
      else ApplyOffset(ref, SignedAmount(m), units[m.unit])
  }

  /** The unit words the pattern accepts. */
  const UnitWords: seq<string> :=
    ["minuto", "minutos", "hora", "horas", "dia", "dias", "semana", "semanas", "mês", "meses", "ano", "anos"]

  /** A unit word followed by something other than "s" is captured whole. */
  lemma UnitWordEndOf(s: string, e: nat, w: string)
    requires w in UnitWords
    requires At(s, e, w)
    requires e + |w| == |s| || s[e + |w|] != 's'
    ensures UnitWordEnd(s, e) == Some(e + |w|)
  {
    var t := s[e..];
    assert t[..|w|] == w;
    if w[0] == 'm' {
      assert !At(s, e, "hora") && !At(s, e, "dia") && !At(s, e, "semana") && !At(s, e, "ano");
      if w == "minuto" || w == "minutos" {
        assert At(s, e, "minuto");
      } else {
        assert !At(s, e, "minuto") by { assert t[1] == w[1]; }
        if w == "mês" {
          assert At(s, e, "mês");
        } else {
          assert !At(s, e, "mês") by { assert t[1] == w[1]; }
          assert At(s, e, "meses");
        }
      }
    } else if w[0] == 'h' {
      assert !At(s, e, "minuto") && At(s, e, "hora");
    } else if w[0] == 'd' {
      assert !At(s, e, "minuto") && !At(s, e, "hora") && At(s, e, "dia");
    } else if w[0] == 's' {
      assert !At(s, e, "minuto") && !At(s, e, "hora") && !At(s, e, "dia") && At(s, e, "semana");
    } else {
      assert !At(s, e, "minuto") && !At(s, e, "hora") && !At(s, e, "dia") && !At(s, e, "semana");
      assert !At(s, e, "mês") && !At(s, e, "meses") && At(s, e, "ano");
    }
  }

  /** The text "N <unit>" with " atrás" appended when `ago`. */
  function OffsetPhrase(n: nat, w: string, ago: bool): string
  {
    ZeroPad(n, 1) + " " + w + (if ago then " atrás" else "")
  }

  /** A unit word between any prefix and a tail that does not start with "s" is
      captured whole. */
  lemma UnitWordBetween(prefix: string, w: string, tail: string)
    requires w in UnitWords
    requires tail == [] || tail[0] != 's'
    ensures |w| >= 1 && !IsSpace(w[0])
    ensures UnitWordEnd(prefix + w + tail, |prefix|) == Some(|prefix| + |w|)
  {
    var s := prefix + w + tail;
    assert s[|prefix|..] == w + tail;
    assert At(s, |prefix|, w);
    assert |prefix| + |w| == |s| || s[|prefix| + |w|] == tail[0];
    UnitWordEndOf(s, |prefix|, w);
  }

  /** The body pattern at the start of a text, stated through the runs it
      consumes. */
  lemma OffsetBodyOfRuns(s: string, d: nat, u: nat, end: nat, digits: string, w: string)
    requires 0 < d < |s| && d + 1 <= u <= |s| && s[0..d] == digits && s[d + 1..u] == w
    requires DigitEnd(s, 0) == d && SpaceEnd(s, d) == d + 1
    requires UnitWordEnd(s, d + 1) == Some(u)
    requires end == if At(s, SpaceEnd(s, u), "atrás") then SpaceEnd(s, u) + 5 else SpaceEnd(s, u)
    ensures OffsetBodyAt(s, 0) == Some((OffsetMatch(DigitsValue(digits), w, []), end))
  {
  }

  /** A unit word at the end of a text is captured whole. */
  lemma UnitWordAtEnd(prefix: string, w: string)
    requires w in UnitWords
    ensures |w| >= 1 && !IsSpace(w[0])
    ensures UnitWordEnd(prefix + w, |prefix|) == Some(|prefix| + |w|)
  {
    var s := prefix + w;
    assert s[|prefix|..] == w;
    assert At(s, |prefix|, w);
    UnitWordEndOf(s, |prefix|, w);
  }

  /** In "digits rest" the digit run and the single space are matched whole. */
  lemma NumberThenSpace(digits: string, w: string, tail: string)
    requires |digits| >= 1 && AllDigits(digits)
    requires |w| >= 1 && !IsSpace(w[0])
    ensures var s := digits + " " + w + tail;
            && DigitEnd(s, 0) == |digits| && SpaceEnd(s, |digits|) == |digits| + 1
            && s[0..|digits|] == digits && s[|digits| + 1..|digits| + 1 + |w|] == w
            && s[|digits| + 1 + |w|..] == tail
  {
    var s := digits + " " + w + tail;
    var d := |digits|;
    assert s[0..d] == digits;
    assert s[d + 1..d + 1 + |w|] == w;
    assert s[d + 1 + |w|..] == tail;
    assert s[d] == ' ' && s[d + 1] == w[0];
    RunEndExact(s, 0, d, IsDigit);
    RunEndExact(s, d, d + 1, IsSpace);
  }

  /** The number and unit of "digits unit" are read back, and the match runs to
      the end of the text. */
  lemma OffsetBodyPlain(digits: string, w: string)
    requires |digits| >= 1 && AllDigits(digits)
    requires |w| >= 1 && !IsSpace(w[0])
    requires UnitWordEnd(digits + " " + w, |digits| + 1) == Some(|digits| + 1 + |w|)
    ensures var s := digits + " " + w;
            OffsetBodyAt(s, 0) == Some((OffsetMatch(DigitsValue(digits), w, []), |s|))
  {
    var s := digits + " " + w;
    var d := |digits|;
    NumberThenSpace(digits, w, "");
    assert s + "" == s;
    OffsetBodyOfRuns(s, d, |s|, |s|, digits, w);
  }

  /** A text that ends in " atrás" from index `u` on: one space, then the word. */
  lemma AgoTail(s: string, u: nat)
    requires u <= |s| && s[u..] == " atrás"
    ensures SpaceEnd(s, u) == u + 1 && At(s, u + 1, "atrás") && u + 6 == |s|
  {
    assert s[u] == ' ' && s[u + 1] == 'a';
    RunEndExact(s, u, u + 1, IsSpace);
    assert s[u + 1..] == "atrás";
  }

  /** The number and unit of "digits unit atrás" are read back, and the match
      runs to the end of the text. */
  lemma OffsetBodyAgo(digits: string, w: string)
    requires |digits| >= 1 && AllDigits(digits)
    requires |w| >= 1 && !IsSpace(w[0])
    requires UnitWordEnd(digits + " " + w + " atrás", |digits| + 1) == Some(|digits| + 1 + |w|)
    ensures var s := digits + " " + w + " atrás";
            OffsetBodyAt(s, 0) == Some((OffsetMatch(DigitsValue(digits), w, []), |s|))
  {
    var s := digits + " " + w + " atrás";
    NumberThenSpace(digits, w, " atrás");
    AgoTail(s, |digits| + 1 + |w|);
    OffsetBodyOfAgoRuns(s, |digits|, |digits| + 1 + |w|, digits, w);
  }

  /** The runs of "digits unit atrás", located, give the whole text as the match. */
  lemma OffsetBodyOfAgoRuns(s: string, d: nat, u: nat, digits: string, w: string)
    requires 0 < d < |s| && d + 1 <= u <= |s| && s[0..d] == digits && s[d + 1..u] == w
    requires DigitEnd(s, 0) == d && SpaceEnd(s, d) == d + 1
    requires UnitWordEnd(s, d + 1) == Some(u)
    requires SpaceEnd(s, u) == u + 1 && At(s, u + 1, "atrás") && u + 6 == |s|
    ensures OffsetBodyAt(s, 0) == Some((OffsetMatch(DigitsValue(digits), w, []), |s|))
  {
    OffsetBodyOfRuns(s, d, u, |s|, digits, w);
  }

  /** An offset phrase contains "atrás" exactly when it was built with it. */
  lemma OffsetPhraseAgo(n: nat, w: string, ago: bool)
    requires w in UnitWords
    ensures Contains(OffsetPhrase(n, w, ago), "atrás") <==> ago
  {
    var digits := ZeroPad(n, 1);
    var s := OffsetPhrase(n, w, ago);
    var d := |digits|;
    var u := d + 1 + |w|;
    if ago {
      assert At(s, u + 1, "atrás");
    } else {
      forall k | 0 <= k < |s|
        ensures s[k] != 'á'
      {
        if k < d {
          assert s[k] == digits[k];
          assert IsDigit(digits[k]);
        } else if k > d {
          assert s[k] == w[k - d - 1];
        }
      }
      MissingCharNotContained(s, "atrás", 'á', 3);
    }
  }

  /** A text that starts with a digit has no "daqui a"/"em" prefix, so the
      pattern at its start is the bare number-and-unit body. */
  lemma OffsetAtDigit(s: string, m: OffsetMatch, end: nat)
    requires |s| > 0 && IsDigit(s[0])
    requires OffsetBodyAt(s, 0) == Some((m, end))
    ensures OffsetAt(s, 0) == Some(m.(text := s[..end]))
  {
    assert OffsetPrefixEnd(s, 0).None? by {
      assert !At(s, 0, "daqui") && !At(s, 0, "em");
    }
  }

  /** The pattern matches a whole "digits unit atrás" text. */
  lemma OffsetMatchAgo(digits: string, w: string)
    requires |digits| >= 1 && AllDigits(digits)
    requires |w| >= 1 && !IsSpace(w[0])
    requires UnitWordEnd(digits + " " + w + " atrás", |digits| + 1) == Some(|digits| + 1 + |w|)
    ensures var s := digits + " " + w + " atrás";
            OffsetAt(s, 0) == Some(OffsetMatch(DigitsValue(digits), w, s))
  {
    var s := digits + " " + w + " atrás";
    assert s[0] == digits[0];
    OffsetBodyAgo(digits, w);
    OffsetAtDigit(s, OffsetMatch(DigitsValue(digits), w, []), |s|);
    assert s[..|s|] == s;
  }

  /** The pattern matches a whole "digits unit" text. */
  lemma OffsetMatchPlain(digits: string, w: string)
    requires |digits| >= 1 && AllDigits(digits)
    requires |w| >= 1 && !IsSpace(w[0])
    requires UnitWordEnd(digits + " " + w, |digits| + 1) == Some(|digits| + 1 + |w|)
    ensures var s := digits + " " + w;
            OffsetAt(s, 0) == Some(OffsetMatch(DigitsValue(digits), w, s))
  {
    var s := digits + " " + w;
    assert s[0] == digits[0];
    OffsetBodyPlain(digits, w);
    OffsetAtDigit(s, OffsetMatch(DigitsValue(digits), w, []), |s|);
    assert s[..|s|] == s;
  }

  /** The pattern matches a whole offset phrase and reads back its amount and
      unit. The unit word is given by its place in the table. */
  lemma OffsetPhraseMatch(n: nat, k: nat, ago: bool)
    requires k < |UnitWords|
    ensures var s := OffsetPhrase(n, UnitWords[k], ago);
            OffsetAt(s, 0) == Some(OffsetMatch(n, UnitWords[k], s))
  {
    if ago {
      AgoPhraseMatch(n, k);
    } else {
      PlainPhraseMatch(n, k);
    }
  }

  lemma AgoPhraseMatch(n: nat, k: nat)
    requires k < |UnitWords|
    ensures var s := OffsetPhrase(n, UnitWords[k], true);
            OffsetAt(s, 0) == Some(OffsetMatch(n, UnitWords[k], s))
  {
    var digits := ZeroPad(n, 1);
    var w := UnitWords[k];
    var s := digits + " " + w + " atrás";
    assert |w| >= 1 && !IsSpace(w[0]) && UnitWordEnd(s, |digits| + 1) == Some(|digits| + 1 + |w|) by {
      assert " atrás"[0] == ' ';
      assert |digits + " "| == |digits| + 1;
      UnitWordBetween(digits + " ", w, " atrás");
    }
    assert OffsetAt(s, 0) == Some(OffsetMatch(DigitsValue(digits), w, s)) by {
      OffsetMatchAgo(digits, w);
    }
    assert DigitsValue(digits) == n;
    assert OffsetPhrase(n, w, true) == s;
  }

  lemma PlainPhraseMatch(n: nat, k: nat)
    requires k < |UnitWords|
    ensures var s := OffsetPhrase(n, UnitWords[k], false);
            OffsetAt(s, 0) == Some(OffsetMatch(n, UnitWords[k], s))
  {
    var digits := ZeroPad(n, 1);
    var w := UnitWords[k];
    UnitWordAtEnd(digits + " ", w);
    assert OffsetPhrase(n, w, false) == digits + " " + w;
    OffsetMatchPlain(digits, w);
  }

  /** Reading an offset phrase back gives its amount and unit, and the sign is
      negative exactly for the "atrás" form. */
  lemma OffsetPhraseRoundTrip(n: nat, k: nat, ago: bool)
    requires k < |UnitWords|
    ensures var s := OffsetPhrase(n, UnitWords[k], ago);
            && OffsetAt(s, 0) == Some(OffsetMatch(n, UnitWords[k], s))
            && SignedAmount(OffsetAt(s, 0).value) == (if ago then -(n as int) else n)
  {
    OffsetPhraseMatch(n, k, ago);
    OffsetPhraseAgo(n, UnitWords[k], ago);
  }

  /** The day case of the extractor's switch is spelled "d": a dictionary that
      names the day unit "day" gives no result for day words. */
  lemma DayUnitSpelling(ref: DateTime, modifier: int)
    requires ValidDateTime(ref)
    ensures ApplyOffset(ref, modifier, "day").None?
    ensures ApplyOffset(ref, modifier, "d").Some?
  {
  }

  // ---------------------------------------------------------------------------
  // Arithmetic shorthand: "7d -3w +1m +2y"
  // ---------------------------------------------------------------------------

  /** One `[+-]?\d+\s*[dwmy]` term: its signed value and unit letter. */
  datatype Term = Term(value: int, unit: char)

  predicate IsShorthandUnit(c: char)
  {
    c == 'd' || c == 'w' || c == 'm' || c == 'y'
  }

  predicate ValidTerms(ts: seq<Term>)
  {
    forall k :: 0 <= k < |ts| ==> IsShorthandUnit(ts[k].unit)
  }

  /** A term at index `i` and the index just after it. */
  function TermAt(s: string, i: nat): (r: Option<(Term, nat)>)
    ensures r.Some? ==> i < r.value.1 <= |s| && IsShorthandUnit(r.value.0.unit)
    ensures r.Some? ==> s[r.value.1 - 1] == r.value.0.unit
  {
    if i >= |s| then None
    else
      var j := if s[i] == '+' || s[i] == '-' then i + 1 else i;
      var d := DigitEnd(s, j);
      var e := SpaceEnd(s, d);
      if d == j || e == |s| || !IsShorthandUnit(s[e]) then None
      else
        var magnitude: int := DigitsValue(s[j..d]);
        Some((Term(if s[i] == '-' then -magnitude else magnitude, s[e]), e + 1))
  }

  /** `(?:\s+<term>)*` after a term ending at `e`: the further terms, in order. */
  function TermsAfter(s: string, e: nat): (ts: seq<Term>)
    requires e <= |s|
    ensures ValidTerms(ts)
    decreases |s| - e
  {
    var f := SpaceEnd(s, e);
    if f == e then []
    else
      match TermAt(s, f)
      case None => []
      case Some((t, next)) => [t] + TermsAfter(s, next)
  }

  /** Where `(?:\s+<term>)*` after index `e` stops: just after the last term it
      takes, or `e` itself when it takes none. */
  function TermsEnd(s: string, e: nat): (r: nat)
    requires e <= |s|
    ensures e <= r <= |s|
    ensures r == e <==> TermsAfter(s, e) == []
    ensures TermsAfter(s, r) == []
    decreases |s| - e
  {
    var f := SpaceEnd(s, e);
    if f == e then e
    else
      match TermAt(s, f)
      case None => e
      case Some((_, next)) => TermsEnd(s, next)
  }

  /** The whole shorthand pattern at index `i`: its terms, left to right. */
  function ShorthandAt(s: string, i: nat): (r: Option<seq<Term>>)
    ensures r.Some? ==> |r.value| >= 1
    ensures r.Some? ==> ValidTerms(r.value)
  {
    match TermAt(s, i)
    case None => None
    case Some((t, next)) => Some([t] + TermsAfter(s, next))
  }

  /** One term applied: days, weeks of seven days, months or years. */
  function ApplyTerm(d: CalendarDate, t: Term): (r: CalendarDate)
    requires IsShorthandUnit(t.unit)
    ensures t.unit == 'd' ==> ToDays(r) == ToDays(d) + t.value
    ensures t.unit == 'w' ==> ToDays(r) == ToDays(d) + 7 * t.value
    ensures t.unit == 'm' ==> r.year * 12 + r.month == d.year * 12 + d.month + t.value
    ensures t.unit == 'y' ==> r.year == d.year + t.value && r.month == d.month
  {
    if t.unit == 'd' then AddDays(d, t.value)
    else if t.unit == 'w' then AddDays(d, 7 * t.value)
    else if t.unit == 'm' then AddMonths(d, t.value)
    else AddYears(d, t.value)
  }

  /** The terms applied one after another, from the left. */
  function ApplyTerms(d: CalendarDate, ts: seq<Term>): CalendarDate
    requires ValidTerms(ts)
    decreases |ts|
  {
    if |ts| == 0 then d else ApplyTerms(ApplyTerm(d, ts[0]), ts[1..])
  }

  /** The shorthand rule: the reference date moved by every term, the time of day
      kept. */
  function Shorthand(text: string, ref: DateTime): (r: Option<DateTime>)
    requires ValidDateTime(ref)
    ensures r.Some? <==> FirstMatch(LowerStr(text), 0, ShorthandAt).Some?
    ensures r.Some? ==> r.value.minute == ref.minute
    ensures r.Some? ==> r.value.date == ApplyTerms(ref.date, FirstMatch(LowerStr(text), 0, ShorthandAt).value)
  {
    match FirstMatch(LowerStr(text), 0, ShorthandAt)
    case None => None
    case Some(ts) => Some(DateTime(ApplyTerms(ref.date, ts), ref.minute))
  }

  predicate DaysAndWeeksOnly(ts: seq<Term>)
  {
    forall k :: 0 <= k < |ts| ==> ts[k].unit == 'd' || ts[k].unit == 'w'
  }

  /** The signed number of days a run of day and week terms stands for. */
  function SignedDays(ts: seq<Term>): int
    decreases |ts|
  {
    if |ts| == 0 then 0
    else (if ts[0].unit == 'w' then 7 * ts[0].value else ts[0].value) + SignedDays(ts[1..])
  }

  /** Day and week terms add up: the result is the reference moved by their
      signed total, whatever their order. */
  lemma {:induction false} DaysAndWeeksAddUp(d: CalendarDate, ts: seq<Term>)
    requires DaysAndWeeksOnly(ts)
    ensures ToDays(ApplyTerms(d, ts)) == ToDays(d) + SignedDays(ts)
    decreases |ts|
  {
    if |ts| > 0 {
      assert DaysAndWeeksOnly(ts[1..]) by {
        forall k | 0 <= k < |ts| - 1
          ensures ts[1..][k].unit == 'd' || ts[1..][k].unit == 'w'
        {
          assert ts[1..][k] == ts[k + 1];
        }
      }
      DaysAndWeeksAddUp(ApplyTerm(d, ts[0]), ts[1..]);
    }
  }

  /** Applying a list of terms is applying its first part, then the rest. */
  lemma {:induction false} ApplyTermsConcat(d: CalendarDate, a: seq<Term>, b: seq<Term>)
    requires ValidTerms(a) && ValidTerms(b)
    ensures ValidTerms(a + b)
    ensures ApplyTerms(d, a + b) == ApplyTerms(ApplyTerms(d, a), b)
    decreases |a|
  {
    if |a| > 0 {
      assert (a + b)[1..] == a[1..] + b;
      assert (a + b)[0] == a[0];
      ApplyTermsConcat(ApplyTerm(d, a[0]), a[1..], b);
    } else {
      assert a + b == b;
    }
  }

  /** One term as it is written: a minus sign when negative, the magnitude in
      decimal, the unit letter. */
  function TermText(t: Term): (s: string)
    ensures |s| >= 2 && (s[0] == '-' || IsDigit(s[0]))
  {
    (if t.value < 0 then "-" else "") + ZeroPad(if t.value < 0 then -t.value else t.value, 1) + [t.unit]
  }

  /** Terms, each after one space. */
  function SpacedTerms(ts: seq<Term>): (s: string)
    requires ValidTerms(ts)
    decreases |ts|
  {
    if |ts| == 0 then "" else " " + TermText(ts[0]) + SpacedTerms(ts[1..])
  }

  /** A non-empty list of terms written one space apart, as in "7d -3w +1m". */
  function TermsText(ts: seq<Term>): (s: string)
    requires |ts| >= 1 && ValidTerms(ts)
  {
    TermText(ts[0]) + SpacedTerms(ts[1..])
  }

  /** A term once its sign, digit run and unit letter are located. */
  lemma TermAtOf(s: string, i: nat, j: nat, d: nat, e: nat, t: Term)
    requires i <= j < d < |s| && e == d + 1 && IsShorthandUnit(s[d]) && t.unit == s[d]
    requires (j == i + 1 && s[i] == '-') || (j == i && IsDigit(s[i]))
    requires forall k :: j <= k < d ==> IsDigit(s[k])
    requires t.value == if j == i then DigitsValue(s[j..d]) else -(DigitsValue(s[j..d]) as int)
    ensures TermAt(s, i) == Some((t, e))
  {
    RunEndExact(s, j, d, IsDigit);
    RunEndExact(s, d, d, IsSpace);
  }

  /** A written term is read back whole, whatever follows it. */
  lemma TermAtText(p: string, t: Term, tail: string)
    requires IsShorthandUnit(t.unit)
    ensures TermAt(p + TermText(t) + tail, |p|) == Some((t, |p| + |TermText(t)|))
  {
    var neg := t.value < 0;
    var sign: string := if neg then "-" else "";
    var digits := ZeroPad(if neg then -t.value else t.value, 1);
    assert t.value == if sign == "" then DigitsValue(digits) else -(DigitsValue(digits) as int) by {
      assert DigitsValue(digits) == if neg then -t.value else t.value;
    }
    Regroup(p, TermText(t), sign, digits, [t.unit], tail);
    TermAtPieces(p + TermText(t) + tail, p, sign, digits, t, tail, |p| + |TermText(t)|);
  }

  /** A term laid out as an optional minus, a digit run and its unit letter. */
  lemma TermAtPieces(s: string, p: string, sign: string, digits: string, t: Term, tail: string, e: nat)
    requires IsShorthandUnit(t.unit) && |digits| >= 1 && AllDigits(digits)
    requires sign == "-" || sign == ""
    requires t.value == if sign == "" then DigitsValue(digits) else -(DigitsValue(digits) as int)
    requires s == p + sign + digits + ([t.unit] + tail) && e == |p| + |sign| + |digits| + 1
    ensures TermAt(s, |p|) == Some((t, e))
  {
    TermLaidOut(s, p, sign, digits, t.unit, tail);
    DigitSlice(s, |p| + |sign|, |p| + |sign| + |digits|);
    TermAtOf(s, |p|, |p| + |sign|, |p| + |sign| + |digits|, e, t);
  }

  lemma DigitSlice(s: string, j: nat, d: nat)
    requires j <= d <= |s| && AllDigits(s[j..d])
    ensures forall k :: j <= k < d ==> IsDigit(s[k])
  {
    forall k | j <= k < d
      ensures IsDigit(s[k])
    {
      assert s[k] == s[j..d][k - j];
    }
  }

  /** Where the pieces of a written term sit in the text. */
  lemma TermLaidOut(s: string, p: string, sign: string, digits: string, u: char, tail: string)
    requires |digits| >= 1 && AllDigits(digits) && (sign == "-" || sign == "")
    requires s == p + sign + digits + ([u] + tail)
    ensures |p| + |sign| + |digits| < |s|
    ensures s[|p| + |sign|..|p| + |sign| + |digits|] == digits
    ensures s[|p| + |sign| + |digits|] == u
    ensures s[|p|] == if sign == "-" then '-' else digits[0]
  {
    assert s == (p + sign) + digits + ([u] + tail);
    Slices3(p + sign, digits, [u] + tail);
  }

  /** One space and a term after `e`: the term, then whatever follows it. */
  lemma TermsAfterStep(s: string, e: nat, t: Term, next: nat)
    requires e + 1 < |s| && s[e] == ' ' && !IsSpace(s[e + 1])
    requires TermAt(s, e + 1) == Some((t, next))
    ensures TermsAfter(s, e) == [t] + TermsAfter(s, next)
    ensures TermsEnd(s, e) == TermsEnd(s, next)
  {
    RunEndExact(s, e, e + 1, IsSpace);
  }

  /** Written terms after a text are read back in order, up to the end. */
  lemma {:induction false} TermsAfterText(p: string, ts: seq<Term>)
    requires ValidTerms(ts)
    ensures TermsAfter(p + SpacedTerms(ts), |p|) == ts
    ensures TermsEnd(p + SpacedTerms(ts), |p|) == |p + SpacedTerms(ts)|
    decreases |ts|
  {
    if |ts| == 0 {
      assert p + SpacedTerms(ts) == p;
    } else {
      assert ts == [ts[0]] + ts[1..];
      var q := p + " " + TermText(ts[0]);
      TermsAfterTextStep(p, ts, p + SpacedTerms(ts), q);
      TermsAfterText(q, ts[1..]);
    }
  }

  /** The first written term is read, and reading goes on after it. */
  lemma TermsAfterTextStep(p: string, ts: seq<Term>, s: string, q: string)
    requires |ts| > 0 && ValidTerms(ts)
    requires s == p + SpacedTerms(ts) && q == p + " " + TermText(ts[0])
    ensures s == q + SpacedTerms(ts[1..])
    ensures TermsAfter(s, |p|) == [ts[0]] + TermsAfter(s, |q|)
    ensures TermsEnd(s, |p|) == TermsEnd(s, |q|)
  {
    SpacedTermsHead(p, ts, s, q);
    TermAtText(p + " ", ts[0], SpacedTerms(ts[1..]));
    TermsAfterStep(s, |p|, ts[0], |q|);
  }

  /** Written terms start with a space and then a sign or a digit. */
  lemma SpacedTermsHead(p: string, ts: seq<Term>, s: string, q: string)
    requires |ts| > 0 && ValidTerms(ts)
    requires s == p + SpacedTerms(ts) && q == p + " " + TermText(ts[0])
    ensures s == q + SpacedTerms(ts[1..])
    ensures s == (p + " ") + TermText(ts[0]) + SpacedTerms(ts[1..])
    ensures |p| + 1 < |s| && s[|p|] == ' ' && !IsSpace(s[|p| + 1])
    ensures IsShorthandUnit(ts[0].unit)
  {
    var tt := TermText(ts[0]);
    var rest := SpacedTerms(ts[1..]);
    assert s == (p + " ") + tt + rest by {
      assert SpacedTerms(ts) == " " + tt + rest;
      ConcatShift(p, " ", tt, rest);
    }
    assert s[|p|] == ' ' && s[|p| + 1] == tt[0] by {
      assert |p + " "| == |p| + 1;
    }
  }

  /** Regrouping a text written in four pieces. */
  lemma Regroup(p: string, w: string, a: string, b: string, c: string, tail: string)
    requires w == a + b + c
    ensures p + w + tail == p + a + b + (c + tail)
    ensures |w| == |a| + |b| + |c|
  {
  }

  lemma ConcatShift(p: string, a: string, b: string, c: string)
    ensures p + (a + b + c) == (p + a) + b + c
    ensures p + a + b + c == (p + a) + b + c
  {
  }

  /** Written shorthand has no capital letter, so lowering it changes nothing. */
  lemma {:induction false} SpacedTermsLower(ts: seq<Term>)
    requires ValidTerms(ts)
    ensures IsLower(SpacedTerms(ts))
    decreases |ts|
  {
    if |ts| > 0 {
      var tt := TermText(ts[0]);
      var rest := SpacedTerms(ts[1..]);
      assert SpacedTerms(ts) == (" " + tt) + rest;
      TermTextLower(ts[0]);
      IsLowerConcat(" ", tt);
      SpacedTermsLower(ts[1..]);
      IsLowerConcat(" " + tt, rest);
    }
  }

  /** One written term has no capital letter. */
  lemma TermTextLower(t: Term)
    requires IsShorthandUnit(t.unit)
    ensures IsLower(TermText(t))
  {
    var sign: string := if t.value < 0 then "-" else "";
    var digits := ZeroPad(if t.value < 0 then -t.value else t.value, 1);
    assert TermText(t) == sign + digits + [t.unit];
    forall k | 0 <= k < |TermText(t)|
      ensures Lower(TermText(t)[k]) == TermText(t)[k]
    {
      if |sign| <= k < |sign| + |digits| {
        assert TermText(t)[k] == digits[k - |sign|];
      }
    }
  }

  /** Shorthand written out from its terms is read back as those terms. */
  lemma ShorthandAtText(ts: seq<Term>)
    requires |ts| >= 1 && ValidTerms(ts)
    ensures ShorthandAt(TermsText(ts), 0) == Some(ts)
  {
    var s := TermsText(ts);
    var tt := TermText(ts[0]);
    var rest := SpacedTerms(ts[1..]);
    assert TermAt(s, 0) == Some((ts[0], |tt|)) by {
      assert s == [] + tt + rest;
      TermAtText([], ts[0], rest);
    }
    assert TermsAfter(s, |tt|) == ts[1..] by {
      assert s == tt + rest;
      TermsAfterText(tt, ts[1..]);
    }
    ShorthandAtOf(s, ts[0], |tt|, ts[1..]);
    assert [ts[0]] + ts[1..] == ts;
  }

  /** A first term, then the further terms after it, make the whole match. */
  lemma ShorthandAtOf(s: string, t: Term, next: nat, more: seq<Term>)
    requires TermAt(s, 0) == Some((t, next)) && TermsAfter(s, next) == more
    ensures ShorthandAt(s, 0) == Some([t] + more)
  {
  }

  /** Written shorthand has no capital letter. */
  lemma TermsTextLower(ts: seq<Term>)
    requires |ts| >= 1 && ValidTerms(ts)
    ensures LowerStr(TermsText(ts)) == TermsText(ts)
  {
    var s := TermsText(ts);
    SpacedTermsLower(ts);
    var spaced := SpacedTerms(ts);
    assert spaced == " " + s;
    forall k | 0 <= k < |s|
      ensures Lower(s[k]) == s[k]
    {
      assert s[k] == spaced[k + 1];
    }
    LowerStrOfLower(s);
  }

  /** Shorthand written out from its terms is read back as those terms, and the
      rule moves the reference date by exactly them, keeping the time of day. */
  lemma ShorthandRoundTrip(ts: seq<Term>, ref: DateTime)
    requires |ts| >= 1 && ValidTerms(ts) && ValidDateTime(ref)
    ensures ShorthandAt(TermsText(ts), 0) == Some(ts)
    ensures Shorthand(TermsText(ts), ref) == Some(DateTime(ApplyTerms(ref.date, ts), ref.minute))
  {
    ShorthandAtText(ts);
    TermsTextLower(ts);
  }

  /** "7d -3w" reads as seven days forward, then three weeks back. */
  lemma ShorthandExample()
    ensures ShorthandAt("7d -3w", 0) == Some([Term(7, 'd'), Term(-3, 'w')])
  {
    var ts := [Term(7, 'd'), Term(-3, 'w')];
    assert ZeroPad(7, 1) == "7" && ZeroPad(3, 1) == "3";
    assert TermsText(ts) == "7d -3w";
    ShorthandRoundTrip(ts, DateTime(Date(2000, 1, 1), 0));
  }
}

=== FILE: locale.dfy ===
/** The static word tables of the date parser and the week-start setting. */
module Locale {
  import opened Optional
  import opened Calendar

  /** The week-start preference a user can configure. */
  datatype DayOfWeek =
    | Sunday | Monday | Tuesday | Wednesday | Thursday | Friday | Saturday
    | LocaleDefault

  /** Weekday index of a configured week start; `LocaleDefault` defers to the
      locale's own first day of the week. */
  function WeekStartIndex(pref: DayOfWeek, localeWeekStart: Weekday): (k: Weekday)
    ensures pref == LocaleDefault ==> k == localeWeekStart
    ensures pref == Sunday ==> k == 0
    ensures pref == Monday ==> k == 1
    ensures pref == Tuesday ==> k == 2
    ensures pref == Wednesday ==> k == 3
    ensures pref == Thursday ==> k == 4
    ensures pref == Friday ==> k == 5
    ensures pref == Saturday ==> k == 6
  {
    match pref
    case Sunday => 0
    case Monday => 1
    case Tuesday => 2
    case Wednesday => 3
    case Thursday => 4
    case Friday => 5
    case Saturday => 6
    case LocaleDefault => localeWeekStart
  }

  /** English weekday names, as the setting spells them and as the grammar reads them. */
  function EnglishWeekday(k: Weekday): (name: string)
    ensures |name| >= 6
  {
    if k == 0 then "sunday"
    else if k == 1 then "monday"
    else if k == 2 then "tuesday"
    else if k == 3 then "wednesday"
    else if k == 4 then "thursday"
    else if k == 5 then "friday"
    else "saturday"
  }

  /** Portuguese weekday words (full, hyphenated "-feira" and abbreviated, with
      and without accents) to weekday index. The parser keeps this table twice,
      once mapping to English names and once to indices, with the same keys;
      the English name is `EnglishWeekday` of the index. */
  const WeekdayPt: map<string, Weekday> := map[
    "domingo" := 0, "dom" := 0,
    "segunda" := 1, "segunda-feira" := 1, "seg" := 1,
    "terça" := 2, "terça-feira" := 2, "ter" := 2,
    "quarta" := 3, "quarta-feira" := 3, "qua" := 3,
    "quinta" := 4, "quinta-feira" := 4, "qui" := 4,
    "sexta" := 5, "sexta-feira" := 5, "sex" := 5,
    "sábado" := 6, "sabado" := 6, "sab" := 6, "sáb" := 6
  ]

  /** Portuguese month names to month numbers 1..12. The parser's own table is
      zero-based, as its date library counts months; this one is one-based like
      `Calendar.Date`. */
  const MonthPt: map<string, int> := map[
    "janeiro" := 1, "fevereiro" := 2, "março" := 3, "marco" := 3,
    "abril" := 4, "maio" := 5, "junho" := 6, "julho" := 7, "agosto" := 8,
    "setembro" := 9, "outubro" := 10, "novembro" := 11, "dezembro" := 12
  ]

  /** The unit words are not weekday words. */
  lemma UnitWordsAreNotWeekdays()
    ensures "semana" !in WeekdayPt && "sem" !in WeekdayPt && "dia" !in WeekdayPt
    ensures "mês" !in WeekdayPt && "mes" !in WeekdayPt && "ano" !in WeekdayPt
    ensures "week" !in WeekdayPt && "month" !in WeekdayPt && "year" !in WeekdayPt
  {
    WeekAndDayAreNotWeekdays();
    MonthAndYearAreNotWeekdays();
    EnglishUnitsAreNotWeekdays();
  }

  lemma WeekAndDayAreNotWeekdays()
    ensures "semana" !in WeekdayPt && "sem" !in WeekdayPt && "dia" !in WeekdayPt
  {
  }

  lemma MonthAndYearAreNotWeekdays()
    ensures "mês" !in WeekdayPt && "mes" !in WeekdayPt && "ano" !in WeekdayPt
  {
  }

  lemma EnglishUnitsAreNotWeekdays()
    ensures "week" !in WeekdayPt && "month" !in WeekdayPt && "year" !in WeekdayPt
  {
  }

  /** The Portuguese name of weekday `k`, written out independently of the table. */
  function PtDayName(k: Weekday): (name: string)
    ensures |name| >= 5
  {
    ["domingo", "segunda", "terça", "quarta", "quinta", "sexta", "sábado"][k]
  }

  /** Every spelling the parser accepts for weekday `k`: the name, its first three
      letters, the "-feira" form of the working days, and Saturday without accent. */
  function WeekdayForms(k: Weekday): (forms: set<string>)
    ensures PtDayName(k) in forms && PtDayName(k)[..3] in forms
  {
    {PtDayName(k), PtDayName(k)[..3]}
    + (if 1 <= k <= 5 then {PtDayName(k) + "-feira"} else {})
    + (if k == 6 then {"sabado", "sab"} else {})
  }

  /** A word names weekday `k` exactly when it is one of that day's spellings. */
  lemma LookupWeekdayForms(word: string, k: Weekday)
    ensures LookupWeekday(word) == Some(k) <==> word in WeekdayForms(k)
  {
    FormsOfDay(k);
    if word in WeekdayPt {
      TableWordIsForm(word);
    }
    if word in FormTable[k] {
      FormIsTableWord(word, k);
    }
  }

  /** The spellings of each weekday, as literal sets. */
  const FormTable: seq<set<string>> := [
    {"domingo", "dom"},
    {"segunda", "seg", "segunda-feira"},
    {"terça", "ter", "terça-feira"},
    {"quarta", "qua", "quarta-feira"},
    {"quinta", "qui", "quinta-feira"},
    {"sexta", "sex", "sexta-feira"},
    {"sábado", "sáb", "sabado", "sab"}]

  /** Every key of the weekday table is a spelling of the day it maps to. */
  lemma TableWordIsForm(word: string)
    requires word in WeekdayPt
    ensures word in FormTable[WeekdayPt[word]]
  {
  }

  /** Every spelling of a day is a key of the weekday table mapping to that day. */
  lemma FormIsTableWord(word: string, k: Weekday)
    requires word in FormTable[k]
    ensures word in WeekdayPt && WeekdayPt[word] == k
  {
  }

  /** The spellings of each weekday, written out. */
  lemma FormsOfDay(k: Weekday)
    ensures WeekdayForms(k) == FormTable[k]
  {
    var name := PtDayName(k);
    if k == 0 {
      assert name[..3] == "dom";
    } else if k == 1 {
      assert name[..3] == "seg";
      assert name + "-feira" == "segunda-feira";
    } else if k == 2 {
      assert name[..3] == "ter";
      assert name + "-feira" == "terça-feira";
    } else if k == 3 {
      assert name[..3] == "qua";
      assert name + "-feira" == "quarta-feira";
    } else if k == 4 {
      assert name[..3] == "qui";
      assert name + "-feira" == "quinta-feira";
    } else if k == 5 {
      assert name[..3] == "sex";
      assert name + "-feira" == "sexta-feira";
    } else {
      assert name[..3] == "sáb";
    }
  }

  function LookupWeekday(word: string): (r: Option<Weekday>)
    ensures r.Some? <==> word in WeekdayPt
    ensures r.Some? ==> r.value == WeekdayPt[word]
  {
    if word in WeekdayPt then Some(WeekdayPt[word]) else None
  }

  function LookupMonth(word: string): (r: Option<int>)
    ensures r.Some? <==> word in MonthPt
    ensures r.Some? ==> 1 <= r.value <= 12 && r.value == MonthPt[word]
  {
    if word in MonthPt then Some(MonthPt[word]) else None
  }

  /** Canonical unit of an already lower-cased word: week, month, year, day, an
      English weekday name, or the word itself when it is none of these. */
  function NormalizeTimeUnit(lower: string): (u: string)
    ensures lower == "semana" || lower == "sem" ==> u == "week"
    ensures lower == "mês" || lower == "mes" ==> u == "month"
    ensures lower == "ano" ==> u == "year"
    ensures lower == "dia" ==> u == "day"
    ensures lower == "week" || lower == "month" || lower == "year" ==> u == lower
    ensures lower in WeekdayPt ==> u == EnglishWeekday(WeekdayPt[lower])
    ensures lower !in WeekdayPt && lower !in {"semana", "sem", "mês", "mes", "ano", "dia"} ==> u == lower
  {
    UnitWordsAreNotWeekdays();
    if lower == "semana" || lower == "sem" then "week"
    else if lower == "mês" || lower == "mes" then "month"
    else if lower == "ano" then "year"
    else if lower == "dia" then "day"
    else if lower in WeekdayPt then EnglishWeekday(WeekdayPt[lower])
    else lower
  }
}

=== FILE: parser.dfy ===
/** The date-resolution cascade of the natural-language date parser: an ordered
    list of phrase rules tried one after the other, the first that answers
    deciding the date, and the generic grammar engine as the last resort.
    The current moment and the locale's week start are explicit inputs. */
module DateParser {
  import opened Optional
  import opened Text
  import opened Calendar
  import opened Locale
  import opened Patterns

  // ---------------------------------------------------------------------------
  // The generic grammar engine, seen only through its interface
  // ---------------------------------------------------------------------------

  /** How the grammar engine is asked to read a phrase: plainly, preferring a
      future date, or with a given first day of the week. */
  datatype ParseOption = Casual | ForwardDate | WeekStartingOn(weekStart: Weekday)

  /** The first interpretation the engine finds: its date and whether the phrase
      stated the year and the weekday explicitly. */
  datatype Parsed = Parsed(date: CalendarDate, yearCertain: bool, weekdayCertain: bool)

  /** The engine itself, a pure function of phrase, reference date and option.
      Its own grammar (and the extraction rules it is extended with) is not part
      of the cascade. */
  datatype Grammar = Grammar(parse: (string, CalendarDate, ParseOption) -> Option<Parsed>)

  /** `parseDate`: the date of the first interpretation, if there is one. */
  function ParseDate(g: Grammar, text: string, ref: CalendarDate, opt: ParseOption): (r: Option<CalendarDate>)
    ensures r.Some? <==> g.parse(text, ref, opt).Some?
  {
    match g.parse(text, ref, opt)
    case None => None
    case Some(p) => Some(p.date)
  }

  /** What a resolution call is given besides the phrase: the current day, the
      configured week start, and the first weekday of the locale's week. */
  datatype Context = Context(now: CalendarDate, weekStartSetting: DayOfWeek, localeWeekStart: Weekday)

  /** Everything a rule looks at, computed once per call. */
  datatype Input = Input(
    text: string,             // the phrase as typed
    lower: string,            // the phrase lower-cased
    now: CalendarDate,        // the current day
    reference: CalendarDate,  // the anchor day of numeric and month-relative rules
    weekStart: Weekday,       // the configured (or locale) week start
    localeWeekStart: Weekday  // the locale's week start, used by `startOf("week")`
  )

  /** The anchor day: the start of the current week when the engine reads the
      phrase as naming a weekday, the current day otherwise. */
  function ReferenceDate(text: string, ctx: Context, g: Grammar): (r: CalendarDate)
    ensures !WeekdayCertain(text, ctx, g) ==> r == ctx.now
    ensures WeekdayCertain(text, ctx, g) ==>
              WeekdayOf(r) == ctx.localeWeekStart && ToDays(ctx.now) - 6 <= ToDays(r) <= ToDays(ctx.now)
  {
    if WeekdayCertain(text, ctx, g) then StartOfWeek(ctx.now, ctx.localeWeekStart) else ctx.now
  }

  /** The engine's first interpretation of the phrase states a weekday. */
  predicate WeekdayCertain(text: string, ctx: Context, g: Grammar)
  {
    match g.parse(text, ctx.now, Casual)
    case None => false
    case Some(p) => p.weekdayCertain
  }

  function MakeInput(text: string, ctx: Context, g: Grammar): Input
  {
    Input(text, LowerStr(text), ctx.now, ReferenceDate(text, ctx, g),
          WeekStartIndex(ctx.weekStartSetting, ctx.localeWeekStart), ctx.localeWeekStart)
  }

  /** A rule either passes the phrase on or answers; an answer may be "no date"
      when a rule that hands over to the engine gets nothing back. */
  datatype Step = Continue | Return(result: Option<CalendarDate>)

  // ---------------------------------------------------------------------------
  // Calendar resolvers used by the rules
  // ---------------------------------------------------------------------------

  /** The day of month `m` of `y` with weekday `k` among its first seven days. */
  function FirstWeekdayOfMonth(y: int, m: int, k: Weekday): (r: CalendarDate)
    requires 1 <= m <= 12
    ensures r.year == y && r.month == m && 1 <= r.day <= 7
    ensures WeekdayOf(r) == k
  {
    var first := Date(y, m, 1);
    var w := WeekdayOf(first);
    var delta := (k - w + 7) % 7;
    var r := AddDays(first, delta);
    var target := Date(y, m, 1 + delta);
    assert ToDays(target) == ToDays(first) + delta;
    ToDaysInjective(r, target);
    AddDaysWeekday(first, delta);
    ForwardResidue(w, k);
    r
  }

  /** The day of month `m` of `y` with weekday `k` among its last seven days. */
  function LastWeekdayOfMonth(y: int, m: int, k: Weekday): (r: CalendarDate)
    requires 1 <= m <= 12
    ensures r.year == y && r.month == m
    ensures DaysInMonth(y, m) - 6 <= r.day <= DaysInMonth(y, m)
    ensures WeekdayOf(r) == k
  {
    var n := DaysInMonth(y, m);
    var last := Date(y, m, n);
    var w := WeekdayOf(last);
    var delta := (w - k + 7) % 7;
    var r := AddDays(last, -delta);
    var target := Date(y, m, n - delta);
    assert ToDays(target) == ToDays(last) - delta;
    ToDaysInjective(r, target);
    AddDaysWeekday(last, -delta);
    BackwardResidue(w, k);
    r
  }

  /** The first occurrence is the earliest day of the month with that weekday. */
  lemma FirstWeekdayIsEarliest(y: int, m: int, k: Weekday, d: int)
    requires 1 <= m <= 12
    requires 1 <= d < FirstWeekdayOfMonth(y, m, k).day
    ensures WeekdayOf(Date(y, m, d)) != k
  {
    WeekdaysDiffer(Date(y, m, d), FirstWeekdayOfMonth(y, m, k));
  }

  /** The last occurrence is the latest day of the month with that weekday. */
  lemma LastWeekdayIsLatest(y: int, m: int, k: Weekday, d: int)
    requires 1 <= m <= 12
    requires LastWeekdayOfMonth(y, m, k).day < d <= DaysInMonth(y, m)
    ensures WeekdayOf(Date(y, m, d)) != k
  {
    WeekdaysDiffer(LastWeekdayOfMonth(y, m, k), Date(y, m, d));
  }

  function WeekdayOccurrence(first: bool, y: int, m: int, k: Weekday): (r: CalendarDate)
    requires 1 <= m <= 12
    ensures r.year == y && r.month == m && WeekdayOf(r) == k
    ensures first ==> r.day <= 7
    ensures !first ==> r.day > DaysInMonth(y, m) - 7
  {
    if first then FirstWeekdayOfMonth(y, m, k) else LastWeekdayOfMonth(y, m, k)
  }

  /** "primeira/última X do mês | de <mês>": the occurrence in the named month
      (next year's when that month is earlier than the reference month), or in the
      reference month, moved to the next month when it is already past. */
  function NthWeekdayDate(first: bool, k: Weekday, month: Option<string>, ref: CalendarDate): (r: CalendarDate)
    ensures WeekdayOf(r) == k
    ensures first ==> r.day <= 7
    ensures !first ==> r.day > DaysInMonth(r.year, r.month) - 7
    ensures month.Some? && month.value in MonthPt ==>
              r.month == MonthPt[month.value]
              && r.year == (if MonthPt[month.value] < ref.month then ref.year + 1 else ref.year)
    ensures month.Some? && month.value !in MonthPt ==> r.year == ref.year && r.month == ref.month
    ensures month.None? ==> ToDays(r) >= ToDays(ref)
    ensures month.None? && ToDays(WeekdayOccurrence(first, ref.year, ref.month, k)) >= ToDays(ref) ==>
              r == WeekdayOccurrence(first, ref.year, ref.month, k)
    ensures month.None? && ToDays(WeekdayOccurrence(first, ref.year, ref.month, k)) < ToDays(ref) ==>
              r.year * 12 + r.month == ref.year * 12 + ref.month + 1
              && r == WeekdayOccurrence(first, r.year, r.month, k)
  {
    var known := month.Some? && month.value in MonthPt;
    var targetMonth := if known then MonthPt[month.value] else ref.month;
    var targetYear := if known && targetMonth < ref.month then ref.year + 1 else ref.year;
    var candidate := WeekdayOccurrence(first, targetYear, targetMonth, k);
    if month.None? && ToDays(candidate) < ToDays(ref) then
      var next := MonthStart(candidate, 1);
      var r := WeekdayOccurrence(first, next.year, next.month, k);
      NextMonthIsLater(ref, r);
      r
    else candidate
  }

  /** Any day of the month after `ref`'s month lies after `ref`. */
  lemma NextMonthIsLater(ref: CalendarDate, r: CalendarDate)
    requires r.year * 12 + r.month == ref.year * 12 + ref.month + 1
    ensures ToDays(r) > ToDays(ref)
  {
    assert Precedes(ref, r);
    ToDaysMonotone(ref, r);
  }

  /** "X passada" / "pas X": weekday `k` of the Sunday-start week before this one. */
  function PreviousWeekWeekday(now: CalendarDate, k: Weekday): (r: CalendarDate)
    ensures WeekdayOf(r) == k
    ensures SundayWeek(r) == SundayWeek(now) - 1
    ensures ToDays(now) - 13 <= ToDays(r) <= ToDays(now) - 1
  {
    var lastWeek := AddDays(now, -7);
    var r := ShiftToWeekday(lastWeek, k);
    assert SundayWeek(lastWeek) == SundayWeek(now) - 1;
    r
  }

  /** `today.day(k)` for a weekday `k` earlier in this Sunday-start week. */
  function EarlierThisWeek(now: CalendarDate, k: Weekday): (r: CalendarDate)
    requires k < WeekdayOf(now)
    ensures WeekdayOf(r) == k
    ensures ToDays(r) == ToDays(now) - (WeekdayOf(now) - k)
  {
    ShiftToWeekday(now, k)
  }

  /** `today.subtract(1, "week").day(k)`: weekday `k` of last Sunday-start week. */
  function InLastWeek(now: CalendarDate, k: Weekday): (r: CalendarDate)
    ensures WeekdayOf(r) == k
    ensures ToDays(r) == ToDays(now) - 7 + (k - WeekdayOf(now))
  {
    var lastWeek := AddDays(now, -7);
    WeekLaterWeekday(now, -7);
    ShiftToWeekday(lastWeek, k)
  }

  /** `today.add(1, "week").day(k)`: weekday `k` of next Sunday-start week. */
  function InNextWeek(now: CalendarDate, k: Weekday): (r: CalendarDate)
    ensures WeekdayOf(r) == k
    ensures ToDays(r) == ToDays(now) + 7 + (k - WeekdayOf(now))
  {
    var nextWeek := AddDays(now, 7);
    WeekLaterWeekday(now, 7);
    ShiftToWeekday(nextWeek, k)
  }

  /** `today.day(k)` for a weekday `k` later in this Sunday-start week. */
  function LaterThisWeek(now: CalendarDate, k: Weekday): (r: CalendarDate)
    requires k > WeekdayOf(now)
    ensures WeekdayOf(r) == k
    ensures ToDays(r) == ToDays(now) + (k - WeekdayOf(now))
  {
    ShiftToWeekday(now, k)
  }

  /** "última X": the most recent day with weekday `k` strictly before today; on
      that weekday itself, a week ago. */
  function MostRecentWeekday(now: CalendarDate, k: Weekday): (r: CalendarDate)
    ensures WeekdayOf(r) == k
    ensures ToDays(now) - 7 <= ToDays(r) < ToDays(now)
  {
    if k < WeekdayOf(now) then EarlierThisWeek(now, k) else InLastWeek(now, k)
  }

  /** A bare weekday name: the next day with weekday `k` strictly after today; on
      that weekday itself, a week ahead. */
  function UpcomingWeekday(now: CalendarDate, k: Weekday): (r: CalendarDate)
    ensures WeekdayOf(r) == k
    ensures ToDays(now) < ToDays(r) <= ToDays(now) + 7
  {
    if k <= WeekdayOf(now) then InNextWeek(now, k) else LaterThisWeek(now, k)
  }

  /** The most recent occurrence is the closest earlier day with that weekday. */
  lemma MostRecentIsClosest(now: CalendarDate, k: Weekday, j: int)
    requires 0 < j < ToDays(now) - ToDays(MostRecentWeekday(now, k))
    ensures WeekdayOf(AddDays(now, -j)) != k
  {
    WeekdaysDiffer(MostRecentWeekday(now, k), AddDays(now, -j));
  }

  /** The upcoming occurrence is the closest later day with that weekday. */
  lemma UpcomingIsClosest(now: CalendarDate, k: Weekday, j: int)
    requires 0 < j < ToDays(UpcomingWeekday(now, k)) - ToDays(now)
    ensures WeekdayOf(AddDays(now, j)) != k
  {
    WeekdaysDiffer(AddDays(now, j), UpcomingWeekday(now, k));
  }

  // ---------------------------------------------------------------------------
  // Numeric dates
  // ---------------------------------------------------------------------------

  /** The date library's reading of a two-digit year: 69..99 are 19xx, 00..68 are 20xx. */
  function TwoDigitYear(v: nat): (y: int)
    requires v < 100
    ensures 1969 <= y <= 2068 && y % 100 == v
  {
    if v > 68 then 1900 + v else 2000 + v
  }

  /** The year a year group stands for under the strict formats YYYY and YY; a
      three-digit group fits neither. */
  function YearOfGroup(g: string): (r: Option<int>)
    requires AllDigits(g)
    ensures r.Some? <==> |g| == 4 || |g| == 2
  {
    if |g| == 4 then Some(DigitsValue(g))
    else if |g| == 2 then
      TwoDigitsBound(g);
      Some(TwoDigitYear(DigitsValue(g)))
    else None
  }

  lemma TwoDigitsBound(g: string)
    requires AllDigits(g) && |g| == 2
    ensures DigitsValue(g) < 100
  {
    var a := g[..1];
    assert a[..0] == [];
    assert DigitsValue(a) == DigitValue(a[0]);
    assert g[..|g| - 1] == a;
  }

  /** Strict parsing with the formats D/M/YYYY and D/M/YY, or D/M when there is
      no year group, in which case the library fills in the current year. The
      result exists exactly when the fields form a real date. */
  function StrictNumericDate(p: NumericParts, currentYear: int): (r: Option<CalendarDate>)
    requires WellFormedParts(p)
    ensures r.Some? ==> r.value.day == DigitsValue(p.day) && r.value.month == DigitsValue(p.month)
    ensures r.Some? && p.year.None? ==> r.value.year == currentYear
    ensures r.Some? && p.year.Some? ==> YearOfGroup(p.year.value) == Some(r.value.year)
    ensures p.year.None? ==>
              (r.Some? <==> ValidDate(Date(currentYear, DigitsValue(p.month), DigitsValue(p.day))))
    ensures p.year.Some? ==>
              (r.Some? <==> YearOfGroup(p.year.value).Some?
                            && ValidDate(Date(YearOfGroup(p.year.value).value, DigitsValue(p.month), DigitsValue(p.day))))
  {
    var y := if p.year.None? then Some(currentYear) else YearOfGroup(p.year.value);
    if y.None? then None
    else
      var d := Date(y.value, DigitsValue(p.month), DigitsValue(p.day));
      if ValidDate(d) then Some(d) else None
  }

  /** Rule 1, `D/M`, `D/M/YY` or `D/M/YYYY` with `/`, `.` or `-`: the date when it
      is valid; without a year, moved to the reference year. */
  function NumericRule(input: Input): (r: Step)
    ensures r.Return? ==> r.result.Some?
    ensures r.Return? ==> NumericDateParts(Trim(input.text)).Some?
    ensures r.Return? && NumericDateParts(Trim(input.text)).value.year.None? ==>
              r.result.value.year == input.reference.year
    ensures r.Return? && NumericDateParts(Trim(input.text)).value.year.Some? ==>
              Some(r.result.value) == StrictNumericDate(NumericDateParts(Trim(input.text)).value, input.now.year)
    ensures r.Continue? <==>
              NumericDateParts(Trim(input.text)).None?
              || StrictNumericDate(NumericDateParts(Trim(input.text)).value, input.now.year).None?
    ensures r.Return? ==>
              var p := NumericDateParts(Trim(input.text)).value;
              && r.result.value.month == DigitsValue(p.month)
              && (ValidDate(Date(r.result.value.year, DigitsValue(p.month), DigitsValue(p.day))) ==>
                    r.result.value.day == DigitsValue(p.day))
              && (!ValidDate(Date(r.result.value.year, DigitsValue(p.month), DigitsValue(p.day))) ==>
                    r.result.value.day == DaysInMonth(r.result.value.year, DigitsValue(p.month)))
  {
    match NumericDateParts(Trim(input.text))
    case None => Continue
    case Some(p) =>
      match StrictNumericDate(p, input.now.year)
      case None => Continue
      case Some(d) => Return(Some(if p.year.None? then SetYearClamped(d, input.reference.year) else d))
  }

  // ---------------------------------------------------------------------------
  // The rules
  // ---------------------------------------------------------------------------

  /** Rule 2, "dia N": day N of the reference month, when that month has it. */
  function DayOfMonthRule(input: Input): (r: Step)
    ensures r.Return? ==> r.result.Some?
    ensures r.Return? ==> r.result.value.year == input.reference.year
                          && r.result.value.month == input.reference.month
    ensures r.Return? <==> DayOfMonthDigits(LowerStr(Trim(input.text))).Some?
                           && 1 <= DigitsValue(DayOfMonthDigits(LowerStr(Trim(input.text))).value)
                              <= DaysInMonth(input.reference.year, input.reference.month)
    ensures r.Return? ==> r.result.value.day == DigitsValue(DayOfMonthDigits(LowerStr(Trim(input.text))).value)
  {
    match DayOfMonthDigits(LowerStr(Trim(input.text)))
    case None => Continue
    case Some(digits) =>
      var n := DigitsValue(digits);
      var ref := input.reference;
      if 1 <= n <= DaysInMonth(ref.year, ref.month) then Return(Some(Date(ref.year, ref.month, n)))
      else Continue
  }

  /** Rule 3, "primeira/última X do mês | de <mês>"; an unknown weekday word
      passes the phrase on. */
  function NthWeekdayRule(input: Input): (r: Step)
    ensures r.Return? <==> NthWeekdayParts(LowerStr(Trim(input.text))).Some?
                           && NthWeekdayParts(LowerStr(Trim(input.text))).value.weekday in WeekdayPt
    ensures r.Return? ==>
              var p := NthWeekdayParts(LowerStr(Trim(input.text))).value;
              r.result == Some(NthWeekdayDate(p.first, WeekdayPt[p.weekday], p.month, input.reference))
  {
    match NthWeekdayParts(LowerStr(Trim(input.text)))
    case None => Continue
    case Some(p) =>
      match LookupWeekday(p.weekday)
      case None => Continue
      case Some(k) => Return(Some(NthWeekdayDate(p.first, k, p.month, input.reference)))
  }

  /** Rule 4, "esta/este/this semana|week": the engine's reading of "this
      <week-start day>"; any other word passes the phrase on. */
  function ThisRule(input: Input, g: Grammar): (r: Step)
    ensures r.Return? <==> KeywordWord(input.lower, ThisKeywords).Some?
                           && NormalizeTimeUnit(KeywordWord(input.lower, ThisKeywords).value) == "week"
    ensures r.Return? ==> r.result == ParseDate(g, "this " + EnglishWeekday(input.weekStart), input.reference, Casual)
  {
    match KeywordWord(input.lower, ThisKeywords)
    case None => Continue
    case Some(w) =>
      if NormalizeTimeUnit(w) == "week" || w == "semana" || w == "sem" then
        Return(ParseDate(g, "this " + EnglishWeekday(input.weekStart), input.reference, Casual))
      else Continue
  }

  /** Rule 5 on its captured word: next week through the engine, the first day of
      next month or of next year directly, a Portuguese weekday through the
      engine's "next <weekday>" from today; any other word passes the phrase on. */
  function NextStep(w: string, input: Input, g: Grammar): (r: Step)
    ensures NormalizeTimeUnit(w) == "week" ==>
              r == Return(ParseDate(g, "next " + EnglishWeekday(input.weekStart), input.reference, ForwardDate))
    ensures NormalizeTimeUnit(w) == "month" ==>
              r.Return? && r.result.Some? && r.result.value.day == 1
              && r.result.value.year * 12 + r.result.value.month == input.now.year * 12 + input.now.month + 1
    ensures NormalizeTimeUnit(w) == "year" ==> r == Return(Some(Date(input.now.year + 1, 1, 1)))
    ensures w in WeekdayPt ==>
              r == Return(ParseDate(g, "next " + EnglishWeekday(WeekdayPt[w]), input.now, ForwardDate))
    ensures r.Continue? <==> w !in WeekdayPt && NormalizeTimeUnit(w) !in {"week", "month", "year"}
  {
    var unit := NormalizeTimeUnit(w);
    if unit == "week" || w == "semana" || w == "sem" then
      Return(ParseDate(g, "next " + EnglishWeekday(input.weekStart), input.reference, ForwardDate))
    else if unit == "month" || w == "mês" || w == "mes" then
      Return(Some(MonthStart(input.now, 1)))
    else if unit == "year" || w == "ano" then
      Return(Some(Date(input.now.year + 1, 1, 1)))
    else if w in WeekdayPt then
      Return(ParseDate(g, "next " + EnglishWeekday(WeekdayPt[w]), input.now, ForwardDate))
    else Continue
  }

  /** Rule 5, "próxima/próximo/next X": decided by the word after the keyword. */
  function NextRule(input: Input, g: Grammar): Step
  {
    match KeywordWord(input.lower, NextKeywords)
    case None => Continue
    case Some(w) => NextStep(w, input, g)
  }

  /** The word of "X passada/passado/pas", or failing that of "pas X". */
  function PastWord(lower: string): Option<string>
  {
    match PassadoWord(lower)
    case Some(w) => Some(w)
    case None => KeywordWord(lower, PasKeywords)
  }

  /** Rule 6 on its captured word: a weekday of the Sunday-start week before this
      one, or for "semana" the start of the locale week a week ago; any other word
      passes the phrase on. */
  function PastStep(w: string, now: CalendarDate, localeWeekStart: Weekday): (r: Step)
    ensures w in WeekdayPt ==>
              r.Return? && r.result.Some?
              && WeekdayOf(r.result.value) == WeekdayPt[w]
              && SundayWeek(r.result.value) == SundayWeek(now) - 1
    ensures w == "semana" || w == "sem" ==>
              r.Return? && r.result.Some?
              && WeekdayOf(r.result.value) == localeWeekStart
              && ToDays(now) - 13 <= ToDays(r.result.value) <= ToDays(now) - 7
    ensures r.Continue? <==> w !in WeekdayPt && w != "semana" && w != "sem"
  {
    UnitWordsAreNotWeekdays();
    if w in WeekdayPt then Return(Some(PreviousWeekWeekday(now, WeekdayPt[w])))
    else if w == "semana" || w == "sem" then Return(Some(WeekStartWeekAgo(now, localeWeekStart)))
    else Continue
  }

  /** `subtract(1, "week").startOf("week")`. */
  function WeekStartWeekAgo(now: CalendarDate, localeWeekStart: Weekday): (r: CalendarDate)
    ensures WeekdayOf(r) == localeWeekStart
    ensures ToDays(now) - 13 <= ToDays(r) <= ToDays(now) - 7
  {
    StartOfWeek(AddDays(now, -7), localeWeekStart)
  }

  /** Rule 6, "X passada" / "pas X". */
  function PastRule(input: Input): Step
  {
    match PastWord(input.lower)
    case None => Continue
    case Some(w) => PastStep(w, input.now, input.localeWeekStart)
  }

  /** Rule 7 on its captured word: the most recent weekday, or the start of last
      week, last month or last year; any other word passes the phrase on. */
  function MostRecentStep(w: string, now: CalendarDate, localeWeekStart: Weekday): (r: Step)
    ensures w in WeekdayPt ==>
              r.Return? && r.result.Some?
              && WeekdayOf(r.result.value) == WeekdayPt[w]
              && ToDays(now) - 7 <= ToDays(r.result.value) < ToDays(now)
    ensures w == "semana" || w == "sem" ==>
              r.Return? && r.result.Some?
              && WeekdayOf(r.result.value) == localeWeekStart
              && ToDays(now) - 13 <= ToDays(r.result.value) <= ToDays(now) - 7
    ensures w == "mês" || w == "mes" ==>
              r.Return? && r.result.Some? && r.result.value.day == 1
              && r.result.value.year * 12 + r.result.value.month == now.year * 12 + now.month - 1
    ensures w == "ano" ==> r == Return(Some(Date(now.year - 1, 1, 1)))
    ensures r.Continue? <==> w !in WeekdayPt && w !in {"semana", "sem", "mês", "mes", "ano"}
  {
    UnitWordsAreNotWeekdays();
    if w in WeekdayPt then Return(Some(MostRecentWeekday(now, WeekdayPt[w])))
    else if w == "semana" || w == "sem" then Return(Some(WeekStartWeekAgo(now, localeWeekStart)))
    else if w == "mês" || w == "mes" then Return(Some(MonthStart(now, -1)))
    else if w == "ano" then Return(Some(Date(now.year - 1, 1, 1)))
    else Continue
  }

  /** Rule 7, "última/último/last X". */
  function MostRecentRule(input: Input): Step
  {
    match KeywordWord(input.lower, LastKeywords)
    case None => Continue
    case Some(w) => MostRecentStep(w, input.now, input.localeWeekStart)
  }

  /** Because the keyword pattern's `\w` is ASCII-only, "última sábado" captures just
      "s", which names no weekday or period, so rule 7 passes the phrase on. */
  lemma LastSabadoPassesOn(input: Input)
    requires input.lower == "última sábado"
    ensures KeywordWord(input.lower, LastKeywords) == Some("s")
    ensures MostRecentRule(input) == Continue
  {
    assert input.lower == LastKeywords[2] + " " + "s" + "ábado";
    LastKeywordsSeparated();
    KeywordPhraseWord(LastKeywords, 2, "s", "ábado");
    LoneLetterNamesNothing("s", input.now, input.localeWeekStart);
  }

  /** The single letter `s` is no weekday and no unit, so `última s` passes on. */
  lemma LoneLetterNamesNothing(w: string, now: CalendarDate, localeWeekStart: Weekday)
    requires w == "s"
    ensures MostRecentStep(w, now, localeWeekStart) == Continue
  {
    assert w !in WeekdayPt;
  }

  /** `n` in decimal, with a minus sign when negative, as a template literal prints it. */
  function IntText(n: int): (s: string)
    ensures |s| >= 1
  {
    if n < 0 then "-" + ZeroPad(-n, 1) else ZeroPad(n, 1)
  }

  /** The "Y-M-D" text handed back to the engine. */
  function IsoText(y: int, m: int, d: int): string
  {
    IntText(y) + "-" + IntText(m) + "-" + IntText(d)
  }

  /** Rule 8, "último dia de X" / "fim de X": the engine reads X; its year and month
      give the last day of that month, which is written as "Y-M-D" and read back by
      the engine. When the engine cannot read X the phrase is passed on. */
  function LastDayOfRule(input: Input, g: Grammar): (r: Step)
    requires |input.lower| == |input.text|
    ensures r.Return? <==>
              LastDayOf(input.lower).Some?
              && var sp := LastDayOf(input.lower).value;
                 g.parse(input.text[sp.start..sp.end], input.now, Casual).Some?
    ensures r.Return? ==>
              var sp := LastDayOf(input.lower).value;
              var p := g.parse(input.text[sp.start..sp.end], input.now, Casual).value;
              r.result == ParseDate(g, IsoText(p.date.year, p.date.month, DaysInMonth(p.date.year, p.date.month)), input.now, ForwardDate)
  {
    match LastDayOf(input.lower)
    case None => Continue
    case Some(sp) =>
      match g.parse(input.text[sp.start..sp.end], input.now, Casual)
      case None => Continue
      case Some(p) =>
        var y := p.date.year;
        var m := p.date.month;
        Return(ParseDate(g, IsoText(y, m, DaysInMonth(y, m)), input.now, ForwardDate))
  }

  /** "último dia de X" and its variants: the engine reads X as typed, and the
      rule answers with the last day of the month it reads, or passes on when it
      reads nothing. */
  lemma LastDayPhraseResolves(input: Input, g: Grammar, kw: string, k: nat, x: string)
    requires |input.lower| == |input.text|
    requires k < |LastDayKeywords| && LastDayKeywords[k] == kw
    requires forall i :: 0 <= i < |x| ==> NotNewline(x[i])
    requires x == [] || !IsSpace(x[0])
    requires input.lower == kw + " " + x
    ensures g.parse(input.text[|kw| + 1..], input.now, Casual).None? ==> LastDayOfRule(input, g) == Continue
    ensures g.parse(input.text[|kw| + 1..], input.now, Casual).Some? ==>
              var p := g.parse(input.text[|kw| + 1..], input.now, Casual).value;
              LastDayOfRule(input, g)
              == Return(ParseDate(g, IsoText(p.date.year, p.date.month, DaysInMonth(p.date.year, p.date.month)),
                                  input.now, ForwardDate))
  {
    LastDayOfLine(input.lower, kw, k, x);
    SliceToEnd(input.text, |kw| + 1, |input.lower|);
    LastDayOfRuleOf(input, g, Span(|kw| + 1, |input.lower|), input.text[|kw| + 1..]);
  }

  /** The rule, once the capture is located. */
  lemma LastDayOfRuleOf(input: Input, g: Grammar, sp: Span, cap: string)
    requires |input.lower| == |input.text| && sp.start <= sp.end <= |input.text|
    requires LastDayOf(input.lower) == Some(sp) && cap == input.text[sp.start..sp.end]
    ensures g.parse(cap, input.now, Casual).None? ==> LastDayOfRule(input, g) == Continue
    ensures g.parse(cap, input.now, Casual).Some? ==>
              var p := g.parse(cap, input.now, Casual).value;
              LastDayOfRule(input, g)
              == Return(ParseDate(g, IsoText(p.date.year, p.date.month, DaysInMonth(p.date.year, p.date.month)),
                                  input.now, ForwardDate))
  {
  }

  /** Rule 9, "meados de X" / "mid X": the engine's forward reading of "X 15". */
  function MidOfRule(input: Input, g: Grammar): (r: Step)
    requires |input.lower| == |input.text|
    ensures r.Return? <==> MidOf(input.lower).Some?
    ensures r.Return? ==>
              var sp := MidOf(input.lower).value;
              r.result == ParseDate(g, input.text[sp.start..sp.end] + " 15", input.now, ForwardDate)
  {
    match MidOf(input.lower)
    case None => Continue
    case Some(sp) => Return(ParseDate(g, input.text[sp.start..sp.end] + " 15", input.now, ForwardDate))
  }

  /** Rule 10, the whole phrase a Portuguese weekday word: its next occurrence. */
  function BareWeekdayRule(input: Input): (r: Step)
    ensures r.Return? <==> input.lower in WeekdayPt
    ensures r.Return? ==> r.result == Some(UpcomingWeekday(input.now, WeekdayPt[input.lower]))
  {
    if input.lower in WeekdayPt then Return(Some(UpcomingWeekday(input.now, WeekdayPt[input.lower])))
    else Continue
  }

  /** The engine's reading with the week start, the year replaced by the reference
      year when the phrase did not state one. */
  function Fallback(input: Input, g: Grammar): (r: Option<CalendarDate>)
    ensures r.Some? <==> g.parse(input.text, input.reference, WeekStartingOn(input.weekStart)).Some?
    ensures r.Some? ==>
              var p := g.parse(input.text, input.reference, WeekStartingOn(input.weekStart)).value;
              && (p.yearCertain ==> r.value == p.date)
              && (!p.yearCertain && ValidDate(Date(input.reference.year, p.date.month, p.date.day)) ==>
                    r.value == Date(input.reference.year, p.date.month, p.date.day))
              && (!p.yearCertain && !ValidDate(Date(input.reference.year, p.date.month, p.date.day)) ==>
                    r.value == Date(input.reference.year, 3, 1))
  {
    var opt := WeekStartingOn(input.weekStart);
    match g.parse(input.text, input.reference, opt)
    case None => ParseDate(g, input.text, input.reference, opt)
    case Some(p) => Some(if p.yearCertain then p.date else SetFullYear(p.date, input.reference.year))
  }

  // ---------------------------------------------------------------------------
  // The cascade
  // ---------------------------------------------------------------------------

  datatype Rule =
    | NumericDate | DayOfMonth | NthWeekdayOfMonth | ThisUnit | NextUnit
    | PastWeekday | MostRecent | LastDayOfPeriod | MidPeriod | BareWeekday

  /** The order the rules are tried in; it is part of the meaning of a phrase. */
  const Cascade: seq<Rule> := [
    NumericDate, DayOfMonth, NthWeekdayOfMonth, ThisUnit, NextUnit,
    PastWeekday, MostRecent, LastDayOfPeriod, MidPeriod, BareWeekday
  ]

  function ApplyRule(rule: Rule, input: Input, g: Grammar): Step
    requires |input.lower| == |input.text|
  {
    match rule
    case NumericDate => NumericRule(input)
    case DayOfMonth => DayOfMonthRule(input)
    case NthWeekdayOfMonth => NthWeekdayRule(input)
    case ThisUnit => ThisRule(input, g)
    case NextUnit => NextRule(input, g)
    case PastWeekday => PastRule(input)
    case MostRecent => MostRecentRule(input)
    case LastDayOfPeriod => LastDayOfRule(input, g)
    case MidPeriod => MidOfRule(input, g)
    case BareWeekday => BareWeekdayRule(input)
  }

  /** Tries the rules in order; the first answer is the result, and when every
      rule passes the phrase on the engine decides. */
  function RunRules(rules: seq<Rule>, input: Input, g: Grammar): (r: Option<CalendarDate>)
    requires |input.lower| == |input.text|
    ensures |rules| > 0 && ApplyRule(rules[0], input, g).Return? ==> r == ApplyRule(rules[0], input, g).result
    ensures (forall i :: 0 <= i < |rules| ==> ApplyRule(rules[i], input, g).Continue?) ==> r == Fallback(input, g)
    decreases |rules|
  {
    if |rules| == 0 then Fallback(input, g)
    else
      match ApplyRule(rules[0], input, g)
      case Return(result) => result
      case Continue =>
        assert forall i :: 1 <= i < |rules| ==> rules[i] == rules[1..][i - 1];
        RunRules(rules[1..], input, g)
  }

  /** `getParsedDate`: the date a phrase names, or no date. */
  function GetParsedDate(text: string, ctx: Context, g: Grammar): Option<CalendarDate>
  {
    RunRules(Cascade, MakeInput(text, ctx, g), g)
  }

  /** The first rule that answers decides; no later rule and not the engine's
      fallback reading is consulted. */
  lemma {:induction false} FirstAnswerWins(rules: seq<Rule>, input: Input, g: Grammar, i: nat)
    requires |input.lower| == |input.text|
    requires i < |rules|
    requires forall j :: 0 <= j < i ==> ApplyRule(rules[j], input, g).Continue?
    requires ApplyRule(rules[i], input, g).Return?
    ensures RunRules(rules, input, g) == ApplyRule(rules[i], input, g).result
    decreases i
  {
    if i > 0 {
      assert ApplyRule(rules[0], input, g).Continue?;
      SkipsContinue(rules, input, g);
      assert rules[1..][i - 1] == rules[i];
      FirstAnswerWins(rules[1..], input, g, i - 1);
    }
  }

  /** A rule that passes hands the phrase to the rest of the cascade. */
  lemma SkipsContinue(rules: seq<Rule>, input: Input, g: Grammar)
    requires |input.lower| == |input.text|
    requires |rules| > 0 && ApplyRule(rules[0], input, g).Continue?
    ensures RunRules(rules, input, g) == RunRules(rules[1..], input, g)
  {
  }

  /** `dia N` for one or two digits names day N of the reference month when the
      month has it, and otherwise is passed on. */
  lemma DayPhraseResolves(input: Input, n: string)
    requires 1 <= |n| <= 2 && AllDigits(n) && input.text == "dia " + n
    ensures 1 <= DigitsValue(n) <= DaysInMonth(input.reference.year, input.reference.month) ==>
              DayOfMonthRule(input) == Return(Some(Date(input.reference.year, input.reference.month, DigitsValue(n))))
    ensures !(1 <= DigitsValue(n) <= DaysInMonth(input.reference.year, input.reference.month)) ==>
              DayOfMonthRule(input) == Continue
  {
    var t := input.text;
    assert t[0] == 'd' && IsDigit(t[|t| - 1]);
    TrimUnpadded(t);
    assert IsLower(t) by {
      forall i | 0 <= i < |t|
        ensures Lower(t[i]) == t[i]
      {
        if i >= 4 {
          assert t[i] == n[i - 4];
        }
      }
    }
    LowerStrOfLower(t);
    DayOfMonthDigitsOfText(n);
  }
}

=== FILE: patterns.dfy ===
/** Hand-written matchers for the regular expressions the date parser tests a
    phrase against. They run on text that is already lower-cased, which is what
    the case-insensitive flag amounts to for these patterns; a matcher that
    captures text the parser hands on unchanged returns index spans instead, so
    the caller can cut the capture out of the original text. */
module Patterns {
  import opened Optional
  import opened Text

  /** A half-open index range of a capture group. */
  datatype Span = Span(start: nat, end: nat)

  /** An unanchored `match`: the result at the leftmost index (from `i` up to and
      including the end of the text) where the pattern `at` matches. */
  function FirstMatch<T>(s: string, i: nat, at: (string, nat) -> Option<T>): (r: Option<T>)
    ensures r.Some? ==> exists j :: i <= j <= |s| && at(s, j) == r
    ensures r.None? ==> forall j :: i <= j <= |s| ==> at(s, j).None?
    ensures i <= |s| && at(s, i).Some? ==> r == at(s, i)
    decreases |s| + 1 - i
  {
    if i > |s| then None
    else if at(s, i).Some? then at(s, i)
    else FirstMatch(s, i + 1, at)
  }

  /** The leftmost match is the match at the smallest index that has one. */
  lemma {:induction false} FirstMatchLeftmost<T>(s: string, i: nat, j: nat, at: (string, nat) -> Option<T>)
    requires i <= j <= |s|
    requires at(s, j).Some?
    requires forall k :: i <= k < j ==> at(s, k).None?
    ensures FirstMatch(s, i, at) == at(s, j)
    decreases j - i
  {
    if i < j {
      FirstMatchLeftmost(s, i + 1, j, at);
    }
  }

  predicate AllWordChars(w: string)
  {
    forall k :: 0 <= k < |w| ==> IsWordChar(w[k])
  }

  /** `\s+([\wêç-]+)` starting at index `j`: one or more spaces, then the greedy
      word that follows them. */
  function SpacedWord(s: string, j: nat): (r: Option<Span>)
    ensures r.Some? ==> j < r.value.start < r.value.end <= |s|
    ensures r.Some? ==> forall k :: j <= k < r.value.start ==> IsSpace(s[k])
    ensures r.Some? ==> AllWordChars(s[r.value.start..r.value.end])
    ensures r.Some? ==> r.value.end == |s| || !IsWordChar(s[r.value.end])
  {
    if j > |s| then None
    else
      var e := SpaceEnd(s, j);
      if e == j || e == |s| || !IsWordChar(s[e]) then None
      else Some(Span(e, WordEnd(s, e)))
  }

  /** `(?:k1|k2|…)\s+([\wêç-]+)` tried at index `i`: the first keyword, in
      alternation order, after which a spaced word follows. */
  function KeywordWordAt(s: string, i: nat, keywords: seq<string>): (r: Option<Span>)
    ensures r.Some? ==> i < r.value.start < r.value.end <= |s|
    ensures r.Some? ==> AllWordChars(s[r.value.start..r.value.end])
    ensures r.None? ==> forall k :: 0 <= k < |keywords| && At(s, i, keywords[k]) ==> SpacedWord(s, i + |keywords[k]|).None?
    decreases |keywords|
  {
    if |keywords| == 0 then None
    else if At(s, i, keywords[0]) && SpacedWord(s, i + |keywords[0]|).Some? then
      SpacedWord(s, i + |keywords[0]|)
    else
      var r := KeywordWordAt(s, i, keywords[1..]);
      assert forall k :: 1 <= k < |keywords| ==> keywords[k] == keywords[1..][k - 1];
      r
  }

  /** The word captured by the leftmost `(?:keywords)\s+([\wêç-]+)`. */
  function KeywordWord(s: string, keywords: seq<string>): (r: Option<string>)
    ensures r.Some? ==> |r.value| > 0 && AllWordChars(r.value)
  {
    match FirstMatch(s, 0, (t, i) => KeywordWordAt(t, i, keywords))
    case None => None
    case Some(sp) =>
      if sp.start <= sp.end <= |s| then Some(s[sp.start..sp.end]) else None
  }

  /** `this|est[ea]` */
  const ThisKeywords: seq<string> := ["this", "este", "esta"]
  /** `next|pr[óo]xim[oa]|pr[óo]x` */
  const NextKeywords: seq<string> := ["next", "próximo", "próxima", "proximo", "proxima", "próx", "prox"]
  /** `last|[úu]ltim[oa]|ult` */
  const LastKeywords: seq<string> := ["last", "último", "última", "ultimo", "ultima", "ult"]
  /** `pas` as a prefix qualifier */
  const PasKeywords: seq<string> := ["pas"]

  /** `(?:passad[oa]|pas)\b` at index `j`. */
  predicate PassadoTail(s: string, j: nat)
  {
    (At(s, j, "passado") && WordBoundary(s, j + 7))
    || (At(s, j, "passada") && WordBoundary(s, j + 7))
    || (At(s, j, "pas") && WordBoundary(s, j + 3))
  }

  /** `([\wêç-]+)\s+(?:passad[oa]|pas)\b` tried at index `i`. The word must run up
      to the spaces, so it is the whole word run starting at `i`. */
  function PassadoAt(s: string, i: nat): (r: Option<string>)
    ensures r.Some? ==> |r.value| > 0 && AllWordChars(r.value)
    ensures r.Some? ==> i + |r.value| <= |s| && s[i..i + |r.value|] == r.value
    ensures r.Some? ==> PassadoTail(s, SpaceEnd(s, i + |r.value|))
  {
    if i >= |s| || !IsWordChar(s[i]) then None
    else
      var e := WordEnd(s, i);
      var j := SpaceEnd(s, e);
      if j > e && PassadoTail(s, j) then
        var w := s[i..e];
        assert i + |w| == e;
        assert forall k :: 0 <= k < |w| ==> w[k] == s[i + k];
        Some(w)
      else None
  }

  /** The word before "passado", "passada" or "pas" in the leftmost such match. */
  function PassadoWord(s: string): (r: Option<string>)
    ensures r.Some? ==> |r.value| > 0 && AllWordChars(r.value)
  {
    FirstMatch(s, 0, PassadoAt)
  }

  predicate NotNewline(c: char)
  {
    c != '\n' && c != '\r'
  }

  /** `last day of|end of|[úu]ltimo dia de?|fim de?`, the optional final "e" taken
      greedily, so the longer spelling is listed first. */
  const LastDayKeywords: seq<string> :=
    ["last day of", "end of", "último dia de", "último dia d", "ultimo dia de", "ultimo dia d", "fim de", "fim d"]

  function FirstKeywordAt(s: string, i: nat, keywords: seq<string>): (r: Option<nat>)
    ensures r.Some? ==> r.value < |keywords| && At(s, i, keywords[r.value])
    ensures r.Some? ==> forall k :: 0 <= k < r.value ==> !At(s, i, keywords[k])
    ensures r.None? ==> forall k :: 0 <= k < |keywords| ==> !At(s, i, keywords[k])
    decreases |keywords|
  {
    if |keywords| == 0 then None
    else if At(s, i, keywords[0]) then Some(0)
    else
      var rest := FirstKeywordAt(s, i, keywords[1..]);
      assert forall k :: 1 <= k < |keywords| ==> keywords[k] == keywords[1..][k - 1];
      match rest
      case None => None
      case Some(k) => Some(k + 1)
  }

  /** `(?:…)\s*([^\n\r]*)` at index `i`: after the keyword and any white space, the
      rest of the line. */
  function LastDayOfAt(s: string, i: nat): (r: Option<Span>)
    ensures r.Some? ==> r.value.start <= r.value.end <= |s|
    ensures r.Some? ==> forall k :: r.value.start <= k < r.value.end ==> NotNewline(s[k])
    ensures r.Some? ==> r.value.end == |s| || !NotNewline(s[r.value.end])
  {
    match FirstKeywordAt(s, i, LastDayKeywords)
    case None => None
    case Some(k) =>
      var j := SpaceEnd(s, i + |LastDayKeywords[k]|);
      Some(Span(j, RunEnd(s, j, NotNewline)))
  }

  function LastDayOf(s: string): (r: Option<Span>)
    ensures r.Some? ==> r.value.start <= r.value.end <= |s|
  {
    FirstMatch(s, 0, LastDayOfAt)
  }

  /** `(?:mid|meado?s?\s+de)\s+([\wêç-]+)` at index `i`. */
  function MidOfAt(s: string, i: nat): (r: Option<Span>)
    ensures r.Some? ==> r.value.start < r.value.end <= |s|
  {
    if At(s, i, "mid") then SpacedWord(s, i + 3)
    else if At(s, i, "mead") then
      var j0 := i + 4;
      var j1 := if j0 < |s| && s[j0] == 'o' then j0 + 1 else j0;
      var j2 := if j1 < |s| && s[j1] == 's' then j1 + 1 else j1;
      var e := SpaceEnd(s, j2);
      if e > j2 && At(s, e, "de") then SpacedWord(s, e + 2) else None
    else None
  }

  function MidOf(s: string): (r: Option<Span>)
    ensures r.Some? ==> r.value.start < r.value.end <= |s|
  {
    FirstMatch(s, 0, MidOfAt)
  }

  predicate IsDateSeparator(c: char)
  {
    c == '/' || c == '.' || c == '-'
  }

  /** The digit groups of `^(\d{1,2})[\/.-](\d{1,2})(?:[\/.-](\d{2,4}))?$`. */
  datatype NumericParts = NumericParts(day: string, month: string, year: Option<string>)

  predicate WellFormedParts(p: NumericParts)
  {
    && 1 <= |p.day| <= 2 && AllDigits(p.day)
    && 1 <= |p.month| <= 2 && AllDigits(p.month)
    && (p.year.Some? ==> 2 <= |p.year.value| <= 4 && AllDigits(p.year.value))
  }

  function NumericDateParts(t: string): (r: Option<NumericParts>)
    ensures r.Some? ==> WellFormedParts(r.value)
  {
    var a := DigitEnd(t, 0);
    if a == 0 || a > 2 || a == |t| || !IsDateSeparator(t[a]) then None
    else
      var b := DigitEnd(t, a + 1);
      if b == a + 1 || b - (a + 1) > 2 then None
      else if b == |t| then Some(NumericParts(t[..a], t[a + 1..b], None))
      else if !IsDateSeparator(t[b]) then None
      else
        var c := DigitEnd(t, b + 1);
        if c != |t| || c - (b + 1) < 2 || c - (b + 1) > 4 then None
        else Some(NumericParts(t[..a], t[a + 1..b], Some(t[b + 1..])))
  }

  /** Reading back the groups of a date written with separators gives the groups. */
  lemma NumericDatePartsOfText(d: string, s1: char, m: string, s2: char, y: string)
    requires WellFormedParts(NumericParts(d, m, Some(y)))
    requires IsDateSeparator(s1) && IsDateSeparator(s2)
    ensures NumericDateParts(d + [s1] + m + [s2] + y) == Some(NumericParts(d, m, Some(y)))
  {
    var t := d + [s1] + m + [s2] + y;
    var a := |d|;
    var b := a + 1 + |m|;
    assert t[..a] == d;
    assert t[a + 1..b] == m;
    assert t[b + 1..] == y;
    assert t[a] == s1 && t[b] == s2;
    RunEndExact(t, 0, a, IsDigit);
    assert DigitEnd(t, 0) == a;
    RunEndExact(t, a + 1, b, IsDigit);
    assert DigitEnd(t, a + 1) == b;
    RunEndExact(t, b + 1, |t|, IsDigit);
    assert DigitEnd(t, b + 1) == |t|;
  }

  lemma NumericDatePartsOfShortText(d: string, s1: char, m: string)
    requires WellFormedParts(NumericParts(d, m, None))
    requires IsDateSeparator(s1)
    ensures NumericDateParts(d + [s1] + m) == Some(NumericParts(d, m, None))
  {
    var t := d + [s1] + m;
    var a := |d|;
    assert t[..a] == d;
    assert t[a] == s1;
    assert t[a + 1..|t|] == m by {
      assert t == (d + [s1]) + m && |d + [s1]| == a + 1;
    }
    RunEndExact(t, 0, a, IsDigit);
    RunEndExact(t, a + 1, |t|, IsDigit);
    assert DigitEnd(t, a + 1) == |t|;
  }

  /** `^dia\s+(\d{1,2})$` on the trimmed, lower-cased text. */
  function DayOfMonthDigits(t: string): (r: Option<string>)
    ensures r.Some? ==> 1 <= |r.value| <= 2 && AllDigits(r.value)
  {
    if !At(t, 0, "dia") then None
    else
      var e := SpaceEnd(t, 3);
      var f := DigitEnd(t, e);
      if e == 3 || f != |t| || f - e < 1 || f - e > 2 then None
      else Some(t[e..])
  }

  lemma DayOfMonthDigitsOfText(n: string)
    requires 1 <= |n| <= 2 && AllDigits(n)
    ensures DayOfMonthDigits("dia " + n) == Some(n)
  {
    var t := "dia " + n;
    assert At(t, 0, "dia");
    assert t[4..] == n;
    RunEndExact(t, 3, 4, IsSpace);
    RunEndExact(t, 4, |t|, IsDigit);
  }

  /** The groups of `^(primeir[ao]|[úu]ltim[ao])\s+([\wêç-]+)\s+(?:do\s+m[eê]s|de\s+([\wêç-]+))$`:
      first or last occurrence, the weekday word, and the month word if given. */
  datatype NthParts = NthParts(first: bool, weekday: string, month: Option<string>)

  const OccurrenceKeywords: seq<string> := ["primeiro", "primeira", "último", "última", "ultimo", "ultima"]

  function NthWeekdayParts(t: string): (r: Option<NthParts>)
    ensures r.Some? ==> |r.value.weekday| > 0 && AllWordChars(r.value.weekday)
    ensures r.Some? && r.value.month.Some? ==> |r.value.month.value| > 0 && AllWordChars(r.value.month.value)
  {
    match FirstKeywordAt(t, 0, OccurrenceKeywords)
    case None => None
    case Some(k) =>
      match SpacedWord(t, |OccurrenceKeywords[k]|)
      case None => None
      case Some(w) =>
        match MonthClause(t, w.end)
        case None => None
        case Some(month) => Some(NthParts(k < 2, t[w.start..w.end], month))
  }

  /** `\s+(?:do\s+m[eê]s|de\s+([\wêç-]+))$` from index `i`: no month for "do mês",
      the month word for "de Y". */
  function MonthClause(t: string, i: nat): (r: Option<Option<string>>)
    requires i <= |t|
    ensures r.Some? && r.value.Some? ==> |r.value.value| > 0 && AllWordChars(r.value.value)
  {
    var e := SpaceEnd(t, i);
    if e == i then None
    else if At(t, e, "do") then
      var f := SpaceEnd(t, e + 2);
      if f > e + 2 && (t[f..] == "mes" || t[f..] == "mês") then Some(None) else None
    else if At(t, e, "de") then
      match SpacedWord(t, e + 2)
      case None => None
      case Some(m) => if m.end == |t| then Some(Some(t[m.start..m.end])) else None
    else None
  }

  // ---------------------------------------------------------------------------
  // What a phrase of each shape captures
  // ---------------------------------------------------------------------------

  /** No keyword followed by a space is a prefix of an earlier keyword, or has one
      as its prefix: a phrase that starts with a keyword and a space can only
      start with that keyword among the alternatives before it. */
  predicate Separated(keywords: seq<string>)
  {
    forall j, k :: 0 <= j < k < |keywords| ==>
      !(keywords[j] <= keywords[k] + " ") && !(keywords[k] + " " <= keywords[j])
  }

  /** In a separated list, keyword `k` followed by a space is where the
      alternation stops. */
  lemma SeparatedFirst(keywords: seq<string>, k: nat, x: string)
    requires Separated(keywords) && k < |keywords|
    ensures forall j :: 0 <= j < k ==> !At(keywords[k] + " " + x, 0, keywords[j])
  {
    var s := keywords[k] + " " + x;
    var ks := keywords[k] + " ";
    assert s[..|ks|] == ks;
    forall j | 0 <= j < k
      ensures !At(s, 0, keywords[j])
    {
      var kj := keywords[j];
      if |kj| <= |ks| {
        assert !(kj <= ks);
        assert s[..|kj|] == ks[..|kj|];
      } else {
        assert !(ks <= kj);
        assert s[..|ks|] == ks;
      }
    }
  }

  /** White space, then a word running up to a character outside the class. */
  lemma SpacedWordAfter(p: string, w: string, rest: string)
    requires |w| > 0 && AllWordChars(w)
    requires rest == [] || !IsWordChar(rest[0])
    ensures SpacedWord(p + " " + w + rest, |p|) == Some(Span(|p| + 1, |p| + 1 + |w|))
    ensures (p + " " + w + rest)[|p| + 1..|p| + 1 + |w|] == w
  {
    var s := p + " " + w + rest;
    var a := |p| + 1;
    var b := a + |w|;
    assert s[|p|] == ' ';
    assert s[a..b] == w;
    assert s[a] == w[0] && IsWordChar(w[0]);
    assert b < |s| ==> s[b] == rest[0];
    RunEndExact(s, |p|, a, IsSpace);
    RunEndExact(s, a, b, IsWordChar);
  }

  /** The alternation takes the first keyword after which a spaced word follows. */
  lemma {:induction false} KeywordWordAtFirst(s: string, i: nat, keywords: seq<string>, k: nat, w: Option<Span>)
    requires k < |keywords| && At(s, i, keywords[k])
    requires w == SpacedWord(s, i + |keywords[k]|) && w.Some?
    requires forall j :: 0 <= j < k ==> !At(s, i, keywords[j])
    ensures KeywordWordAt(s, i, keywords) == w
    decreases k
  {
    if k > 0 {
      KeywordsTail(s, i, keywords, k);
      KeywordWordAtFirst(s, i, keywords[1..], k - 1, w);
      KeywordWordAtSkip(s, i, keywords);
    } else {
      KeywordWordAtHead(s, i, keywords);
    }
  }

  /** Past a first keyword that does not match, keyword `k` is the tail's
      keyword `k - 1`, and none before it matches. */
  lemma KeywordsTail(s: string, i: nat, keywords: seq<string>, k: nat)
    requires 0 < k < |keywords|
    requires forall j :: 0 <= j < k ==> !At(s, i, keywords[j])
    ensures !At(s, i, keywords[0]) && keywords[1..][k - 1] == keywords[k]
    ensures forall j :: 0 <= j < k - 1 ==> !At(s, i, keywords[1..][j])
  {
    forall j | 0 <= j < k - 1
      ensures !At(s, i, keywords[1..][j])
    {
      assert keywords[1..][j] == keywords[j + 1];
    }
  }

  /** A first keyword that matches, with a spaced word after it, is taken. */
  lemma KeywordWordAtHead(s: string, i: nat, keywords: seq<string>)
    requires |keywords| > 0 && At(s, i, keywords[0]) && SpacedWord(s, i + |keywords[0]|).Some?
    ensures KeywordWordAt(s, i, keywords) == SpacedWord(s, i + |keywords[0]|)
  {
  }

  /** A first keyword that does not match is skipped. */
  lemma KeywordWordAtSkip(s: string, i: nat, keywords: seq<string>)
    requires |keywords| > 0 && !At(s, i, keywords[0])
    ensures KeywordWordAt(s, i, keywords) == KeywordWordAt(s, i, keywords[1..])
  {
  }

  /** A phrase that starts with a keyword, white space and a word captures that
      word, whatever follows it outside the word class. */
  lemma KeywordPhraseWord(keywords: seq<string>, k: nat, w: string, rest: string)
    requires Separated(keywords) && k < |keywords|
    requires |w| > 0 && AllWordChars(w)
    requires rest == [] || !IsWordChar(rest[0])
    ensures KeywordWord(keywords[k] + " " + w + rest, keywords) == Some(w)
  {
    var s := keywords[k] + " " + w + rest;
    assert s == keywords[k] + " " + (w + rest);
    SeparatedFirst(keywords, k, w + rest);
    SpacedWordAfter(keywords[k], w, rest);
    KeywordWordAtFirst(s, 0, keywords, k, SpacedWord(s, |keywords[k]|));
  }

  /** Two strings that differ at an index they both have are not prefixes of
      each other. */
  lemma Apart(a: string, b: string, i: nat)
    requires i < |a| && i < |b| && a[i] != b[i]
    ensures !(a <= b) && !(b <= a)
  {
  }

  lemma ThisKeywordsSeparated()
    ensures Separated(ThisKeywords)
  {
    var kw := ThisKeywords;
    Apart(kw[0], kw[1] + " ", 0);
    Apart(kw[0], kw[2] + " ", 0);
    Apart(kw[1], kw[2] + " ", 3);
  }

  lemma NextKeywordsSeparated()
    ensures Separated(NextKeywords)
  {
    var kw := NextKeywords;
    Apart(kw[0], kw[1] + " ", 0);
    Apart(kw[0], kw[2] + " ", 0);
    Apart(kw[1], kw[2] + " ", 6);
    Apart(kw[0], kw[3] + " ", 0);
    Apart(kw[1], kw[3] + " ", 2);
    Apart(kw[2], kw[3] + " ", 2);
    Apart(kw[0], kw[4] + " ", 0);
    Apart(kw[1], kw[4] + " ", 2);
    Apart(kw[2], kw[4] + " ", 2);
    Apart(kw[3], kw[4] + " ", 6);
    Apart(kw[0], kw[5] + " ", 0);
    Apart(kw[1], kw[5] + " ", 4);
    Apart(kw[2], kw[5] + " ", 4);
    Apart(kw[3], kw[5] + " ", 2);
    Apart(kw[4], kw[5] + " ", 2);
    Apart(kw[0], kw[6] + " ", 0);
    Apart(kw[1], kw[6] + " ", 2);
    Apart(kw[2], kw[6] + " ", 2);
    Apart(kw[3], kw[6] + " ", 4);
    Apart(kw[4], kw[6] + " ", 4);
    Apart(kw[5], kw[6] + " ", 2);
  }

  lemma LastKeywordsSeparated()
    ensures Separated(LastKeywords)
  {
    var kw := LastKeywords;
    Apart(kw[0], kw[1] + " ", 0);
    Apart(kw[0], kw[2] + " ", 0);
    Apart(kw[1], kw[2] + " ", 5);
    Apart(kw[0], kw[3] + " ", 0);
    Apart(kw[1], kw[3] + " ", 0);
    Apart(kw[2], kw[3] + " ", 0);
    Apart(kw[0], kw[4] + " ", 0);
    Apart(kw[1], kw[4] + " ", 0);
    Apart(kw[2], kw[4] + " ", 0);
    Apart(kw[3], kw[4] + " ", 5);
    Apart(kw[0], kw[5] + " ", 0);
    Apart(kw[1], kw[5] + " ", 0);
    Apart(kw[2], kw[5] + " ", 0);
    Apart(kw[3], kw[5] + " ", 3);
    Apart(kw[4], kw[5] + " ", 3);
  }

  lemma LastDayKeywordsSeparated()
    ensures Separated(LastDayKeywords)
  {
    var kw := LastDayKeywords;
    Apart(kw[0], kw[1] + " ", 0);
    Apart(kw[0], kw[2] + " ", 0);
    Apart(kw[1], kw[2] + " ", 0);
    Apart(kw[0], kw[3] + " ", 0);
    Apart(kw[1], kw[3] + " ", 0);
    Apart(kw[2], kw[3] + " ", 12);
    Apart(kw[0], kw[4] + " ", 0);
    Apart(kw[1], kw[4] + " ", 0);
    Apart(kw[2], kw[4] + " ", 0);
    Apart(kw[3], kw[4] + " ", 0);
    Apart(kw[0], kw[5] + " ", 0);
    Apart(kw[1], kw[5] + " ", 0);
    Apart(kw[2], kw[5] + " ", 0);
    Apart(kw[3], kw[5] + " ", 0);
    Apart(kw[4], kw[5] + " ", 12);
    Apart(kw[0], kw[6] + " ", 0);
    Apart(kw[1], kw[6] + " ", 0);
    Apart(kw[2], kw[6] + " ", 0);
    Apart(kw[3], kw[6] + " ", 0);
    Apart(kw[4], kw[6] + " ", 0);
    Apart(kw[5], kw[6] + " ", 0);
    Apart(kw[0], kw[7] + " ", 0);
    Apart(kw[1], kw[7] + " ", 0);
    Apart(kw[2], kw[7] + " ", 0);
    Apart(kw[3], kw[7] + " ", 0);
    Apart(kw[4], kw[7] + " ", 0);
    Apart(kw[5], kw[7] + " ", 0);
    Apart(kw[6], kw[7] + " ", 5);
  }

  lemma OccurrenceKeywordsSeparated()
    ensures Separated(OccurrenceKeywords)
  {
    var kw := OccurrenceKeywords;
    Apart(kw[0], kw[1] + " ", 7);
    Apart(kw[0], kw[2] + " ", 0);
    Apart(kw[1], kw[2] + " ", 0);
    Apart(kw[0], kw[3] + " ", 0);
    Apart(kw[1], kw[3] + " ", 0);
    Apart(kw[2], kw[3] + " ", 5);
    Apart(kw[0], kw[4] + " ", 0);
    Apart(kw[1], kw[4] + " ", 0);
    Apart(kw[2], kw[4] + " ", 0);
    Apart(kw[3], kw[4] + " ", 0);
    Apart(kw[0], kw[5] + " ", 0);
    Apart(kw[1], kw[5] + " ", 0);
    Apart(kw[2], kw[5] + " ", 0);
    Apart(kw[3], kw[5] + " ", 0);
    Apart(kw[4], kw[5] + " ", 5);
  }

  /** "X passado", "X passada" or "X pas", ended by a word boundary, captures X. */
  lemma PassadoPhraseWord(w: string, tail: string, rest: string)
    requires |w| > 0 && AllWordChars(w)
    requires tail == "passado" || tail == "passada" || tail == "pas"
    requires rest == [] || !IsAsciiWord(rest[0])
    ensures PassadoWord(w + " " + tail + rest) == Some(w)
  {
    var s := w + " " + tail + rest;
    var e := |w|;
    assert s == (w + " ") + tail + rest;
    assert PassadoTail(s, e + 1) by {
      PassadoTailAfter(w + " ", tail, rest);
    }
    assert s[..e] == w && s[e] == ' ' && s[e + 1] == 'p';
    RunEndExact(s, 0, e, IsWordChar);
    RunEndExact(s, e, e + 1, IsSpace);
    assert s[0..e] == w;
    PassadoAtOf(s, e);
  }

  /** "passado", "passada" or "pas" after a prefix, ended by a word boundary. */
  lemma PassadoTailAfter(p: string, tail: string, rest: string)
    requires tail == "passado" || tail == "passada" || tail == "pas"
    requires rest == [] || !IsAsciiWord(rest[0])
    ensures PassadoTail(p + tail + rest, |p|)
  {
    var s := p + tail + rest;
    var j := |p|;
    assert s[j..j + |tail|] == tail;
    assert s[j..][..|tail|] == tail;
    assert j + |tail| < |s| ==> s[j + |tail|] == rest[0];
    assert IsAsciiWord(s[j + |tail| - 1]);
  }

  /** The passado pattern once the word run and the single space after it are known. */
  lemma PassadoAtOf(s: string, e: nat)
    requires 0 < e < |s| && WordEnd(s, 0) == e && SpaceEnd(s, e) == e + 1 && PassadoTail(s, e + 1)
    ensures PassadoWord(s) == Some(s[0..e])
  {
    assert PassadoAt(s, 0) == Some(s[0..e]);
  }

  /** A last-day keyword, a space and the rest of the line captures that rest. */
  lemma LastDayOfPhrase(kw: string, k: nat, x: string)
    requires k < |LastDayKeywords| && LastDayKeywords[k] == kw
    requires forall i :: 0 <= i < |x| ==> NotNewline(x[i])
    requires x == [] || !IsSpace(x[0])
    ensures LastDayOf(kw + " " + x) == Some(Span(|kw| + 1, |kw| + 1 + |x|))
  {
    LastDayKeywordFirst(k, x);
    SpaceThenLine(kw, x);
    LastDayOfOf(kw + " " + x, k, |kw| + 1);
  }

  /** The same, for a whole line held in `lower`. */
  lemma LastDayOfLine(lower: string, kw: string, k: nat, x: string)
    requires k < |LastDayKeywords| && LastDayKeywords[k] == kw
    requires forall i :: 0 <= i < |x| ==> NotNewline(x[i])
    requires x == [] || !IsSpace(x[0])
    requires lower == kw + " " + x
    ensures |kw| + 1 <= |lower|
    ensures LastDayOf(lower) == Some(Span(|kw| + 1, |lower|))
  {
    LastDayOfPhrase(kw, k, x);
  }

  lemma LastDayKeywordFirst(k: nat, x: string)
    requires k < |LastDayKeywords|
    ensures FirstKeywordAt(LastDayKeywords[k] + " " + x, 0, LastDayKeywords) == Some(k)
  {
    LastDayKeywordsSeparated();
    FirstKeywordOfPhrase(LastDayKeywords, k, x);
  }

  /** After "p ", one space is skipped and the rest of the line runs to the end. */
  lemma SpaceThenLine(p: string, x: string)
    requires forall i :: 0 <= i < |x| ==> NotNewline(x[i])
    requires x == [] || !IsSpace(x[0])
    ensures var s := p + " " + x;
            && SpaceEnd(s, |p|) == |p| + 1 && RunEnd(s, |p| + 1, NotNewline) == |s|
            && s[|p| + 1..] == x && |s| == |p| + 1 + |x|
  {
    var s := p + " " + x;
    var a := |p| + 1;
    assert s[|p|] == ' ' && s[a..] == x;
    assert a < |s| ==> s[a] == x[0];
    RunEndExact(s, |p|, a, IsSpace);
    assert forall i :: a <= i < |s| ==> s[i] == x[i - a];
    RunEndExact(s, a, |s|, NotNewline);
  }

  /** The last-day pattern once its keyword and the start of its capture are known. */
  lemma LastDayOfOf(s: string, k: nat, a: nat)
    requires k < |LastDayKeywords| && FirstKeywordAt(s, 0, LastDayKeywords) == Some(k)
    requires SpaceEnd(s, |LastDayKeywords[k]|) == a && a <= |s| && RunEnd(s, a, NotNewline) == |s|
    ensures LastDayOf(s) == Some(Span(a, |s|))
  {
    assert LastDayOfAt(s, 0) == Some(Span(a, |s|));
  }

  /** "mid X" and "meados de X" capture the word X. */
  lemma MidOfPhrase(p: string, w: string, rest: string)
    requires p == "mid" || p == "meados de"
    requires |w| > 0 && AllWordChars(w)
    requires rest == [] || !IsWordChar(rest[0])
    ensures MidOf(p + " " + w + rest) == Some(Span(|p| + 1, |p| + 1 + |w|))
    ensures (p + " " + w + rest)[|p| + 1..|p| + 1 + |w|] == w
  {
    var s := p + " " + w + rest;
    SpacedWordAfter(p, w, rest);
    if p == "meados de" {
      MeadosDeAt(s);
    } else {
      assert At(s, 0, "mid");
    }
  }

  /** "meados de" at the start reaches the capture after "de". */
  lemma MeadosDeAt(s: string)
    requires |s| >= 9 && s[..9] == "meados de"
    ensures MidOfAt(s, 0) == SpacedWord(s, 9)
  {
    assert s[1] == 'e';
    assert !("mid" <= s[0..]);
    assert s[0..][..4] == "mead";
    assert At(s, 0, "mead");
    assert s[4] == 'o' && s[5] == 's' && s[6] == ' ' && s[7] == 'd';
    RunEndExact(s, 6, 7, IsSpace);
    assert At(s, 7, "de");
  }

  /** In a separated list, a phrase that starts with keyword `k` and a space
      finds keyword `k` first. */
  lemma FirstKeywordOfPhrase(keywords: seq<string>, k: nat, x: string)
    requires Separated(keywords) && k < |keywords|
    ensures FirstKeywordAt(keywords[k] + " " + x, 0, keywords) == Some(k)
  {
    SeparatedFirst(keywords, k, x);
    assert At(keywords[k] + " " + x, 0, keywords[k]);
  }

  /** " de Y" closing the text gives the month word Y. */
  lemma MonthClauseDe(p: string, m: string)
    requires |m| > 0 && AllWordChars(m)
    ensures MonthClause(p + " de " + m, |p|) == Some(Some(m))
  {
    var t := p + " de " + m;
    var e := |p| + 1;
    assert t[|p|..e + 3] == " de ";
    assert t == (p + " de") + " " + m + [];
    RunEndExact(t, |p|, e, IsSpace);
    assert t[e + 1] == 'e';
    assert !At(t, e, "do") && At(t, e, "de");
    SpacedWordAfter(p + " de", m, []);
  }

  /** " do mês" closing the text gives no month word. */
  lemma MonthClauseDo(p: string, mes: string)
    requires mes == "mês" || mes == "mes"
    ensures MonthClause(p + " do " + mes, |p|) == Some(None)
  {
    var t := p + " do " + mes;
    var e := |p| + 1;
    assert t[|p|..e + 3] == " do ";
    assert t[e + 3..] == mes && t[e + 3] == 'm';
    RunEndExact(t, |p|, e, IsSpace);
    assert At(t, e, "do");
    RunEndExact(t, e + 2, e + 3, IsSpace);
  }

  /** The occurrence pattern once its three pieces are located. */
  lemma NthPartsOf(t: string, k: nat, wd: Span, month: Option<string>)
    requires k < |OccurrenceKeywords| && FirstKeywordAt(t, 0, OccurrenceKeywords) == Some(k)
    requires SpacedWord(t, |OccurrenceKeywords[k]|) == Some(wd)
    requires MonthClause(t, wd.end) == Some(month)
    ensures NthWeekdayParts(t) == Some(NthParts(k < 2, t[wd.start..wd.end], month))
  {
  }

  /** In the occurrence list, a phrase that starts with keyword `k` and a space
      finds keyword `k` first. */
  lemma OccurrenceKeywordFirst(k: nat, x: string)
    requires k < |OccurrenceKeywords|
    ensures FirstKeywordAt(OccurrenceKeywords[k] + " " + x, 0, OccurrenceKeywords) == Some(k)
  {
    OccurrenceKeywordsSeparated();
    FirstKeywordOfPhrase(OccurrenceKeywords, k, x);
  }

  /** "primeira|última X de Y" captures the weekday word X and the month word Y. */
  lemma NthWeekdayPhraseOfMonth(kw: string, k: nat, wd: string, m: string)
    requires k < |OccurrenceKeywords| && OccurrenceKeywords[k] == kw
    requires |wd| > 0 && AllWordChars(wd) && |m| > 0 && AllWordChars(m)
    ensures NthWeekdayParts(kw + " " + wd + " de " + m) == Some(NthParts(k < 2, wd, Some(m)))
  {
    var x := " de " + m;
    var t := kw + " " + wd + " de " + m;
    assert t == kw + " " + (wd + x) && t == kw + " " + wd + x;
    assert t == (kw + " " + wd) + " de " + m;
    OccurrenceKeywordFirst(k, wd + x);
    SpacedWordAfter(kw, wd, x);
    MonthClauseDe(kw + " " + wd, m);
    NthPartsOf(t, k, Span(|kw| + 1, |kw| + 1 + |wd|), Some(m));
  }

  /** "primeira|última X do mês" captures the weekday word X and no month. */
  lemma NthWeekdayPhraseThisMonth(kw: string, k: nat, wd: string, mes: string)
    requires k < |OccurrenceKeywords| && OccurrenceKeywords[k] == kw
    requires |wd| > 0 && AllWordChars(wd)
    requires mes == "mês" || mes == "mes"
    ensures NthWeekdayParts(kw + " " + wd + " do " + mes) == Some(NthParts(k < 2, wd, None))
  {
    var x := " do " + mes;
    var t := kw + " " + wd + " do " + mes;
    assert t == kw + " " + (wd + x) && t == kw + " " + wd + x;
    assert t == (kw + " " + wd) + " do " + mes;
    OccurrenceKeywordFirst(k, wd + x);
    SpacedWordAfter(kw, wd, x);
    MonthClauseDo(kw + " " + wd, mes);
    NthPartsOf(t, k, Span(|kw| + 1, |kw| + 1 + |wd|), None);
  }
}

=== FILE: suggestionprops.dfy ===
/** Properties of the suggestion generators: what each kind of query is
    offered. */
module SuggestionProperties {
  import opened Optional
  import opened Text
  import opened Patterns
  import opened Extractors
  import opened Calendar
  import opened DateParser
  import opened Suggestions

  // ---------------------------------------------------------------------------
  // Properties of the shared generator
  // ---------------------------------------------------------------------------

  /** A query whose lowered form starts with a non-space character is not blank. */
  lemma NotBlank(q: string)
    requires |q| > 0 && !IsSpace(LowerStr(q)[0])
    ensures !IsBlank(q)
  {
  }

  /** Every time label reads `hora:` in lower case. */
  lemma TimeLabelsStartWithHora()
    ensures forall x :: x in TimeLabels ==> StartsWith(LowerStr(x), "hora:")
  {
    forall x | x in TimeLabels
      ensures StartsWith(LowerStr(x), "hora:")
    {
      assert x[..5] == "hora:";
      assert LowerStr(x)[..5] == LowerStr("hora:");
    }
  }

  /** An English `time` query reaches the time branch, whose labels all read
      `hora:`, so it is offered nothing at all. */
  lemma TimeQueryOffersNothing(q: string, resolve: Resolver)
    requires StartsWith(LowerStr(q), "time")
    ensures GetDateSuggestions(q, resolve) == []
  {
    var l := LowerStr(q);
    NotBlank(q);
    assert Classify(q).TimeBranch?;
    TimeLabelsStartWithHora();
    assert l[0] == 't';
    KeepPrefixedNone(TimeLabels, l);
  }

  /** A `hora` query in any case keeps all five time labels. */
  lemma HoraQueryOffersAllTimes(q: string, resolve: Resolver)
    requires LowerStr(q) == "hora"
    ensures HasLabels(GetDateSuggestions(q, resolve), TimeLabels)
    ensures forall c :: c in GetDateSuggestions(q, resolve) ==> c.preview.None?
  {
    NotBlank(q);
    assert Classify(q).TimeBranch?;
    TimeLabelsStartWithHora();
    KeepPrefixedAll(TimeLabels, "hora");
  }

  /** The time branch offers exactly the time labels the lowered query
      prefixes, in their order, none of them previewed. */
  lemma TimeOutput(q: string, resolve: Resolver)
    requires !IsBlank(q) && Classify(q).TimeBranch?
    ensures var r := GetDateSuggestions(q, resolve);
            IsSubsequence(SharedLabels(q), TimeLabels)
            && HasLabels(r, SharedLabels(q))
            && (forall i :: 0 <= i < |r| ==> r[i].text in TimeLabels && StartsWith(LowerStr(r[i].text), LowerStr(q)))
            && (forall x :: x in TimeLabels && StartsWith(LowerStr(x), LowerStr(q)) ==>
                  exists i :: 0 <= i < |r| && r[i].text == x)
  {
    var r := GetDateSuggestions(q, resolve);
    assert SharedLabels(q) == KeepPrefixed(TimeLabels, LowerStr(q));
    FilteredCompletions(r, TimeLabels, LowerStr(q));
  }

  /** Completions carrying a filtered list are exactly the labels the key
      prefixes. */
  lemma FilteredCompletions(r: seq<Completion>, labels: seq<string>, key: string)
    requires HasLabels(r, KeepPrefixed(labels, key))
    ensures forall i :: 0 <= i < |r| ==> r[i].text in labels && StartsWith(LowerStr(r[i].text), key)
    ensures forall x :: x in labels && StartsWith(LowerStr(x), key) ==> exists i :: 0 <= i < |r| && r[i].text == x
  {
    var kept := KeepPrefixed(labels, key);
    forall i | 0 <= i < |r|
      ensures r[i].text in labels && StartsWith(LowerStr(r[i].text), key)
    {
      assert r[i].text == kept[i] && kept[i] in kept;
    }
    forall x | x in labels && StartsWith(LowerStr(x), key)
      ensures exists i :: 0 <= i < |r| && r[i].text == x
    {
      var j :| 0 <= j < |kept| && kept[j] == x;
      assert r[j].text == x;
    }
  }

  /** Two phrases with the same reference are equal only for equal values. */
  lemma PhraseCancel(p: string, a: string, b: string)
    requires p + a == p + b
    ensures a == b
  {
    assert a == (p + a)[|p|..];
    assert b == (p + b)[|p|..];
  }

  /** A value missing from the list gives a phrase missing from its phrases;
      `spaced` is the value with its separating space. */
  lemma PhrasesOmit(reference: string, values: seq<string>, w: string, spaced: string)
    requires w !in values && spaced == " " + w
    ensures reference + spaced !in Phrases(reference, values)
  {
    var phrases := Phrases(reference, values);
    assert reference + spaced == reference + " " + w;
    if reference + " " + w in phrases {
      var i :| 0 <= i < |phrases| && phrases[i] == reference + " " + w;
      PhraseCancel(reference + " ", values[i], w);
    }
  }

  /** Both generators filter a Portuguese qualifier's phrases by the lowered
      query with `sem` spelled out. */
  lemma QualifierLabels(b: Branch, q: string, editor: bool)
    requires b.PtQualifierBranch?
    ensures BranchLabels(b, q, editor)
         == KeepPrefixed(Phrases(b.reference, QualifierUnits(b.reference)), ExpandSem(LowerStr(q)))
  {
  }

  /** After `pas` the generator never offers the month or the year. */
  lemma PasOmitsMonthAndYear(b: Branch, q: string, editor: bool)
    requires b.PtQualifierBranch? && LowerStr(b.reference) == "pas"
    ensures forall x :: x in BranchLabels(b, q, editor) ==> x != b.reference + " mês" && x != b.reference + " ano"
  {
    var units := QualifierUnits(b.reference);
    var phrases := Phrases(b.reference, units);
    QualifierLabels(b, q, editor);
    assert forall x :: x in BranchLabels(b, q, editor) ==> x in phrases;
    PasPhrasesOmit(b.reference);
  }

  /** The phrases `pas` combines with leave out the month and the year. */
  lemma PasPhrasesOmit(reference: string)
    requires LowerStr(reference) == "pas"
    ensures reference + " mês" !in Phrases(reference, QualifierUnits(reference))
    ensures reference + " ano" !in Phrases(reference, QualifierUnits(reference))
  {
    var units := QualifierUnits(reference);
    assert " mês" == " " + "mês";
    assert " ano" == " " + "ano";
    PhrasesOmit(reference, units, "mês", " mês");
    PhrasesOmit(reference, units, "ano", " ano");
  }

  /** The abbreviations are three letters long and none of them is a qualifier. */
  lemma AbbreviationShape(a: string)
    requires a in PtAbbreviations
    ensures |a| == 3 && a != "ult" && a != "pas" && !IsSpace(a[0])
  {
  }

  /** A three-letter text other than `ult` and `pas` starts with no qualifier and
      is no time query. */
  lemma ThreeLettersUnqualified(l: string)
    requires |l| == 3 && l != "ult" && l != "pas"
    ensures forall k :: 0 <= k < |PtQualifierWords| ==> !StartsWith(l, PtQualifierWords[k])
    ensures forall k :: 0 <= k < |EnQualifierWords| ==> !StartsWith(l, EnQualifierWords[k])
    ensures !IsTimeQuery(l)
  {
  }

  /** An abbreviation wins over prefix matching: `sab` or `sáb` offers the five
      variations of `sábado` and nothing else, whatever its case. */
  lemma AbbreviationOffersVariations(q: string, resolve: Resolver)
    requires LowerStr(q) in PtAbbreviations
    ensures Classify(q) == PtWeekdayBranch([PtAbbreviations[LowerStr(q)]])
    ensures HasLabels(GetDateSuggestions(q, resolve), PtVariations(PtAbbreviations[LowerStr(q)]))
  {
    var l := LowerStr(q);
    AbbreviationShape(l);
    NotBlank(q);
    ThreeLettersUnqualified(l);
    assert Qualifier(q, PtQualifierWords).None?;
    assert Qualifier(q, EnQualifierWords).None?;
    assert PtWeekdayMatches(l) == [PtAbbreviations[l]];
  }

  /** A Portuguese qualifier is tried before the weekday and relative patterns: a
      query it recognises is answered by the qualifier branch, with the captured
      qualifier, whatever the later patterns would say. */
  lemma QualifierBeforeWeekdays(q: string)
    requires !IsTimeQuery(LowerStr(q)) && Qualifier(q, PtQualifierWords).Some?
    ensures Classify(q) == PtQualifierBranch(Qualifier(q, PtQualifierWords).value)
    ensures !Classify(q).PtWeekdayBranch? && !Classify(q).EnWeekdayBranch?
  {
    ClassifyFirstRecognised(q, 1);
  }

  /** `próxima semana` captures the whole `próxima`, the first alternative of the
      qualifier pattern that fits, and not its prefix `próx`. */
  lemma ProximaCapturedWhole(q: string)
    requires q == "próxima semana"
    ensures Qualifier(q, PtQualifierWords) == Some("próxima")
  {
    var l := LowerStr(q);
    assert l == q by {
      assert IsLower(q);
    }
    assert StartsWith(l, PtQualifierWords[1]);
    assert !StartsWith(l, PtQualifierWords[0]) by {
      assert l[6] != PtQualifierWords[0][6];
    }
  }

  /** Portuguese weekdays are tried before English ones: `t` is offered `terça`
      alone, although the English pattern would recognise it too. */
  lemma PtWeekdaysBeforeEnglish(q: string)
    requires q == "t"
    ensures Recognised(q, 4)
    ensures Classify(q).PtWeekdayBranch?
    ensures forall d :: d in Classify(q).days <==> d == "terça"
  {
    TQueryRecognisers(q);
    ClassifyFirstRecognised(q, 3);
    assert BranchIndex(Classify(q)) == 3;
  }

  lemma TQueryRecognisers(q: string)
    requires q == "t"
    ensures !Recognised(q, 0) && !Recognised(q, 1) && !Recognised(q, 2)
    ensures Recognised(q, 3) && Recognised(q, 4)
    ensures forall d :: d in PtWeekdayMatches(LowerStr(q)) <==> d == "terça"
  {
    TLowered(q);
    LoweredTRecognisers(q);
  }

  lemma TLowered(q: string)
    requires q == "t"
    ensures LowerStr(q) == "t"
  {
    assert IsLower(q);
  }

  lemma LoweredTRecognisers(q: string)
    requires LowerStr(q) == "t"
    ensures !Recognised(q, 0) && !Recognised(q, 1) && !Recognised(q, 2)
    ensures Recognised(q, 3) && Recognised(q, 4)
    ensures forall d :: d in PtWeekdayMatches(LowerStr(q)) <==> d == "terça"
  {
    LoweredTUnqualified(q);
    LoweredTWeekdays(q);
  }

  lemma LoweredTUnqualified(q: string)
    requires LowerStr(q) == "t"
    ensures !Recognised(q, 0) && !Recognised(q, 1) && !Recognised(q, 2)
  {
    OneLetterUnqualified(LowerStr(q));
  }

  lemma LoweredTWeekdays(q: string)
    requires LowerStr(q) == "t"
    ensures Recognised(q, 3) && Recognised(q, 4)
    ensures forall d :: d in PtWeekdayMatches(LowerStr(q)) <==> d == "terça"
  {
    TPtMatches(LowerStr(q));
    TEnMatches(LowerStr(q));
  }

  lemma TPtMatches(l: string)
    requires l == "t"
    ensures forall d :: d in PtWeekdayMatches(l) <==> d == "terça"
    ensures l != [] && |PtWeekdayMatches(l)| > 0
  {
    assert l !in PtAbbreviations;
    PtNamesStartingWithT();
  }

  lemma TEnMatches(l: string)
    requires l == "t"
    ensures "Tuesday" in EnWeekdayMatches(l)
    ensures l != [] && |EnWeekdayMatches(l)| > 0
  {
    assert LowerStr("Tuesday") == "tuesday";
    assert StartsWith("tuesday", l);
  }

  lemma OneLetterUnqualified(l: string)
    requires |l| == 1
    ensures forall k :: 0 <= k < |PtQualifierWords| ==> !StartsWith(l, PtQualifierWords[k])
    ensures forall k :: 0 <= k < |EnQualifierWords| ==> !StartsWith(l, EnQualifierWords[k])
    ensures !IsTimeQuery(l)
  {
  }

  lemma PtNamesStartingWithT()
    ensures forall d :: d in PtWeekdayNames && StartsWith(d, "t") <==> d == "terça"
  {
    assert forall i :: 0 <= i < |PtWeekdayNames| && i != 2 ==> PtWeekdayNames[i][0] != 't';
  }

  /** The branches that filter a fixed candidate list by the query; only they can
      come out empty. */
  predicate IsFilteringBranch(b: Branch)
  {
    b.TimeBranch? || b.PtQualifierBranch? || b.EnQualifierBranch? || b.PtRelativeBranch? || b.EnRelativeBranch?
  }

  /** Outside the filtering branches the shared generator always offers
      something: the starters, a weekday's list, the shorthand itself, the
      defaults that fit or, failing those, the query. */
  lemma SharedOffersSomething(q: string, resolve: Resolver)
    requires IsBlank(q) || !IsFilteringBranch(Classify(q))
    ensures |GetDateSuggestions(q, resolve)| > 0
  {
    if !IsBlank(q) {
      var b := Classify(q);
      if !EchoesQuery(q) {
        assert b.DefaultBranch? ==> |KeepPrefixed(DefaultLabels, LowerStr(q))| > 0;
        assert |BranchLabels(b, q, false)| > 0;
      }
    }
  }

  /** A shorthand query is offered back unchanged with its own preview. */
  lemma ShorthandEchoed(q: string, resolve: Resolver)
    requires !IsBlank(q) && Classify(q).ArithmeticBranch?
    ensures |GetDateSuggestions(q, resolve)| == 1
    ensures GetDateSuggestions(q, resolve)[0] == Completion(q, Preview(q, resolve))
  {
    assert SharedLabels(q) == [q];
    assert GetDateSuggestions(q, resolve)[0] in GetDateSuggestions(q, resolve);
  }

  /** `7d -3w` is a shorthand query. */
  lemma ShorthandQueryExample()
    ensures IsShorthandQuery("7d -3w")
  {
    var s := "7d -3w";
    ShorthandExampleTerms(s);
  }

  lemma ShorthandExampleTerms(s: string)
    requires s == "7d -3w"
    ensures TermAt(s, 0).Some? && TermAt(s, 0).value.1 == 2
    ensures TermsEnd(s, 2) == 6 && SpaceEnd(s, 6) == 6
  {
    assert |s| == 6 && s[0] == '7' && s[1] == 'd' && s[2] == ' ' && s[3] == '-' && s[4] == '3' && s[5] == 'w';
    assert DigitEnd(s, 0) == 1 && SpaceEnd(s, 1) == 1;
    assert SpaceEnd(s, 2) == 3;
    assert DigitEnd(s, 4) == 5 && SpaceEnd(s, 5) == 5;
    assert TermAt(s, 3).Some? && TermAt(s, 3).value.1 == 6;
  }

  /** A letter some weekday name starts with, in lower case. */
  predicate IsWeekdayInitial(c: char)
  {
    c == 'd' || c == 's' || c == 't' || c == 'q' || c == 'm' || c == 'w' || c == 'f'
  }

  /** The first letters of the weekday names. */
  lemma WeekdayInitials()
    ensures forall k :: 0 <= k < |PtWeekdayNames| ==> |PtWeekdayNames[k]| > 0 && IsWeekdayInitial(PtWeekdayNames[k][0])
    ensures forall k :: 0 <= k < |PtWeekdayNames| ==> Lower(PtWeekdayNames[k][0]) == PtWeekdayNames[k][0]
    ensures forall k :: 0 <= k < |EnWeekdayNames| ==> |EnWeekdayNames[k]| > 0 && IsWeekdayInitial(Lower(EnWeekdayNames[k][0]))
  {
    assert Lower('S') == 's' && Lower('M') == 'm' && Lower('T') == 't' && Lower('W') == 'w' && Lower('F') == 'f';
    assert PtWeekdayNames[0][0] == 'd';
    assert PtWeekdayNames[1][0] == 's';
    assert PtWeekdayNames[2][0] == 't';
    assert PtWeekdayNames[3][0] == 'q';
    assert PtWeekdayNames[4][0] == 'q';
    assert PtWeekdayNames[5][0] == 's';
    assert PtWeekdayNames[6][0] == 's';
    assert EnWeekdayNames[0][0] == 'S';
    assert EnWeekdayNames[1][0] == 'M';
    assert EnWeekdayNames[2][0] == 'T';
    assert EnWeekdayNames[3][0] == 'W';
    assert EnWeekdayNames[4][0] == 'T';
    assert EnWeekdayNames[5][0] == 'F';
    assert EnWeekdayNames[6][0] == 'S';
  }

  lemma AbbreviationInitials(a: string)
    requires a in PtAbbreviations
    ensures |a| > 0 && IsWeekdayInitial(a[0])
  {
  }

  /** A lowered query whose first letter starts no weekday name matches no
      weekday. */
  lemma NoWeekdayMatch(l: string)
    requires |l| > 0 && !IsWeekdayInitial(l[0])
    ensures PtWeekdayMatches(l) == [] && EnWeekdayMatches(l) == []
  {
    WeekdayInitials();
    if l in PtAbbreviations {
      AbbreviationInitials(l);
    }
    forall k | 0 <= k < |PtWeekdayNames|
      ensures !StartsWith(LowerStr(PtWeekdayNames[k]), l)
    {
      assert LowerStr(PtWeekdayNames[k])[0] == PtWeekdayNames[k][0];
    }
    KeepPrefixedNone(PtWeekdayNames, l);
    forall k | 0 <= k < |EnWeekdayNames|
      ensures !StartsWith(LowerStr(EnWeekdayNames[k]), l)
    {
      assert LowerStr(EnWeekdayNames[k])[0] == Lower(EnWeekdayNames[k][0]);
    }
    KeepPrefixedNone(EnWeekdayNames, l);
  }

  /** `em 5` is a Portuguese relative phrase carrying `5`. */
  lemma EmFiveClassified(q: string)
    requires q == "em 5"
    ensures Classify(q) == PtRelativeBranch("5")
  {
    EmFiveUnqualified(q);
    assert q[0] == 'e';
    NoWeekdayMatch(q);
    EmFiveNotShorthand(q);
    EmFiveDelta(q);
    ClassifiedAsPtRelative(q);
  }

  /** A query no earlier branch takes and that carries a Portuguese relative
      number is classified by that number. */
  lemma ClassifiedAsPtRelative(q: string)
    requires !IsTimeQuery(LowerStr(q))
    requires Qualifier(q, PtQualifierWords).None? && Qualifier(q, EnQualifierWords).None?
    requires PtWeekdayMatches(LowerStr(q)) == [] && EnWeekdayMatches(LowerStr(q)) == []
    requires !IsShorthandQuery(LowerStr(q)) && PtRelativeDelta(q).Some?
    ensures Classify(q) == PtRelativeBranch(PtRelativeDelta(q).value)
  {
  }

  lemma EmFiveUnqualified(q: string)
    requires q == "em 5"
    ensures LowerStr(q) == q && !IsTimeQuery(LowerStr(q))
    ensures Qualifier(q, PtQualifierWords).None? && Qualifier(q, EnQualifierWords).None?
  {
    EmFiveIsLower(q);
    EmFiveNoQualifierWord(q, PtQualifierWords);
    EmFiveNoQualifierWord(q, EnQualifierWords);
  }

  lemma EmFiveIsLower(q: string)
    requires q == "em 5"
    ensures LowerStr(q) == q && !IsTimeQuery(q)
  {
    assert q[0] == 'e' && "hora"[0] == 'h' && "time"[0] == 't';
  }

  lemma EmFiveNoQualifierWord(q: string, words: seq<string>)
    requires q == "em 5" && (words == PtQualifierWords || words == EnQualifierWords)
    ensures forall k :: 0 <= k < |words| ==> !StartsWith(q, words[k])
  {
    forall k | 0 <= k < |words|
      ensures !StartsWith(q, words[k])
    {
      var w := words[k];
      assert |w| >= 3 && (w[0] != 'e' || w[1] != 'm');
    }
  }

  lemma EmFiveNotShorthand(q: string)
    requires q == "em 5"
    ensures !IsShorthandQuery(LowerStr(q))
  {
    var l := LowerStr(q);
    assert l[0] == 'e';
    assert DigitEnd(l, 0) == 0;
  }

  lemma EmFiveDelta(q: string)
    requires q == "em 5"
    ensures PtRelativeDelta(q) == Some("5")
  {
    var l := LowerStr(q);
    assert l == q;
    assert |l| == 4 && l[2] == ' ' && l[3] == '5';
    assert SpaceEnd(l, 2) == 3;
    assert DigitEnd(l, 3) == 4;
    assert SignedNumeralEnd(l, 3) == 4;
    assert q[3..4] == "5";
  }

  /** A signed numeral has no capital letter. */
  lemma NumeralIsLower(n: string)
    requires SignedNumeral(n)
    ensures LowerStr(n) == n
  {
    assert IsLower(n);
  }

  /** A signed numeral at `i`, not followed by a digit, is matched whole. */
  lemma SignedNumeralEndOf(l: string, i: nat, n: string)
    requires SignedNumeral(n) && i + |n| <= |l| && l[i..i + |n|] == n
    requires i + |n| == |l| || !IsDigit(l[i + |n|])
    ensures SignedNumeralEnd(l, i) == i + |n|
  {
    var j := if l[i] == '+' || l[i] == '-' then i + 1 else i;
    assert forall k :: j <= k < i + |n| ==> l[k] == n[k - i];
    RunEndExact(l, j, i + |n|, IsDigit);
  }

  /** A signed numeral written at `|p|`, and not followed by a digit, is captured
      whole. */
  lemma NumeralAtText(p: string, n: string, rest: string)
    requires SignedNumeral(n)
    requires rest == [] || !IsDigit(rest[0])
    ensures NumeralAt(p + n + rest, |p|) == Some((n, |p| + |n|))
  {
    var q := p + n + rest;
    var l := LowerStr(q);
    var i := |p|;
    var e := i + |n|;
    assert q[i..e] == n;
    assert l[i..e] == n by {
      forall k | 0 <= k < |n|
        ensures l[i..e][k] == n[k]
      {
        assert q[i + k] == n[k];
      }
    }
    assert e == |l| || !IsDigit(l[e]) by {
      if e < |l| {
        assert q[e] == rest[0];
      }
    }
    SignedNumeralEndOf(l, i, n);
  }

  /** `em N…` carries N: the number right after "em " is the delta, whatever
      non-digit text follows it. */
  lemma PtDeltaAfterEm(n: string, rest: string)
    requires SignedNumeral(n)
    requires rest == [] || !IsDigit(rest[0])
    ensures PtRelativeDelta("em " + n + rest) == Some(n)
  {
    var q := "em " + n + rest;
    NumeralAtText("em ", n, rest);
    var l := LowerStr(q);
    assert l[..2] == "em" && l[2] == ' ' && !IsSpace(l[3]);
    RunEndExact(l, 2, 3, IsSpace);
  }

  /** The "daqui" lead once its pieces are located. */
  lemma PtDeltaOfDaqui(q: string, a: nat, n: string, e: nat)
    requires var l := LowerStr(q);
             && StartsWith(l, "daqui") && !StartsWith(l, "em") && 5 <= |l|
             && SpaceEnd(l, 5) == a && At(l, a, "a") && a + 1 <= |l|
             && NumeralAt(q, SpaceEnd(l, a + 1)) == Some((n, e))
    ensures PtRelativeDelta(q) == Some(n)
  {
  }

  /** The lowered "daqui a N…": the lead is matched and the number starts at 8. */
  lemma DaquiALowered(n: string, rest: string)
    requires SignedNumeral(n)
    ensures var l := LowerStr("daqui a " + n + rest);
            && StartsWith(l, "daqui") && !StartsWith(l, "em") && |l| > 8
            && SpaceEnd(l, 5) == 6 && At(l, 6, "a") && SpaceEnd(l, 7) == 8
  {
    var l := LowerStr("daqui a " + n + rest);
    var t := LowerStr(n + rest);
    assert l == "daqui a " + t by {
      assert LowerStr("daqui a ") == "daqui a ";
      assert "daqui a " + n + rest == "daqui a " + (n + rest);
      LowerStrConcat("daqui a ", n + rest);
    }
    assert |t| > 0 && !IsSpace(t[0]) by {
      assert t[0] == Lower(n[0]);
    }
    DaquiAShape(l, t);
  }

  /** In "daqui a " and a non-space, the lead is matched and the tail starts at 8. */
  lemma DaquiAShape(l: string, t: string)
    requires l == "daqui a " + t && |t| > 0 && !IsSpace(t[0])
    ensures && StartsWith(l, "daqui") && !StartsWith(l, "em") && |l| > 8
            && SpaceEnd(l, 5) == 6 && At(l, 6, "a") && SpaceEnd(l, 7) == 8
  {
    assert l[0] == 'd' && l[5] == ' ' && l[6] == 'a' && l[7] == ' ' && l[8] == t[0];
    assert l[..5] == "daqui" && l[6..][..1] == "a";
    RunEndExact(l, 5, 6, IsSpace);
    RunEndExact(l, 7, 8, IsSpace);
  }

  /** `daqui a N…` carries N. */
  lemma PtDeltaAfterDaquiA(n: string, rest: string)
    requires SignedNumeral(n)
    requires rest == [] || !IsDigit(rest[0])
    ensures PtRelativeDelta("daqui a " + n + rest) == Some(n)
  {
    NumeralAtText("daqui a ", n, rest);
    DaquiALowered(n, rest);
    PtDeltaOfDaqui("daqui a " + n + rest, 6, n, 8 + |n|);
  }

  /** In the lowered "N unit…" one space follows the number and the unit word
      starts right after it. */
  lemma NumberThenUnit(n: string, u: string, rest: string)
    requires SignedNumeral(n)
    requires |u| > 0 && LowerStr(u) == u && !IsSpace(u[0])
    ensures var l := LowerStr(n + " " + u + rest);
            && SpaceEnd(l, |n|) == |n| + 1 && At(l, |n| + 1, u)
            && !StartsWith(l, "em") && !StartsWith(l, "daqui") && !StartsWith(l, "in")
  {
    var q := n + " " + u + rest;
    var l := LowerStr(q);
    NumeralIsLower(n);
    LowerStrConcat(n + " " + u, rest);
    LowerStrConcat(n + " ", u);
    LowerStrConcat(n, " ");
    assert l == n + " " + u + LowerStr(rest);
    assert l[|n|] == ' ' && l[|n| + 1] == u[0];
    RunEndExact(l, |n|, |n| + 1, IsSpace);
    assert l[|n| + 1..][..|u|] == u;
    assert l[0] == n[0];
    NumeralStartsNoKeyword(l);
  }

  /** A numeral read at the start of `n <word>…`. */
  lemma NumeralBeforeWord(n: string, u: string, rest: string)
    requires SignedNumeral(n)
    ensures NumeralAt(n + " " + u + rest, 0) == Some((n, |n|))
  {
    assert n + " " + u + rest == [] + n + (" " + u + rest);
    NumeralAtText([], n, " " + u + rest);
  }

  /** A text that opens with a digit or a sign opens with no prefix keyword. */
  lemma NumeralStartsNoKeyword(l: string)
    requires |l| > 0 && (IsDigit(l[0]) || l[0] == '+' || l[0] == '-')
    ensures !StartsWith(l, "em") && !StartsWith(l, "daqui") && !StartsWith(l, "in")
  {
  }

  lemma PtRelativeUnitsShape()
    ensures forall k :: 0 <= k < |PtRelativeUnits| ==>
              |PtRelativeUnits[k]| > 0 && LowerStr(PtRelativeUnits[k]) == PtRelativeUnits[k]
              && !IsSpace(PtRelativeUnits[k][0])
  {
  }

  lemma EnRelativeUnitsShape()
    ensures forall k :: 0 <= k < |EnRelativeUnits| ==>
              |EnRelativeUnits[k]| > 0 && LowerStr(EnRelativeUnits[k]) == EnRelativeUnits[k]
              && !IsSpace(EnRelativeUnits[k][0])
  {
  }

  /** `N <unit>…` carries N for each Portuguese unit word. */
  lemma PtDeltaBeforeUnit(n: string, k: nat, rest: string)
    requires SignedNumeral(n) && k < |PtRelativeUnits|
    ensures PtRelativeDelta(n + " " + PtRelativeUnits[k] + rest) == Some(n)
  {
    PtRelativeUnitsShape();
    NumberThenUnit(n, PtRelativeUnits[k], rest);
    NumeralBeforeWord(n, PtRelativeUnits[k], rest);
    PtDeltaOfUnit(n + " " + PtRelativeUnits[k] + rest, n, k);
  }

  /** A numeral at the start of a query, then a Portuguese unit word after the
      spaces: the numeral is the delta. */
  lemma PtDeltaOfUnit(q: string, n: string, k: nat)
    requires var l := LowerStr(q);
             && !StartsWith(l, "em") && !StartsWith(l, "daqui")
             && NumeralAt(q, 0) == Some((n, |n|)) && k < |PtRelativeUnits|
             && At(l, SpaceEnd(l, |n|), PtRelativeUnits[k])
    ensures PtRelativeDelta(q) == Some(n)
  {
  }

  /** `in N…` carries N. */
  lemma EnDeltaAfterIn(n: string, rest: string)
    requires SignedNumeral(n)
    requires rest == [] || !IsDigit(rest[0])
    ensures EnRelativeDelta("in " + n + rest) == Some(n)
  {
    var q := "in " + n + rest;
    NumeralAtText("in ", n, rest);
    var l := LowerStr(q);
    assert l[..2] == "in" && l[2] == ' ' && !IsSpace(l[3]);
    RunEndExact(l, 2, 3, IsSpace);
  }

  /** `N <unit>…` carries N for each English unit word. */
  lemma EnDeltaBeforeUnit(n: string, k: nat, rest: string)
    requires SignedNumeral(n) && k < |EnRelativeUnits|
    ensures EnRelativeDelta(n + " " + EnRelativeUnits[k] + rest) == Some(n)
  {
    EnRelativeUnitsShape();
    NumberThenUnit(n, EnRelativeUnits[k], rest);
    NumeralBeforeWord(n, EnRelativeUnits[k], rest);
    EnDeltaOfUnit(n + " " + EnRelativeUnits[k] + rest, n, k);
  }


  /** A numeral at the start of a query, then an English unit word after the
      spaces: the numeral is the delta. */
  lemma EnDeltaOfUnit(q: string, n: string, k: nat)
    requires var l := LowerStr(q);
             && !StartsWith(l, "in")
             && NumeralAt(q, 0) == Some((n, |n|)) && k < |EnRelativeUnits|
             && At(l, SpaceEnd(l, |n|), EnRelativeUnits[k])
    ensures EnRelativeDelta(q) == Some(n)
  {
  }

  /** Of the relative candidates for `5`, the query `em 5` keeps those that begin
      with `em`: five in the editor's list, three in the shared one. */
  lemma EmFiveFilter(editor: bool)
    ensures KeepPrefixed(PtRelativeLabels("5", editor), "em 5")
         == (if editor then ["em 5 minutos", "em 5 horas"] else []) + ["em 5 dias", "em 5 semanas", "em 5 meses"]
  {
    var forward := ["em 5 dias", "em 5 semanas", "em 5 meses"];
    var back := ["5 dias atrás", "5 semanas atrás", "5 meses atrás"];
    var extra: seq<string> := if editor then ["em 5 minutos", "em 5 horas"] else [];
    assert KeepPrefixed(forward + back, "em 5") == forward by {
      EmFiveKeepsForward(forward, back);
    }
    assert forall x :: x in extra ==> StartsWith(LowerStr(x), "em 5") by {
      if editor {
        LowerEmFive(extra);
      }
    }
    assert PtRelativeLabels("5", editor) == extra + (forward + back) by {
      RelativeLabelsOfFive(editor);
    }
    KeepFront(extra, forward + back, forward, "em 5");
  }

  /** Labels that all start with the key are kept in front of what the filter
      keeps of the rest. */
  lemma KeepFront(front: seq<string>, rest: seq<string>, kept: seq<string>, key: string)
    requires forall x :: x in front ==> StartsWith(LowerStr(x), key)
    requires KeepPrefixed(rest, key) == kept
    ensures KeepPrefixed(front + rest, key) == front + kept
  {
    KeepPrefixedAll(front, key);
    KeepPrefixedSplit(front, rest, key);
  }

  lemma RelativeLabelsOfFive(editor: bool)
    ensures PtRelativeLabels("5", editor)
         == (if editor then ["em 5 minutos", "em 5 horas"] else [])
            + (["em 5 dias", "em 5 semanas", "em 5 meses"] + ["5 dias atrás", "5 semanas atrás", "5 meses atrás"])
  {
    assert "em " + "5" + " dias" == "em 5 dias";
    assert "em " + "5" + " semanas" == "em 5 semanas";
    assert "em " + "5" + " meses" == "em 5 meses";
    assert "5" + " dias atrás" == "5 dias atrás";
    assert "5" + " semanas atrás" == "5 semanas atrás";
    assert "5" + " meses atrás" == "5 meses atrás";
    assert "em " + "5" + " minutos" == "em 5 minutos";
    assert "em " + "5" + " horas" == "em 5 horas";
  }

  lemma EmFiveKeepsForward(forward: seq<string>, back: seq<string>)
    requires forward == ["em 5 dias", "em 5 semanas", "em 5 meses"]
    requires back == ["5 dias atrás", "5 semanas atrás", "5 meses atrás"]
    ensures KeepPrefixed(forward + back, "em 5") == forward
  {
    forall x | x in back
      ensures !StartsWith(LowerStr(x), "em 5")
    {
      assert LowerStr(x)[0] == '5';
    }
    KeepPrefixedNone(back, "em 5");
    LowerEmFive(forward);
    KeepPrefixedAll(forward, "em 5");
    KeepPrefixedSplit(forward, back, "em 5");
  }

  lemma LowerEmFive(labels: seq<string>)
    requires forall x :: x in labels ==> |x| >= 4 && x[..4] == "em 5"
    ensures forall x :: x in labels ==> StartsWith(LowerStr(x), "em 5")
  {
    forall x | x in labels
      ensures StartsWith(LowerStr(x), "em 5")
    {
      assert LowerStr(x)[..4] == LowerStr("em 5");
    }
  }

  /** Filtering a concatenation filters each part. */
  lemma {:induction false} KeepPrefixedSplit(a: seq<string>, b: seq<string>, q: string)
    ensures KeepPrefixed(a + b, q) == KeepPrefixed(a, q) + KeepPrefixed(b, q)
    decreases |a|
  {
    if |a| > 0 {
      assert (a + b)[1..] == a[1..] + b;
      KeepPrefixedSplit(a[1..], b, q);
    } else {
      assert a + b == b;
    }
  }

  // ---------------------------------------------------------------------------
  // Previews
  // ---------------------------------------------------------------------------

  /** A preview of a date in the years 0..9999, typed back as a phrase, is read
      by the numeric-date rule as that very date. */
  lemma PreviewReadsBack(d: CalendarDate, input: Input)
    requires 0 <= d.year < 10000 && input.text == FormatDMY(d)
    ensures NumericRule(input) == Return(Some(d))
  {
    var t := input.text;
    var dd := TwoDigits(d.day);
    var yy := YearText(d.year);
    assert t == dd + "/" + TwoDigits(d.month) + "/" + yy;
    assert t[0] == dd[0] && IsDigit(t[0]);
    assert t[|t| - 1] == yy[3] && IsDigit(t[|t| - 1]);
    TrimUnpadded(t);
    FormatDMYRoundTrip(d, input.now.year);
  }

  // ---------------------------------------------------------------------------
  // Branch outputs
  // ---------------------------------------------------------------------------

  /** The Portuguese qualifier branch, in both generators: phrases of the
      qualifier as typed and one of its units, in the units' order, each
      starting with the query once `sem` is spelled out. */
  lemma QualifierOutput(b: Branch, q: string, editor: bool)
    requires b.PtQualifierBranch?
    ensures IsSubsequence(BranchLabels(b, q, editor), Phrases(b.reference, QualifierUnits(b.reference)))
    ensures forall x :: x in BranchLabels(b, q, editor) ==>
              StartsWith(LowerStr(x), ExpandSem(LowerStr(q)))
              && exists u :: u in QualifierUnits(b.reference) && x == b.reference + " " + u
  {
    var units := QualifierUnits(b.reference);
    var phrases := Phrases(b.reference, units);
    QualifierLabels(b, q, editor);
    forall x | x in BranchLabels(b, q, editor)
      ensures exists u :: u in units && x == b.reference + " " + u
    {
      var i :| 0 <= i < |phrases| && phrases[i] == x;
      assert units[i] in units;
    }
  }

  /** `prox sem` is compared as `prox semana`. */
  lemma ExpandSemExample(l: string)
    requires l == "prox sem"
    ensures ExpandSem(l) == "prox semana"
  {
    assert |l| == 8 && l[0] == 'p' && l[1] == 'r' && l[2] == 'o' && l[3] == 'x' && l[4] == ' ';
    assert l[5..8] == "sem";
    forall k | 0 <= k < 5
      ensures SemAt(l, k).None?
    {
    }
    assert SemAt(l, 5) == Some(5);
    FirstMatchLeftmost(l, 0, 5, SemAt);
    assert l[..5] + "semana" + l[8..] == "prox semana";
  }

  /** A Portuguese weekday query in the shared generator: one match gives the
      five variations, several give the names, all previewed. */
  lemma PtWeekdayOutput(q: string, resolve: Resolver)
    requires !IsBlank(q) && Classify(q).PtWeekdayBranch?
    ensures var days := Classify(q).days;
            HasLabels(GetDateSuggestions(q, resolve), if |days| == 1 then PtVariations(days[0]) else days)
  {
    assert SharedLabels(q) == BranchLabels(Classify(q), q, false);
  }

  /** An English weekday query in the shared generator: one match gives the day,
      `next` and `last`, several give the names. */
  lemma EnWeekdayOutput(q: string, resolve: Resolver)
    requires !IsBlank(q) && Classify(q).EnWeekdayBranch?
    ensures var days := Classify(q).days;
            HasLabels(GetDateSuggestions(q, resolve), if |days| == 1 then EnVariations(days[0]) else days)
  {
    assert SharedLabels(q) == BranchLabels(Classify(q), q, false);
  }

  /** A relative query in either generator offers the relative labels the
      generator's filter key keeps. */
  lemma RelativeOutput(q: string, delta: string, resolve: Resolver, expected: seq<string>)
    requires !IsBlank(q) && Classify(q) == PtRelativeBranch(delta)
    requires KeepPrefixed(PtRelativeLabels(delta, false), LowerStr(q)) == expected
    ensures HasLabels(GetDateSuggestions(q, resolve), expected)
  {
    assert SharedLabels(q) == BranchLabels(Classify(q), q, false);
  }

  /** `em 5` offers the three forward phrases in the shared generator. */
  lemma SharedEmFive(q: string, resolve: Resolver)
    requires q == "em 5"
    ensures HasLabels(GetDateSuggestions(q, resolve), ["em 5 dias", "em 5 semanas", "em 5 meses"])
  {
    EmFiveClassified(q);
    EmFiveIsLower(q);
    assert q[0] == 'e';
    NotBlank(q);
    EmFiveFilter(false);
    RelativeOutput(q, "5", resolve, ["em 5 dias", "em 5 semanas", "em 5 meses"]);
  }
}

=== FILE: suggestions.dfy ===
/** The suggestion generator shared by the date commands: a prefix-matching
    function from what the user typed to an ordered list of completions, each
    optionally previewed as a DD/MM/YYYY date. The plugin's date resolution is
    a parameter. */
module Suggestions {
  import opened Optional
  import opened Text
  import opened Calendar
  import opened Patterns
  import opened DateParser
  import opened Extractors

  /** A completion offered to the user: its label (the text shown and inserted)
      and, when the list computes one, its preview. */
  datatype Completion = Completion(text: string, preview: Option<string>)

  /** The plugin's `parseDate` followed by the validity test: the date a phrase
      resolves to, or nothing. */
  type Resolver = string -> Option<CalendarDate>

  // ---------------------------------------------------------------------------
  // Preview
  // ---------------------------------------------------------------------------

  /** The `YYYY` token: the year zero-filled to four digits, a minus sign in
      front of a negative year, and no padding beyond four digits. */
  function YearText(y: int): (s: string)
    ensures 0 <= y ==> AllDigits(s) && DigitsValue(s) == y
    ensures 0 <= y < 10000 ==> |s| == 4
    ensures y < 0 ==> |s| > 0 && s[0] == '-'
  {
    if y >= 0 then
      if y < 10000 then
        assert Pow10(4) == 10000;
        ZeroPadExactWidth(y, 4);
        ZeroPad(y, 4)
      else ZeroPad(y, 4)
    else "-" + ZeroPad(-y, 4)
  }

  /** Two zero-filled digits of a day or month number. */
  function TwoDigits(n: nat): (s: string)
    requires n < 100
    ensures |s| == 2 && AllDigits(s) && DigitsValue(s) == n
  {
    assert Pow10(2) == 100;
    ZeroPadExactWidth(n, 2);
    ZeroPad(n, 2)
  }

  /** The `DD/MM/YYYY` format of a date. */
  function FormatDMY(d: CalendarDate): string
  {
    TwoDigits(d.day) + "/" + TwoDigits(d.month) + "/" + YearText(d.year)
  }

  /** A preview reads back: the numeric-date rule recovers from a formatted date
      of a year 0..9999 its day, month and year. */
  lemma FormatDMYRoundTrip(d: CalendarDate, currentYear: int)
    requires 0 <= d.year < 10000
    ensures NumericDateParts(FormatDMY(d)) == Some(NumericParts(TwoDigits(d.day), TwoDigits(d.month), Some(YearText(d.year))))
    ensures StrictNumericDate(NumericDateParts(FormatDMY(d)).value, currentYear) == Some(d)
  {
    var dd := TwoDigits(d.day);
    var mm := TwoDigits(d.month);
    var yy := YearText(d.year);
    assert FormatDMY(d) == dd + ['/'] + mm + ['/'] + yy;
    NumericDatePartsOfText(dd, '/', mm, '/', yy);
  }

  /** A value that starts with `time:` or `hora:` is previewed without those five
      characters. */
  function StripTimePrefix(v: string): (r: string)
    ensures StartsWith(v, "time:") || StartsWith(v, "hora:") ==> v == v[..5] + r
    ensures !(StartsWith(v, "time:") || StartsWith(v, "hora:")) ==> r == v
  {
    if StartsWith(v, "time:") || StartsWith(v, "hora:") then v[5..] else v
  }

  /** `getPreviewForSuggestion`: the resolved date of the value, time prefix
      stripped, formatted `DD/MM/YYYY`; nothing when it does not resolve. */
  function Preview(v: string, resolve: Resolver): (r: Option<string>)
    ensures r.None? <==> resolve(StripTimePrefix(v)).None?
    ensures r.Some? ==> r.value == FormatDMY(resolve(StripTimePrefix(v)).value)
  {
    match resolve(StripTimePrefix(v))
    case None => None
    case Some(d) => Some(FormatDMY(d))
  }

  /** Both time prefixes preview as the bare time phrase. */
  lemma PreviewOfTimeLabel(v: string, resolve: Resolver)
    ensures Preview("hora:" + v, resolve) == Preview("time:" + v, resolve)
    ensures StripTimePrefix(v) == v ==> Preview("hora:" + v, resolve) == Preview(v, resolve)
  {
    assert StartsWith("hora:" + v, "hora:") && ("hora:" + v)[5..] == v;
    assert StartsWith("time:" + v, "time:") && ("time:" + v)[5..] == v;
  }

  // ---------------------------------------------------------------------------
  // Order-preserving prefix filtering
  // ---------------------------------------------------------------------------

  /** `a` is `b` with some elements left out, the rest in their order. */
  predicate IsSubsequence(a: seq<string>, b: seq<string>)
    decreases |b|
  {
    if |a| == 0 then true
    else if |b| == 0 then false
    else if a[0] == b[0] then IsSubsequence(a[1..], b[1..])
    else IsSubsequence(a, b[1..])
  }

  /** `labels.filter(l => l.toLowerCase().startsWith(q))`. */
  function KeepPrefixed(labels: seq<string>, q: string): (r: seq<string>)
    ensures forall x :: x in r ==> x in labels && StartsWith(LowerStr(x), q)
    ensures forall x :: x in labels && StartsWith(LowerStr(x), q) ==> x in r
    ensures IsSubsequence(r, labels)
    decreases |labels|
  {
    if |labels| == 0 then []
    else
      var rest := KeepPrefixed(labels[1..], q);
      assert forall x :: x in labels ==> x == labels[0] || x in labels[1..];
      if StartsWith(LowerStr(labels[0]), q) then [labels[0]] + rest else rest
  }

  /** A filter every label passes keeps the whole list. */
  lemma {:induction false} KeepPrefixedAll(labels: seq<string>, q: string)
    requires forall x :: x in labels ==> StartsWith(LowerStr(x), q)
    ensures KeepPrefixed(labels, q) == labels
    decreases |labels|
  {
    if |labels| > 0 {
      assert labels[0] in labels;
      assert forall x :: x in labels[1..] ==> x in labels;
      KeepPrefixedAll(labels[1..], q);
      assert [labels[0]] + labels[1..] == labels;
    }
  }

  /** A filter no label passes keeps nothing. */
  lemma KeepPrefixedNone(labels: seq<string>, q: string)
    requires forall x :: x in labels ==> !StartsWith(LowerStr(x), q)
    ensures KeepPrefixed(labels, q) == []
  {
    var r := KeepPrefixed(labels, q);
    assert forall i :: 0 <= i < |r| ==> r[i] in r;
  }

  /** Completions without a preview. */
  function Plain(labels: seq<string>): (r: seq<Completion>)
    ensures |r| == |labels|
    ensures forall i :: 0 <= i < |r| ==> r[i].text == labels[i] && r[i].preview.None?
  {
    seq(|labels|, i requires 0 <= i < |labels| => Completion(labels[i], None))
  }

  /** Completions each carrying the preview of its own label. */
  function Previewed(labels: seq<string>, resolve: Resolver): (r: seq<Completion>)
    ensures |r| == |labels|
    ensures forall i :: 0 <= i < |r| ==> r[i].text == labels[i] && r[i].preview == Preview(labels[i], resolve)
  {
    seq(|labels|, i requires 0 <= i < |labels| => Completion(labels[i], Preview(labels[i], resolve)))
  }

  // ---------------------------------------------------------------------------
  // Word lists
  // ---------------------------------------------------------------------------

  const PtWeekdayNames: seq<string> := ["domingo", "segunda", "terça", "quarta", "quinta", "sexta", "sábado"]

  const EnWeekdayNames: seq<string> := ["Sunday", "Monday", "Tuesday", "Wednesday", "Thursday", "Friday", "Saturday"]

  /** The abbreviations that stand for one Portuguese weekday, with and without
      the accent on `sáb`. */
  const PtAbbreviations: map<string, string> :=
    map["dom" := "domingo", "seg" := "segunda", "ter" := "terça", "qua" := "quarta",
        "qui" := "quinta", "sex" := "sexta", "sab" := "sábado", "sáb" := "sábado"]

  /** What an empty query offers. */
  const BlankLabels: seq<string> := ["hoje", "ontem", "amanhã", "próxima semana", "última semana"]

  /** The time completions, each `hora:` followed by a time phrase. */
  const TimeLabels: seq<string> := ["hora:agora", "hora:+15 minutos", "hora:+1 hora", "hora:-15 minutos", "hora:-1 hora"]

  /** The last resort before echoing the query: Portuguese first, then English. */
  const DefaultLabels: seq<string> := ["hoje", "ontem", "amanhã", "agora", "today", "yesterday", "tomorrow"]

  /** `pr[óo]xim[oa]|[úu]ltim[oa]|est[ea]|pr[óo]x|ult|pas`, alternatives in order. */
  const PtQualifierWords: seq<string> :=
    ["próximo", "próxima", "proximo", "proxima", "último", "última", "ultimo", "ultima",
     "este", "esta", "próx", "prox", "ult", "pas"]

  const EnQualifierWords: seq<string> := ["next", "last", "this"]

  /** `dias?|semanas?|mês|meses|anos?|horas?|minutos?`: the optional plural never
      decides whether a prefix matches, so the singular stems suffice. */
  const PtRelativeUnits: seq<string> := ["dia", "semana", "mês", "meses", "ano", "hora", "minuto"]

  /** `days?|weeks?|months?|hours?|minutes?`. */
  const EnRelativeUnits: seq<string> := ["day", "week", "month", "hour", "minute"]

  // ---------------------------------------------------------------------------
  // Query recognisers
  // ---------------------------------------------------------------------------

  /** `/^(?:hora|time)/i`, on the lowered query. */
  predicate IsTimeQuery(l: string)
  {
    StartsWith(l, "hora") || StartsWith(l, "time")
  }

  /** `/^(<words>)/i`: the query's own leading text (in its own case) that the
      first matching alternative covers. */
  function Qualifier(q: string, words: seq<string>): (r: Option<string>)
    ensures r.Some? ==> StartsWith(q, r.value) && LowerStr(r.value) in words
    ensures r.None? <==> forall k :: 0 <= k < |words| ==> !StartsWith(LowerStr(q), words[k])
    ensures r.Some? ==>
              exists k :: 0 <= k < |words| && LowerStr(r.value) == words[k]
                          && forall j :: 0 <= j < k ==> !StartsWith(LowerStr(q), words[j])
  {
    var l := LowerStr(q);
    assert l[0..] == l;
    match FirstKeywordAt(l, 0, words)
    case None => None
    case Some(k) =>
      var n := |words[k]|;
      assert LowerStr(q[..n]) == l[..n] == words[k];
      Some(q[..n])
  }

  /** One whole word `sem` at index `i` (`\bsem\b`). */
  function SemAt(s: string, i: nat): (r: Option<nat>)
    ensures r.Some? ==> r.value == i && i + 3 <= |s| && s[i..i + 3] == "sem"
  {
    if i + 3 <= |s| && s[i..i + 3] == "sem" && WordBoundary(s, i) && WordBoundary(s, i + 3) then Some(i)
    else None
  }

  /** `replace(/\bsem\b/, "semana")`: the first whole word `sem` becomes `semana`,
      everything else is kept. */
  function ExpandSem(l: string): (r: string)
    ensures FirstMatch(l, 0, SemAt).None? ==> r == l
    ensures FirstMatch(l, 0, SemAt).Some? ==>
              var i := FirstMatch(l, 0, SemAt).value;
              i + 3 <= |l| && r == l[..i] + "semana" + l[i + 3..] && |r| == |l| + 3
  {
    match FirstMatch(l, 0, SemAt)
    case None => l
    case Some(i) => l[..i] + "semana" + l[i + 3..]
  }

  /** The Portuguese weekdays a lowered query names: the one its abbreviation
      stands for, otherwise every name it begins. */
  function PtWeekdayMatches(l: string): (r: seq<string>)
    ensures l in PtAbbreviations ==> r == [PtAbbreviations[l]]
    ensures l !in PtAbbreviations ==> forall d :: d in r <==> d in PtWeekdayNames && StartsWith(d, l)
    ensures l !in PtAbbreviations ==> IsSubsequence(r, PtWeekdayNames)
  {
    if l in PtAbbreviations then [PtAbbreviations[l]]
    else
      PtWeekdayNamesAreLower();
      KeepPrefixed(PtWeekdayNames, l)
  }

  lemma PtWeekdayNamesAreLower()
    ensures forall d :: d in PtWeekdayNames ==> LowerStr(d) == d
  {
  }

  /** The English weekdays whose lowered name the lowered query begins. */
  function EnWeekdayMatches(l: string): (r: seq<string>)
    ensures forall d :: d in r <==> d in EnWeekdayNames && StartsWith(LowerStr(d), l)
    ensures IsSubsequence(r, EnWeekdayNames)
  {
    KeepPrefixed(EnWeekdayNames, l)
  }

  /** `/^[+-]?\d+\s*[dwmy](?:\s+[+-]?\d+\s*[dwmy])*\s*$/i`, on the lowered query:
      one term, further terms each after white space, and only white space
      after the last. */
  predicate IsShorthandQuery(l: string)
  {
    match TermAt(l, 0)
    case None => false
    case Some((_, e)) => SpaceEnd(l, TermsEnd(l, e)) == |l|
  }

  /** A signed whole number as `[+-]?\d+` captures it. */
  predicate SignedNumeral(t: string)
  {
    |t| > 0 && (IsDigit(t[0]) || ((t[0] == '+' || t[0] == '-') && |t| > 1))
    && forall k :: 0 < k < |t| ==> IsDigit(t[k])
  }

  /** The end of `[+-]?\d+` at index `i`, or `i` itself when it does not match. */
  function SignedNumeralEnd(s: string, i: nat): (e: nat)
    requires i <= |s|
    ensures i <= e <= |s|
    ensures e > i ==> SignedNumeral(s[i..e]) && (e == |s| || !IsDigit(s[e]))
  {
    var j := if i < |s| && (s[i] == '+' || s[i] == '-') then i + 1 else i;
    var d := DigitEnd(s, j);
    if d == j then i else d
  }

  /** A lowered character is a sign or a digit only when the original one was that
      very character. */
  lemma LowerKeepsNumerals(q: string)
    ensures forall k :: 0 <= k < |q| && (IsDigit(LowerStr(q)[k]) || LowerStr(q)[k] in "+-") ==> q[k] == LowerStr(q)[k]
  {
  }

  /** The captured number of a match of `[+-]?\d+` at `i` of the lowered query,
      read from the query itself. */
  function NumeralAt(q: string, i: nat): (r: Option<(string, nat)>)
    requires i <= |q|
    ensures r.Some? ==> i < r.value.1 <= |q| && r.value.0 == q[i..r.value.1] && SignedNumeral(r.value.0)
    ensures r.None? <==> SignedNumeralEnd(LowerStr(q), i) == i
  {
    var l := LowerStr(q);
    var e := SignedNumeralEnd(l, i);
    if e == i then None
    else
      LowerKeepsNumerals(q);
      assert q[i..e] == l[i..e];
      Some((q[i..e], e))
  }

  /** `/^(?:em|daqui\s*a?)\s*([+-]?\d+)/i || /^([+-]?\d+)\s*(?:dias?|…|minutos?)/i`:
      the number a Portuguese relative phrase carries. */
  function PtRelativeDelta(q: string): (r: Option<string>)
    ensures r.Some? ==> SignedNumeral(r.value)
    ensures r.Some? && !StartsWith(LowerStr(q), "em") && !StartsWith(LowerStr(q), "daqui") ==> StartsWith(q, r.value)
  {
    var l := LowerStr(q);
    var lead :=
      if StartsWith(l, "em") then Some(2)
      else if StartsWith(l, "daqui") then
        var a := SpaceEnd(l, 5);
        Some(if At(l, a, "a") then a + 1 else a)
      else None;
    var introduced :=
      match lead
      case None => None
      case Some(p) => NumeralAt(q, SpaceEnd(l, p));
    if introduced.Some? then Some(introduced.value.0)
    else
      match NumeralAt(q, 0)
      case None => None
      case Some((n, e)) =>
        if FirstKeywordAt(l, SpaceEnd(l, e), PtRelativeUnits).Some? then Some(n) else None
  }

  /** `/^in\s+([+-]?\d+)/i || /^([+-]?\d+)\s*(?:days?|…|minutes?)/i`: the number an
      English relative phrase carries. */
  function EnRelativeDelta(q: string): (r: Option<string>)
    ensures r.Some? ==> SignedNumeral(r.value)
    ensures r.Some? && !StartsWith(LowerStr(q), "in") ==> StartsWith(q, r.value)
  {
    var l := LowerStr(q);
    var introduced :=
      if StartsWith(l, "in") && SpaceEnd(l, 2) > 2 then NumeralAt(q, SpaceEnd(l, 2)) else None;
    if introduced.Some? then Some(introduced.value.0)
    else
      match NumeralAt(q, 0)
      case None => None
      case Some((n, e)) =>
        if FirstKeywordAt(l, SpaceEnd(l, e), EnRelativeUnits).Some? then Some(n) else None
  }

  // ---------------------------------------------------------------------------
  // Branch selection
  // ---------------------------------------------------------------------------

  /** Which branch of the generator a non-blank query reaches, with what the
      branch captured. */
  datatype Branch =
    | TimeBranch
    | PtQualifierBranch(reference: string)
    | EnQualifierBranch(reference: string)
    | PtWeekdayBranch(days: seq<string>)
    | EnWeekdayBranch(days: seq<string>)
    | ArithmeticBranch
    | PtRelativeBranch(delta: string)
    | EnRelativeBranch(delta: string)
    | DefaultBranch

  /** The branches are tried in order and the first whose pattern the query
      matches is taken; the weekday branches need a non-empty query. */
  function Classify(q: string): (b: Branch)
    ensures b.TimeBranch? <==> IsTimeQuery(LowerStr(q))
    ensures b.PtQualifierBranch? ==> StartsWith(q, b.reference) && LowerStr(b.reference) in PtQualifierWords
    ensures b.EnQualifierBranch? ==> StartsWith(q, b.reference) && LowerStr(b.reference) in EnQualifierWords
    ensures b.PtWeekdayBranch? ==> q != [] && |b.days| > 0 && forall d :: d in b.days ==> d in PtWeekdayNames
    ensures b.EnWeekdayBranch? ==> q != [] && |b.days| > 0 && forall d :: d in b.days ==> d in EnWeekdayNames
    ensures b.ArithmeticBranch? ==> IsShorthandQuery(LowerStr(q))
    ensures b.PtRelativeBranch? ==> SignedNumeral(b.delta)
    ensures b.EnRelativeBranch? ==> SignedNumeral(b.delta)
    ensures b.PtQualifierBranch? ==> Some(b.reference) == Qualifier(q, PtQualifierWords)
    ensures b.EnQualifierBranch? ==> Some(b.reference) == Qualifier(q, EnQualifierWords)
    ensures b.PtWeekdayBranch? ==> b.days == PtWeekdayMatches(LowerStr(q))
    ensures b.EnWeekdayBranch? ==> b.days == EnWeekdayMatches(LowerStr(q))
    ensures b.PtRelativeBranch? ==> Some(b.delta) == PtRelativeDelta(q)
    ensures b.EnRelativeBranch? ==> Some(b.delta) == EnRelativeDelta(q)
    ensures Recognised(q, BranchIndex(b))
    ensures forall j :: 0 <= j < BranchIndex(b) ==> !Recognised(q, j)
  {
    var l := LowerStr(q);
    if IsTimeQuery(l) then TimeBranch
    else if Qualifier(q, PtQualifierWords).Some? then PtQualifierBranch(Qualifier(q, PtQualifierWords).value)
    else if Qualifier(q, EnQualifierWords).Some? then EnQualifierBranch(Qualifier(q, EnQualifierWords).value)
    else if l != [] && |PtWeekdayMatches(l)| > 0 then
      PtAbbreviationsExpand();
      PtWeekdayBranch(PtWeekdayMatches(l))
    else if l != [] && |EnWeekdayMatches(l)| > 0 then EnWeekdayBranch(EnWeekdayMatches(l))
    else if IsShorthandQuery(l) then ArithmeticBranch
    else if PtRelativeDelta(q).Some? then PtRelativeBranch(PtRelativeDelta(q).value)
    else if EnRelativeDelta(q).Some? then EnRelativeBranch(EnRelativeDelta(q).value)
    else DefaultBranch
  }

  /** The query patterns, numbered in the order they are tried: whether pattern
      `k` recognises the query. The last number, `DefaultIndex`, recognises every
      query. */
  predicate Recognised(q: string, k: nat)
  {
    var l := LowerStr(q);
    if k == 0 then IsTimeQuery(l)
    else if k == 1 then Qualifier(q, PtQualifierWords).Some?
    else if k == 2 then Qualifier(q, EnQualifierWords).Some?
    else if k == 3 then l != [] && |PtWeekdayMatches(l)| > 0
    else if k == 4 then l != [] && |EnWeekdayMatches(l)| > 0
    else if k == 5 then IsShorthandQuery(l)
    else if k == 6 then PtRelativeDelta(q).Some?
    else if k == 7 then EnRelativeDelta(q).Some?
    else true
  }

  const DefaultIndex: nat := 8

  /** The number of the pattern each branch belongs to. */
  function BranchIndex(b: Branch): nat
  {
    match b
    case TimeBranch => 0
    case PtQualifierBranch(_) => 1
    case EnQualifierBranch(_) => 2
    case PtWeekdayBranch(_) => 3
    case EnWeekdayBranch(_) => 4
    case ArithmeticBranch => 5
    case PtRelativeBranch(_) => 6
    case EnRelativeBranch(_) => 7
    case DefaultBranch => DefaultIndex
  }

  /** The branch taken is the first pattern, in the source's order, that
      recognises the query: pattern `k` is taken exactly when it recognises the
      query and no earlier one does. */
  lemma ClassifyFirstRecognised(q: string, k: nat)
    requires k <= DefaultIndex
    ensures BranchIndex(Classify(q)) == k <==> Recognised(q, k) && forall j :: 0 <= j < k ==> !Recognised(q, j)
  {
    var i := BranchIndex(Classify(q));
    if k > i {
      assert Recognised(q, i);
    }
  }

  /** The default branch is taken exactly when no pattern before it recognises
      the query. */
  lemma DefaultWhenNothingRecognised(q: string)
    ensures Classify(q).DefaultBranch? <==> forall k :: 0 <= k < DefaultIndex ==> !Recognised(q, k)
  {
    ClassifyFirstRecognised(q, DefaultIndex);
    assert Recognised(q, DefaultIndex);
  }

  /** Every abbreviation expands to a weekday name. */
  lemma PtAbbreviationsExpand()
    ensures forall a :: a in PtAbbreviations ==> PtAbbreviations[a] in PtWeekdayNames
  {
  }

  // ---------------------------------------------------------------------------
  // Labels of each branch
  // ---------------------------------------------------------------------------

  /** `${reference} ${val}` for each value, in order. */
  function Phrases(reference: string, values: seq<string>): (r: seq<string>)
    ensures |r| == |values|
    ensures forall i :: 0 <= i < |r| ==> r[i] == reference + " " + values[i]
  {
    seq(|values|, i requires 0 <= i < |values| => reference + " " + values[i])
  }

  /** What a Portuguese qualifier combines with: `pas` only with the week and the
      weekdays, every other qualifier also with the month and the year. */
  function QualifierUnits(reference: string): (r: seq<string>)
    ensures LowerStr(reference) == "pas" ==> "mês" !in r && "ano" !in r
    ensures LowerStr(reference) != "pas" ==> "mês" in r && "ano" in r
    ensures "semana" in r && forall d :: d in PtWeekdayNames ==> d in r
  {
    if LowerStr(reference) == "pas" then ["semana"] + PtWeekdayNames
    else ["semana", "mês", "ano"] + PtWeekdayNames
  }

  const EnQualifierUnits: seq<string> := ["week", "month", "year"] + EnWeekdayNames

  /** The variations offered for a single Portuguese weekday. */
  function PtVariations(day: string): (r: seq<string>)
    ensures |r| == 5 && r[0] == day
  {
    [day, "próxima " + day, "última " + day, "primeira " + day + " do mês", "última " + day + " do mês"]
  }

  /** The variations offered for a single English weekday. */
  function EnVariations(day: string): (r: seq<string>)
    ensures |r| == 3 && r[0] == day
  {
    [day, "next " + day, "last " + day]
  }

  /** The Portuguese relative candidates for a number; the editor's list adds
      minutes and hours in front. */
  function PtRelativeLabels(delta: string, editor: bool): (r: seq<string>)
    ensures |r| == (if editor then 8 else 6)
  {
    (if editor then ["em " + delta + " minutos", "em " + delta + " horas"] else [])
    + ["em " + delta + " dias", "em " + delta + " semanas", "em " + delta + " meses",
       delta + " dias atrás", delta + " semanas atrás", delta + " meses atrás"]
  }

  /** The English relative candidates for a number; the editor's list adds minutes
      and hours in front. */
  function EnRelativeLabels(delta: string, editor: bool): (r: seq<string>)
    ensures |r| == (if editor then 8 else 6)
  {
    (if editor then ["in " + delta + " minutes", "in " + delta + " hours"] else [])
    + ["in " + delta + " days", "in " + delta + " weeks", "in " + delta + " months",
       delta + " days ago", delta + " weeks ago", delta + " months ago"]
  }

  /** The text a branch compares lowered labels with: the shared generator always
      uses the lowered query, the editor's generator the query as typed. */
  function FilterKey(q: string, editor: bool): string
  {
    if editor then q else LowerStr(q)
  }

  /** The labels a branch offers, before any preview. */
  function BranchLabels(b: Branch, q: string, editor: bool): seq<string>
  {
    var key := FilterKey(q, editor);
    match b
    case TimeBranch => KeepPrefixed(TimeLabels, key)
    case PtQualifierBranch(reference) =>
      KeepPrefixed(Phrases(reference, QualifierUnits(reference)), ExpandSem(LowerStr(q)))
    case EnQualifierBranch(reference) => KeepPrefixed(Phrases(reference, EnQualifierUnits), key)
    case PtWeekdayBranch(days) => if |days| == 1 then PtVariations(days[0]) else days
    case EnWeekdayBranch(days) => if |days| == 1 then EnVariations(days[0]) else days
    case ArithmeticBranch => [q]
    case PtRelativeBranch(delta) => KeepPrefixed(PtRelativeLabels(delta, editor), key)
    case EnRelativeBranch(delta) => KeepPrefixed(EnRelativeLabels(delta, editor), key)
    case DefaultBranch => KeepPrefixed(DefaultLabels, key)
  }

  // ---------------------------------------------------------------------------
  // The shared generator
  // ---------------------------------------------------------------------------

  /** The completions carry exactly these labels, in this order. */
  predicate HasLabels(r: seq<Completion>, labels: seq<string>)
  {
    |r| == |labels| && forall i :: 0 <= i < |r| ==> r[i].text == labels[i]
  }

  /** The shared generator's last resort: the default branch kept no label. */
  predicate EchoesQuery(q: string)
  {
    Classify(q).DefaultBranch? && |KeepPrefixed(DefaultLabels, LowerStr(q))| == 0
  }

  /** The labels of a non-blank query in the shared generator. */
  function SharedLabels(q: string): (r: seq<string>)
    ensures EchoesQuery(q) ==> r == [q]
    ensures !EchoesQuery(q) ==> r == BranchLabels(Classify(q), q, false)
  {
    if EchoesQuery(q) then [q] else BranchLabels(Classify(q), q, false)
  }

  /** `getDateSuggestions`: a blank query gets the five starters; otherwise the
      branch's labels, previewed except the time labels; when the default branch
      keeps nothing, the query itself. */
  function GetDateSuggestions(q: string, resolve: Resolver): (r: seq<Completion>)
    ensures IsBlank(q) ==> HasLabels(r, BlankLabels)
    ensures !IsBlank(q) ==> HasLabels(r, SharedLabels(q))
    ensures !IsBlank(q) && Classify(q).TimeBranch? ==> forall c :: c in r ==> c.preview.None?
    ensures IsBlank(q) || !Classify(q).TimeBranch? ==> forall c :: c in r ==> c.preview == Preview(c.text, resolve)
  {
    if IsBlank(q) then Previewed(BlankLabels, resolve)
    else if Classify(q).TimeBranch? then Plain(SharedLabels(q))
    else Previewed(SharedLabels(q), resolve)
  }
}

=== FILE: text.dfy ===
/** The absence-or-value wrapper used across the model: a rule that does not
    apply, a lookup that misses, or a resolution that yields no date. */
module Optional {

  datatype Option<+T> = None | Some(value: T)
}

/** Character classes, case folding and the small string scanners that the
    hand-written phrase matchers are built from. Every scanner works on an index
    into the string, so a matcher can say exactly which characters it consumed. */
module Text {

  /** JavaScript `\s`: the ECMAScript white-space and line-terminator set. */
  predicate IsSpace(c: char)
  {
    c == ' ' || c == '\t' || c == '\n' || c == '\r' || c == '\U{0B}' || c == '\U{0C}'
    || c == '\U{A0}' || c == '\U{1680}' || ('\U{2000}' <= c <= '\U{200A}')
    || c == '\U{2028}' || c == '\U{2029}' || c == '\U{202F}' || c == '\U{205F}'
    || c == '\U{3000}' || c == '\U{FEFF}'
  }

  /** JavaScript `\d`: ASCII digits only. */
  predicate IsDigit(c: char)
  {
    '0' <= c <= '9'
  }

  /** JavaScript `\w`: ASCII letters, digits and underscore. An accented letter
      such as 'á' is NOT a word character, which also decides where `\b` lies. */
  predicate IsAsciiWord(c: char)
  {
    ('a' <= c <= 'z') || ('A' <= c <= 'Z') || IsDigit(c) || c == '_'
  }

  /** The class `[\wêç-]` the date parser uses to capture a single word. Under the
      case-insensitive flag 'Ê' and 'Ç' match too; the matchers lowercase first. */
  predicate IsWordChar(c: char)
  {
    IsAsciiWord(c) || c == 'ê' || c == 'ç' || c == '-' || c == 'Ê' || c == 'Ç'
  }

  /** `toLowerCase` on the Latin-1 range: A-Z and À-Þ (except the sign ×) move
      down by 32; every other character is left as it is. */
  function Lower(c: char): (r: char)
    ensures IsAsciiWord(r) <==> IsAsciiWord(c)
    ensures IsDigit(r) <==> IsDigit(c)
    ensures IsSpace(r) <==> IsSpace(c)
    ensures !('A' <= r <= 'Z')
    ensures 'A' <= c <= 'Z' ==> r as int == c as int + 32
    ensures ('a' <= c <= 'z') || IsDigit(c) || IsSpace(c) || c == '_' ==> r == c
  {
    if 'A' <= c <= 'Z' then (c as int + 32) as char
    else if '\U{C0}' <= c <= '\U{DE}' && c != '\U{D7}' then (c as int + 32) as char
    else c
  }

  /** A string is already lower case when lowering changes none of its characters. */
  predicate IsLower(s: string)
  {
    forall i :: 0 <= i < |s| ==> Lower(s[i]) == s[i]
  }

  /** `toLowerCase` on a string, character by character: the same length, and
      already lower-case text unchanged. */
  function LowerStr(s: string): (r: string)
    ensures |r| == |s|
    ensures forall i :: 0 <= i < |s| ==> r[i] == Lower(s[i])
    ensures IsLower(r)
    ensures IsLower(s) ==> r == s
  {
    seq(|s|, i requires 0 <= i < |s| => Lower(s[i]))
  }

  /** What lowering does to the letters: no capital A-Z is left, each one becomes
      its small letter, and digits and white space stay as they are. */
  lemma LowerStrLetters(s: string)
    ensures forall i :: 0 <= i < |s| ==> !('A' <= LowerStr(s)[i] <= 'Z')
    ensures forall i :: 0 <= i < |s| && 'A' <= s[i] <= 'Z' ==> LowerStr(s)[i] as int == s[i] as int + 32
    ensures forall i :: 0 <= i < |s| && (IsDigit(s[i]) || IsSpace(s[i])) ==> LowerStr(s)[i] == s[i]
  {
  }

  lemma LowerIdempotent(c: char)
    ensures Lower(Lower(c)) == Lower(c)
  {
  }

  /** Lowering a string twice is the same as lowering it once. */
  lemma LowerStrIsLower(s: string)
    ensures IsLower(LowerStr(s))
  {
    forall i | 0 <= i < |s|
      ensures Lower(LowerStr(s)[i]) == LowerStr(s)[i]
    {
      LowerIdempotent(s[i]);
    }
  }

  lemma LowerStrOfLower(s: string)
    requires IsLower(s)
    ensures LowerStr(s) == s
  {
  }

  /** The three pieces of a joined text are its slices. */
  lemma Slices3(a: string, b: string, c: string)
    ensures (a + b + c)[..|a|] == a
    ensures (a + b + c)[|a|..|a| + |b|] == b
    ensures (a + b + c)[|a| + |b|..] == c
  {
  }

  /** Text without capitals, joined, has none either. */
  lemma IsLowerConcat(a: string, b: string)
    requires IsLower(a) && IsLower(b)
    ensures IsLower(a + b)
  {
    forall i | 0 <= i < |a + b|
      ensures Lower((a + b)[i]) == (a + b)[i]
    {
      if i >= |a| {
        assert (a + b)[i] == b[i - |a|];
      }
    }
  }

  lemma LowerStrConcat(a: string, b: string)
    ensures LowerStr(a + b) == LowerStr(a) + LowerStr(b)
  {
  }

  /** `startsWith`. */
  predicate StartsWith(s: string, prefix: string)
  {
    prefix <= s
  }

  /** A text that starts with a prefix is that prefix and what follows it. */
  lemma SliceToEnd(s: string, i: nat, j: nat)
    requires i <= j == |s|
    ensures s[i..] == s[i..j]
  {
  }

  lemma StartsWithSplit(s: string, prefix: string)
    requires StartsWith(s, prefix)
    ensures prefix + s[|prefix|..] == s
  {
    assert s[..|prefix|] == prefix;
  }

  /** `s.startsWith(p, i)`: the text from index `i` on begins with `p`. */
  predicate At(s: string, i: nat, p: string)
  {
    i <= |s| && p <= s[i..]
  }

  /** The first index at or after `i` whose character does not satisfy `p`: the end
      of the greedy run `p*` that starts at `i`. */
  function RunEnd(s: string, i: nat, p: char -> bool): (j: nat)
    requires i <= |s|
    ensures i <= j <= |s|
    ensures forall k :: i <= k < j ==> p(s[k])
    ensures j == |s| || !p(s[j])
    decreases |s| - i
  {
    if i == |s| || !p(s[i]) then i else RunEnd(s, i + 1, p)
  }

  /** A greedy run ends exactly where the predicate first fails. */
  lemma {:induction false} RunEndExact(s: string, i: nat, j: nat, p: char -> bool)
    requires i <= j <= |s|
    requires forall k :: i <= k < j ==> p(s[k])
    requires j == |s| || !p(s[j])
    ensures RunEnd(s, i, p) == j
    decreases j - i
  {
    if i < j {
      RunEndExact(s, i + 1, j, p);
    }
  }

  function SpaceEnd(s: string, i: nat): (j: nat)
    requires i <= |s|
    ensures i <= j <= |s|
    ensures forall k :: i <= k < j ==> IsSpace(s[k])
    ensures j == |s| || !IsSpace(s[j])
  {
    RunEnd(s, i, IsSpace)
  }

  function DigitEnd(s: string, i: nat): (j: nat)
    requires i <= |s|
    ensures i <= j <= |s|
    ensures forall k :: i <= k < j ==> IsDigit(s[k])
    ensures j == |s| || !IsDigit(s[j])
  {
    RunEnd(s, i, IsDigit)
  }

  function WordEnd(s: string, i: nat): (j: nat)
    requires i <= |s|
    ensures i <= j <= |s|
    ensures forall k :: i <= k < j ==> IsWordChar(s[k])
    ensures j == |s| || !IsWordChar(s[j])
  {
    RunEnd(s, i, IsWordChar)
  }

  /** `\b` at index `i`: exactly one side of the position is an ASCII word character. */
  predicate WordBoundary(s: string, i: nat)
    requires i <= |s|
  {
    var before := i > 0 && IsAsciiWord(s[i - 1]);
    var after := i < |s| && IsAsciiWord(s[i]);
    before != after
  }

  /** Number of leading white-space characters. */
  function LeadingSpaces(s: string): (n: nat)
    ensures n <= |s|
    ensures forall k :: 0 <= k < n ==> IsSpace(s[k])
    ensures n == |s| || !IsSpace(s[n])
  {
    SpaceEnd(s, 0)
  }

  /** Number of trailing white-space characters. */
  function TrailingSpaces(s: string): (n: nat)
    ensures n <= |s|
    ensures forall k :: |s| - n <= k < |s| ==> IsSpace(s[k])
    ensures n == |s| || !IsSpace(s[|s| - n - 1])
    decreases |s|
  {
    if |s| == 0 || !IsSpace(s[|s| - 1]) then 0 else TrailingSpaces(s[..|s| - 1]) + 1
  }

  /** `trim`: the slice left after removing white space from both ends. */
  function Trim(s: string): (r: string)
    ensures |r| <= |s|
    ensures r == [] <==> forall k :: 0 <= k < |s| ==> IsSpace(s[k])
    ensures r != [] ==> !IsSpace(r[0]) && !IsSpace(r[|r| - 1])
    ensures exists a: nat, b: nat :: a <= b <= |s| && r == s[a..b]
              && (forall k :: 0 <= k < a ==> IsSpace(s[k]))
              && (forall k :: b <= k < |s| ==> IsSpace(s[k]))
  {
    var a := LeadingSpaces(s);
    var rest := s[a..];
    var n := TrailingSpaces(rest);
    var r := rest[..|rest| - n];
    assert r == s[a..a + |r|];
    r
  }

  /** Trimming a text that neither starts nor ends with white space leaves it as
      it is. */
  lemma TrimUnpadded(s: string)
    requires |s| > 0 && !IsSpace(s[0]) && !IsSpace(s[|s| - 1])
    ensures Trim(s) == s
  {
    assert LeadingSpaces(s) == 0;
    assert s[0..] == s;
    assert TrailingSpaces(s) == 0;
  }

  /** The trimmed text is blank exactly when every character is white space. */
  predicate IsBlank(s: string)
  {
    Trim(s) == []
  }

  function DigitValue(c: char): (v: nat)
    requires IsDigit(c)
    ensures v < 10
  {
    c as int - '0' as int
  }

  predicate AllDigits(s: string)
  {
    forall k :: 0 <= k < |s| ==> IsDigit(s[k])
  }

  /** `parseInt` of a run of ASCII digits (most significant first). */
  function DigitsValue(s: string): (v: nat)
    requires AllDigits(s)
    decreases |s|
  {
    if |s| == 0 then 0 else DigitsValue(s[..|s| - 1]) * 10 + DigitValue(s[|s| - 1])
  }

  function DigitChar(v: nat): (c: char)
    requires v < 10
    ensures IsDigit(c) && DigitValue(c) == v
  {
    ('0' as int + v) as char
  }

  /** `n` written in decimal, left-padded with zeros to at least `width` digits. */
  function ZeroPad(n: nat, width: nat): (s: string)
    ensures AllDigits(s)
    ensures |s| >= width && |s| >= 1
    ensures DigitsValue(s) == n
    decreases width + n
  {
    if n < 10 && width <= 1 then [DigitChar(n)]
    else
      var prefix := ZeroPad(n / 10, if width > 0 then width - 1 else 0);
      var s := prefix + [DigitChar(n % 10)];
      assert s[..|s| - 1] == prefix;
      s
  }

  /** Zero-padding to a width the number already fits in gives exactly that width. */
  lemma {:induction false} ZeroPadExactWidth(n: nat, width: nat)
    requires width >= 1
    requires n < Pow10(width)
    ensures |ZeroPad(n, width)| == width
    decreases width
  {
    if n < 10 && width <= 1 {
    } else {
      assert width >= 2 || n >= 10;
      if width == 1 {
        assert false;
      }
      ZeroPadExactWidth(n / 10, width - 1);
    }
  }

  function Pow10(k: nat): (p: nat)
    ensures p >= 1
  {
    if k == 0 then 1 else 10 * Pow10(k - 1)
  }
}
